=== FILE: README.md ===
# Redirect maintenance and page behaviour of a personal Jekyll site

This project is a Dafny model of two parts of a personal Jekyll website.

The first part is the script `scripts/redirect.py`. For every post of the `blog`
and `projects` collections it edits the YAML front matter:

- A post whose publish date lies in the future gets `published: false`, and its
  `redirect_from` entry is removed.
- Any other post gets its short address `/<collection>/<slug>/` listed under
  `redirect_from`.
- A file is rewritten only when something changed.

The model reads and writes the front matter line by line, as the script does.
Each regular expression of the script is written out as a predicate over lines.
The proofs cover:

- each reader (`normalize_value`, `get_slug`, `parse_redirect_block`, the date
  parser) and its partner, the writer whose lines it reads back;
- the frame of every edit, meaning which keys it leaves alone;
- that a second run over a collection rewrites nothing for posts that are not
  scheduled for the future.

The second part is the decision logic of the site's JavaScript:

- the rotating greeting;
- the eight-click easter egg;
- the featured-cards showcase (choice of mode, fade cycle with hover pause,
  marquee offset wrap);
- the card tag chips and the keyword/tag filter of the list pages;
- the project list filter;
- the light/dark theme switch in its copies;
- the mobile sidebar and the navigation bar opacity;
- the task-list and date-badge disclosures;
- the page key of the "last updated" line.

The browser appears only through parameters: layout queries, media queries,
timers, `localStorage` and the DOM are values passed in or fields of a state.

Files:

| file | module | about |
|---|---|---|
| maybe.dfy, text.dfy, scan.dfy, modular.dfy | Maybe, Text, Scan, Modular | option type; Python/JavaScript whitespace, strip, split, lower case; first/count/collect over sequences; stepping round a cycle |
| front_matter.dfy | FrontMatter | the front-matter readers of `redirect.py` |
| redirect_edit.dfy | RedirectEdit | `ensure_redirect`, `remove_redirect_block` |
| published_flag.dfy | PublishedFlag | `ensure_published_flag` |
| publish_date.dfy | PublishDate | `parse_date_value` and ISO dates |
| redirect_run.dfy | RedirectRun | one file and a whole collection (`process_collection`) |
| greeting.dfy | Greeting | `initGreeting` |
| click_run.dfy | ClickRun | the click counter of `initRipple` and `ripple.js` |
| featured.dfy | Featured | `initFeaturedShowcase` |
| card_tags.dfy, card_filter.dfy | CardTags, CardFilter | `page-filters.js` |
| projects.dfy | Projects | `technical/js/projects.js` |
| theme.dfy | Theme | the theme switch of `js/theme.js`, `technical/js/theme.js`, `initTheme` and `script.js` |
| nav.dfy | Sidebar, NavScroll | `initSidebar`, `initScrollEffects` |
| toggles.dfy | Toggles | the disclosures of `src/js/main.js` |
| page_key.dfy | PageKey | `initLastUpdated` |

## Model

| member | source | states |
|---|---|---|
| FrontMatter.IndentedIff | scripts/redirect.py:37 | a line counts as indented exactly when it is non-empty and its first character is Python whitespace |
| FrontMatter.Inner | scripts/redirect.py:22 | the slice `[1:-1]` is two characters shorter than its argument, or empty for a string under two characters |
| FrontMatter.NormalizeValue | scripts/redirect.py:17-23 | normalising never lengthens a value |
| FrontMatter.NormalizeQuoted | scripts/redirect.py:17-23 | a value wrapped in one pair of double or single quotes normalises to exactly its content, blanks inside included |
| FrontMatter.NormalizePlain | scripts/redirect.py:17-23 | a value with no outer blanks and no surrounding quote pair normalises to itself |
| FrontMatter.NormalizeKeepsOut | scripts/redirect.py:17-23 | normalising introduces no character that the value lacked |
| FrontMatter.FindFrontMatter | scripts/redirect.py:26-32 | bounds exist iff line 0 is `---` and a later `---` line exists; they are (0, i) with i the first later delimiter |
| FrontMatter.KeyRest | scripts/redirect.py:53 | a line matching `^key\s*:` starts with the key, and what follows the colon is shorter than the line |
| FrontMatter.FirstKeyLine | scripts/redirect.py:49-55 | the index found is the first unindented `key:` line, and no line before it is one |
| FrontMatter.GetFrontMatterValue | scripts/redirect.py:137-147 | no value iff no unindented key line; otherwise the normalised, comment-free value of the first such line, even when empty |
| FrontMatter.GetSlug | scripts/redirect.py:35-45 | the stem when no `slug:` line has a non-empty value; otherwise the normalised value of the first line that has one |
| FrontMatter.RawValueNoHash | scripts/redirect.py:42 | a value read from a key line never contains `#` |
| FrontMatter.SlugNoHash | scripts/redirect.py:35-45 | the slug contains `#` only if the file's stem does |
| FrontMatter.SameKeyLinesReading | scripts/redirect.py:35-45 | front matters that agree on the key lines for a key read the same value and slug for it |
| FrontMatter.KeyLinesSplice | scripts/redirect.py:137-147 | replacing lines that are not key lines by other such lines leaves everything read for the key unchanged |
| FrontMatter.KeyLinesUpdate | scripts/redirect.py:137-147 | overwriting a non-key line with another non-key line leaves the key's reading unchanged |
| FrontMatter.KeyLinesInsert | scripts/redirect.py:137-147 | inserting non-key lines leaves the key's reading unchanged |
| FrontMatter.NotDelimiterByHead | scripts/redirect.py:30 | a line starting with neither a blank nor `-` is never a front-matter delimiter |
| FrontMatter.KeyLineStartsNonSpace | scripts/redirect.py:51-53 | every key line ends a block list, since it matches `^\S` |
| FrontMatter.KeyLinesDisjoint | scripts/redirect.py:53 | two keys, neither a prefix of the other, never match the same line |
| FrontMatter.AfterKeyColon | scripts/redirect.py:60 | for `key: t` with no colon in the key, the text after the first colon is `t` |
| FrontMatter.HeaderIsKeyLine | scripts/redirect.py:95 | the header `key:` written by the script is read back as a key line |
| FrontMatter.HeaderInlineValue | scripts/redirect.py:59-62 | the written header carries no inline value, so it reads as a block |
| FrontMatter.WrittenValueLine | scripts/redirect.py:167 | a line `key: v` written for a plain value is a key line whose value reads back as `v` |
| FrontMatter.ListItems | scripts/redirect.py:68-69 | a flow list never yields more items than it has comma-separated parts |
| FrontMatter.EmptyFlowList | scripts/redirect.py:65-67 | a flow list holding only blanks has no items |
| FrontMatter.BlockItems | scripts/redirect.py:81-83 | a block yields at most one item per line |
| FrontMatter.BlockEnd | scripts/redirect.py:77-84 | the block ends at the first line at or after its start that matches `^\S`, or at the end |
| FrontMatter.ParseRedirectBlock | scripts/redirect.py:48-85 | none iff no unindented `redirect_from:` line; otherwise the first one, inline iff it carries a value (items from the value), else a block over the following non-`^\S` lines with their items |
| FrontMatter.DashIndent | scripts/redirect.py:111-113 | the captured indent is blanks followed by a dash in the line |
| RedirectEdit.ShortUrlAddress | scripts/redirect.py:89 | the short address of a collection and a slug without `#` begins and ends with `/` and has no `#` |
| RedirectEdit.ItemLines | scripts/redirect.py:102-104 | one item line, indented by two blanks, per item and in order |
| RedirectEdit.AfterDashAddress | scripts/redirect.py:81 | the block-item pattern recovers an address from the text after a dash |
| RedirectEdit.ItemLineReadsBack | scripts/redirect.py:81-83 | an item line written for an address is read back as that address |
| RedirectEdit.ItemLineShape | scripts/redirect.py:79 | an indented item line never ends a block and is never a delimiter |
| RedirectEdit.ListIndent | scripts/redirect.py:108-114 | the indent for a new item is blank, and it is non-empty when the block's lines are all indented |
| RedirectEdit.ListIndentSpec | scripts/redirect.py:108-114 | two blanks when no block line matches `^(\s*)-\s+`, otherwise the indent of the first one that does |
| RedirectEdit.Pad | scripts/redirect.py:93-94 | the padding is at most one empty line |
| RedirectEdit.EnsureRedirect | scripts/redirect.py:88-119 | reports a change iff the short address was not listed; unchanged lines when not; never removes lines |
| RedirectEdit.NewBlockLists | scripts/redirect.py:92-96 | with no `redirect_from` entry, the new block lists the address |
| RedirectEdit.InlineToBlockLists | scripts/redirect.py:101-106 | rewriting an inline entry as a block lists the address |
| RedirectEdit.AppendItemLists | scripts/redirect.py:107-117 | appending an item line at the block's end lists the address |
| RedirectEdit.InlineToBlockItems | scripts/redirect.py:101-106 | the rewritten block reads back as the old items followed by the address |
| RedirectEdit.AppendItemItems | scripts/redirect.py:107-117 | after appending, the block reads back as the old items followed by the address and ends one line later |
| RedirectEdit.EnsureRedirectAppends | scripts/redirect.py:107-117 | on a block entry without the address, the edit keeps the entry where it was and adds the address after its items |
| RedirectEdit.EnsureRedirectLists | scripts/redirect.py:88-119 | after the edit, the short address is listed |
| RedirectEdit.EnsureRedirectIdempotent | scripts/redirect.py:98-99 | a second edit with the same address reports no change and leaves the lines |
| RedirectEdit.WrittenItemsRead | scripts/redirect.py:102-104 | item lines written for addresses read back as exactly those addresses |
| RedirectEdit.NewBlockFrame | scripts/redirect.py:92-96 | adding a block changes nothing read for keys unrelated to `redirect_from` |
| RedirectEdit.InlineToBlockFrame | scripts/redirect.py:101-106 | rewriting inline as a block changes nothing read for unrelated keys |
| RedirectEdit.AppendItemFrame | scripts/redirect.py:107-117 | appending an item changes nothing read for any key |
| RedirectEdit.EnsureRedirectFrame | scripts/redirect.py:88-119 | the redirect edit changes nothing read for unrelated keys (slug, dates, published) |
| RedirectEdit.NewBlockNoDelimiter | scripts/redirect.py:92-96 | the new block adds no front-matter delimiter |
| RedirectEdit.InlineToBlockNoDelimiter | scripts/redirect.py:101-106 | the rewritten block adds no delimiter |
| RedirectEdit.AppendItemNoDelimiter | scripts/redirect.py:107-117 | the appended item adds no delimiter |
| RedirectEdit.EnsureRedirectNoDelimiter | scripts/redirect.py:88-119 | the edited front matter holds no delimiter when the original held none |
| RedirectEdit.RemoveRedirectBlock | scripts/redirect.py:181-191 | reports a change iff a `redirect_from` entry exists, and then is strictly shorter; otherwise the lines are unchanged |
| RedirectEdit.RemovedLines | scripts/redirect.py:185-190 | exactly the entry's lines, key line through block end, are removed |
| RedirectEdit.RemoveRedirectBlockCount | scripts/redirect.py:181-191 | removal deletes exactly one `redirect_from` key line when there is one |
| RedirectEdit.RemoveRedirectBlockLeavesNone | scripts/redirect.py:181-191 | with at most one `redirect_from` line, none is left afterwards |
| RedirectEdit.RemoveRedirectBlockFrame | scripts/redirect.py:181-191 | removal changes nothing read for unrelated keys |
| RedirectEdit.RemoveRedirectBlockNoDelimiter | scripts/redirect.py:181-191 | removal adds no delimiter |
| PublishedFlag.InsertAt | scripts/redirect.py:171-176 | the insertion point lies within the front matter |
| PublishedFlag.InsertAtSpec | scripts/redirect.py:171-176 | the flag goes right after the last `date_update`/`date_publish`/`date` line, or at the end without one |
| PublishedFlag.EnsurePublishedFlag | scripts/redirect.py:162-178 | no change only when asked for `true` with no `published` line; an existing line is rewritten in place; `false` without one adds one line |
| PublishedFlag.PublishedLineReadsBack | scripts/redirect.py:167 | the written `published` line reads back as `true` or `false` |
| PublishedFlag.EnsurePublishedFlagReads | scripts/redirect.py:162-178 | afterwards `published` reads as the requested value, except `true` with no line, which stays unread |
| PublishedFlag.EnsurePublishedFlagPlacement | scripts/redirect.py:171-177 | without a `published` line, `false` inserts exactly one line at the position after the last date line |
| PublishedFlag.SetExisting | scripts/redirect.py:163-168 | an existing `published` line, the first one, is overwritten and nothing else changes |
| PublishedFlag.RewriteSame | scripts/redirect.py:163-168 | rewriting a flag that is already right leaves the lines equal, though a change is reported |
| PublishedFlag.EnsurePublishedFlagIdempotent | scripts/redirect.py:162-178 | applying the flag twice gives the same lines as once |
| PublishedFlag.EnsurePublishedFlagFrame | scripts/redirect.py:162-178 | setting the flag changes nothing read for unrelated keys |
| PublishedFlag.EnsurePublishedFlagNoDelimiter | scripts/redirect.py:162-178 | setting the flag adds no delimiter |
| PublishDate.DaysInMonth | scripts/redirect.py:156 | a month has 28 to 31 days |
| PublishDate.FromIsoFormat | scripts/redirect.py:156-158 | a date is returned only when it is a valid calendar date in years 1 to 9999 |
| PublishDate.ParseDateValue | scripts/redirect.py:150-159 | no date for a missing or empty value; a date found is valid and is what the first ten characters after leading blanks spell |
| PublishDate.Padded | scripts/redirect.py:153 | zero padding yields exactly `width` digits |
| PublishDate.PaddedValue | scripts/redirect.py:153 | padded digits read back as the number |
| PublishDate.FormatDate | scripts/redirect.py:153 | a formatted date has the `dddd-dd-dd` shape the pattern accepts |
| PublishDate.DigitsPadded | scripts/redirect.py:153 | a digit string is the padding of its own value |
| PublishDate.FormatOfParsed | scripts/redirect.py:153-156 | a parsed date formats back to the text it was read from |
| PublishDate.ParseFormatted | scripts/redirect.py:150-159 | a formatted date, after blanks and before any suffix, parses back to the date |
| PublishDate.LaterIffKey | scripts/redirect.py:209 | the date comparison agrees with comparing `year*10000 + month*100 + day` |
| RedirectRun.Label | scripts/redirect.py:14 | collection names contain no `#` |
| RedirectRun.PublishValue | scripts/redirect.py:205-207 | `date_publish` when present, even empty; otherwise `date` |
| RedirectRun.EditFrontMatter | scripts/redirect.py:211-219 | when no edit reports a change, the front matter is unchanged |
| RedirectRun.TransformWith | scripts/redirect.py:199-225 | a file is reported changed only when it has front matter, and an unchanged file keeps its lines |
| RedirectRun.TransformFile | scripts/redirect.py:199-225 | the same, for the script's own edit |
| RedirectRun.TransformKeepsOutside | scripts/redirect.py:222 | a rewritten file keeps its opening delimiter and everything from the closing delimiter on |
| RedirectRun.Reassembled | scripts/redirect.py:222 | the rewritten file's front matter is found again and is exactly the edited lines |
| RedirectRun.SameInputsReading | scripts/redirect.py:204-209 | front matters that agree on slug and date key lines give the same slug and the same future verdict |
| RedirectRun.EditKeepsInputs | scripts/redirect.py:211-219 | the edit changes neither slug nor publish date, and adds no delimiter |
| RedirectRun.EditStablePast | scripts/redirect.py:217-219 | for a post not in the future, editing again reports no change |
| RedirectRun.EditStableFuture | scripts/redirect.py:212-216 | for a future post, editing again writes the same lines but reports a change |
| RedirectRun.PublishedFirstLine | scripts/redirect.py:162-178 | after setting `false`, the first `published` line is the one written |
| RedirectRun.TransformWithTwice | scripts/redirect.py:199-225 | with an edit stable on its own output, a second pass writes the same lines and reports a change only if the second edit does |
| RedirectRun.TransformTwice | scripts/redirect.py:199-225 | a second pass over a file writes the same lines, and reports a change iff the post is scheduled for the future |
| RedirectRun.ProcessWith | scripts/redirect.py:194-226 | each file is replaced by its step's lines, and the count is zero iff no step reports a change |
| RedirectRun.ProcessWithTwice | scripts/redirect.py:194-226 | a step that reproduces its own output leaves the files alone on a second pass |
| RedirectRun.ProcessTwice | scripts/redirect.py:194-226 | a second run over a collection leaves every file as the first left it, and rewrites nothing when no post is scheduled for the future |
| Greeting.FilterByWidth | src/js/ui-effects.js:41-52 | the filtered list is empty only when there are no greetings |
| Greeting.FilterByWidthSpec | src/js/ui-effects.js:41-52 | an order-preserving selection: exactly the fitting greetings when any fits, else all of them |
| Greeting.Load | src/js/ui-effects.js:99-118 | no rotation iff the file is empty; otherwise the first filtered greeting is on show |
| Greeting.Resize | src/js/ui-effects.js:55-73 | a changed list keeps the text on show at its first position in the new list, else shows the first entry; an unchanged list changes nothing; the shown text stays in the list |
| Greeting.Rotate | src/js/ui-effects.js:75-83 | moves one place on, wrapping round, and keeps the text on show in the list |
| Greeting.RotateTimes | src/js/ui-effects.js:75-83 | repeated rotation keeps the list and the shown text consistent |
| Greeting.RotateTimesIndex | src/js/ui-effects.js:75-83 | k rotations move k places round, and a full round shows the starting text again |
| ClickRun.Click | src/js/ui-effects.js:686-720 | a ripple iff above 200 px; a click that does not continue the run starts a new run of one; a continuing click fires exactly on the eighth; firing resets the count |
| ClickRun.Expire | src/js/ui-effects.js:713-716 | the timer clears the count and keeps the last click |
| ClickRun.ExpireAgrees | src/js/ui-effects.js:700-716 | a click more than a second after the last one is handled the same whether or not the timer ran |
| ClickRun.RunLength | technical/js/ripple.js:31-46 | the final run of a non-empty sequence has between one click and all of them |
| ClickRun.FireCount | technical/js/ripple.js:31-58 | the egg fires at most once per click |
| ClickRun.Replay | technical/js/ripple.js:31-58 | over a click sequence, the count is the final run's length modulo 8 and the egg fires once per multiple of 8 reached in a run |
| ClickRun.ReplayStep | technical/js/ripple.js:31-58 | one more click advances the count to the longer prefix's run length modulo 8 and fires exactly when that is 0 |
| Featured.ChooseMode | src/js/ui-effects.js:170-182 | reduced motion wins; then static for at most one card; the slideshow for a wide view with four or more cards; the fade otherwise |
| Featured.UpdateMode | src/js/ui-effects.js:170-196 | nothing happens iff the chosen mode is current; a rebuild shows all cards exactly for the static and reduced modes and resets the fade exactly when coming from the slideshow or no mode |
| Featured.UpdateModeSettles | src/js/ui-effects.js:170-196 | right after a rebuild, the next update does nothing |
| Featured.StartFader | src/js/ui-effects.js:244-254 | the fade starts idle at the first card with a full countdown |
| Featured.StartFadeIn | src/js/ui-effects.js:310-321 | fading in clears the pending reset and keeps the card |
| Featured.StartFadeOut | src/js/ui-effects.js:323-335 | fading out keeps the card and the pause state |
| Featured.Pause | src/js/ui-effects.js:269-275 | only a running countdown pauses, keeping what is left of it, never below zero |
| Featured.Resume | src/js/ui-effects.js:277-286 | a paused countdown resumes from now with what was left, or fades out at once when nothing was left |
| Featured.StartRetain | src/js/ui-effects.js:288-297 | a fresh full countdown, paused at once when the pointer is on the card |
| Featured.Step | src/js/ui-effects.js:269-367 | events keep the fade state consistent; the pointer on another card changes nothing; a finished fade-out moves to the next card, wrapping round |
| Featured.Run | src/js/ui-effects.js:269-367 | any sequence of events keeps the fade state consistent |
| Featured.PauseResumeBudget | src/js/ui-effects.js:269-286 | a hover resumes the countdown with exactly the time it had left, or fades out when it outlasted it |
| Featured.RoundAdvances | src/js/ui-effects.js:288-335 | one undisturbed round moves to the next card |
| Featured.RoundsAdvance | src/js/ui-effects.js:288-335 | k undisturbed rounds move k cards round the set |
| Featured.NormalizeWithinSet | src/js/ui-effects.js:437-441 | with a value and a positive width the result lies in [0, width); otherwise the value is unchanged |
| Featured.NormalizeIsRemainder | src/js/ui-effects.js:437-441 | the JavaScript remainder plus the sign correction equals the mathematical remainder |
| Featured.NormalizePeriodic | src/js/ui-effects.js:437-441 | shifting by whole set widths does not change the result, and a value already inside the set is kept |
| CardTags.ParseCardTags | src/js/page-filters.js:36-45 | the items are the parsed array, strings or not, when the attribute is present, non-empty and parses to an array; none otherwise |
| CardTags.TagNamesSpec | src/js/page-filters.js:51-52 | lower-casing the items succeeds iff every item is a string, and then yields those strings in order |
| CardTags.RenderCard | src/js/page-filters.js:47-102 | a card without a chip container is left alone without a throw; one with a container throws iff an item is not a string, keeping its old chips; otherwise a PDF chip iff the trimmed address is non-empty and the drawn tags a prefix of the ordered tags |
| CardTags.RenderAll | src/js/page-filters.js:104-107 | card i is reached iff no earlier card throws, where only a card with a container and a non-string item throws; a reached card throws exactly when it is such a card |
| CardTags.RenderAllDraws | src/js/page-filters.js:104-105 | a card the redraw reaches gets exactly what `renderCardTags` does to it alone |
| CardTags.ContainerlessPassedOver | src/js/page-filters.js:48-49 | a card without `.card-tags` is left alone whatever its tags, and the next card is still reached |
| CardTags.HighlightIndex | src/js/page-filters.js:62-67 | the first exact match when there is one, else the first containing match; none iff no tag contains the highlight |
| CardTags.MoveToFront | src/js/page-filters.js:68 | the chosen tag first and the others in their order: a permutation |
| CardTags.OrderTags | src/js/page-filters.js:58-70 | a permutation of the tags; unchanged without a highlight or a match; an exact match comes first |
| CardTags.Layout | src/js/page-filters.js:53-57 | as many tags as the budget leaves beside the PDF chip, taken from the front |
| CardTags.RenderCardTags | src/js/page-filters.js:47-102 | a PDF chip iff the trimmed address is non-empty; the drawn tags are a prefix of the ordered tags |
| CardTags.ChipsAccount | src/js/page-filters.js:53-101 | at most four chips; the `+N` chip accounts exactly for what is not drawn and appears iff tags and PDF exceed four |
| CardTags.ChipsFromTags | src/js/page-filters.js:85-93 | every drawn tag is one of the card's tags, none more often than it occurs |
| CardFilter.FilterCards | src/js/page-filters.js:109-141 | a card is visible iff it matches the lower-cased, trimmed keyword; the message names the list and the search mode; the chips are redrawn highlighting the keyword in tag mode and nothing in title mode |
| CardFilter.FilterCardsSpec | src/js/page-filters.js:109-141 | the message appears iff the keyword is non-empty and nothing matches; Show All is lit iff some card is hidden; an empty keyword shows all |
| CardFilter.Step | src/js/page-filters.js:143-180 | typing puts the text in the box and filters by it; Enter and the search icon filter by the box and change nothing else; the tag button flips the mode and clears the input; Show All clears both; a tag chip searches its trimmed text by tag; PDF and overflow chips change nothing and filter nothing |
| CardFilter.ResetShowsAll | src/js/page-filters.js:157-169 | after the tag button or Show All every card is visible, with no message and Show All unlit |
| Projects.FilterByTag | technical/js/projects.js:32 | every listed project has the tag, compared ignoring case |
| Projects.FilterByTagSpec | technical/js/projects.js:32 | an order-preserving selection of exactly the projects with the tag |
| Projects.DoSearch | technical/js/projects.js:63-73 | a blank search lists all projects with Show All lit; otherwise it lists the trimmed tag's projects; the box shows the active tag; the "no projects" message shows iff no project has the active tag, or there are none at all |
| Projects.ShowAll | technical/js/projects.js:54-60 | all projects listed, Show All lit, the box empty; the "no projects" message shows iff there are no projects |
| Projects.TagClick | technical/js/projects.js:29-37 | the clicked tag becomes active and fills the box, and the list is its projects; the "no projects" message shows iff no project has the tag |
| Projects.SearchAgain | technical/js/projects.js:49-73 | searching again with what the box shows gives the same page |
| Projects.SearchLightsShowAll | technical/js/projects.js:54 | Show All is lit after a search iff the input was blank |
| Projects.SearchIgnoresCase | technical/js/projects.js:70 | tags differing only in letter case list the same projects |
| Theme.Current | js/theme.js:6-13 | the current theme is never empty |
| Theme.Flip | js/theme.js:43 | the toggle always yields a different theme, dark or light |
| Theme.FlipTwice | js/theme.js:43 | toggling dark/light twice returns to the start |
| Theme.Buttons | js/theme.js:16-20 | the system button is lit for system mode; the theme button is disabled only in the switchable copy and in system mode |
| Theme.Init | js/theme.js:51-53 | the page starts consistent, showing the attribute if set, else the system theme |
| Theme.Step | js/theme.js:23-60 | every event keeps the buttons consistent with the stored preference; OS changes apply only in system mode; a disabled toggle does nothing; the system button in the switchable copy stores the shown theme when in system mode, and otherwise forgets the preference, shows the OS theme, lights itself and disables the theme button; the always-on copies ignore it |
| Theme.ToggleEnabledIff | src/js/ui-effects.js:1095-1101 | the theme button works iff the copy keeps it on or a preference is stored |
| Theme.SystemToggleRoundTrip | js/theme.js:23-37 | leaving system mode stores the shown theme, and coming back returns to system mode with the OS theme |
| Theme.ToggleTwice | js/theme.js:40-48 | toggling twice shows the starting theme again, now stored |
| Theme.Preferred | script.js:5-8 | the stored preference when there is one, else the OS theme; never empty |
| Theme.ScriptInit | script.js:22-23 | on load the stored preference is shown, or the OS theme when none is stored, and nothing is stored |
| Theme.ScriptToggle | script.js:26-30 | the toggle stores and shows light after dark and dark otherwise |
| Theme.ScriptOsChange | script.js:34-38 | an OS change applies only without a stored preference |
| Theme.ScriptToggleSticks | script.js:26-38 | after a toggle, OS changes are ignored and the shown theme is the preferred one |
| Sidebar.Toggle | src/js/ui-effects.js:817-821 | the sidebar, overlay and no-scroll flags all flip, and stay in agreement |
| Sidebar.Close | src/js/ui-effects.js:822-826 | all three flags are off afterwards |
| Sidebar.CloseIdempotent | src/js/ui-effects.js:822-826 | closing twice equals closing once |
| Sidebar.Step | src/js/ui-effects.js:803-816 | the menu flips the sidebar; the overlay and links close it; a resize wider than 768 px closes it and narrower ones leave it |
| Sidebar.RunAgrees | src/js/ui-effects.js:803-826 | any sequence of events keeps the three flags in agreement |
| Sidebar.ToggleTwice | src/js/ui-effects.js:817-821 | toggling twice restores every flag |
| NavScroll.NavOpacity | src/js/ui-effects.js:740-755 | full opacity iff a banner exists and the page is not scrolled past it |
| NavScroll.OpacityMonotone | src/js/ui-effects.js:740-755 | scrolling further never brings back full opacity, and without a banner it is always half |
| NavScroll.TopIsFull | src/js/ui-effects.js:740-764 | an unscrolled page with a banner shows the bar at full opacity |
| Toggles.InitTask | src/js/main.js:36-39 | an item starts checked when it already was or its checkbox is ticked |
| Toggles.ToggleTask | src/js/main.js:43-49 | a toggle flips the item and leaves a checkbox agreeing with it |
| Toggles.OnTask | src/js/main.js:51-60 | a plain click, Enter or Space toggles; clicks on controls and other keys do nothing |
| Toggles.TaskRunParity | src/js/main.js:43-60 | after events the item is flipped iff the number of triggering events is odd, and the checkbox agrees once any event triggered |
| Toggles.TaskPage | src/js/main.js:30-62 | nothing happens on an individual subpage; elsewhere the item is set up and then follows the events |
| Toggles.ListId | src/js/main.js:74-75 | an existing id is kept; otherwise a generated one with the kind's prefix |
| Toggles.GeneratedIdsDiffer | src/js/main.js:74 | ids generated for different positions differ |
| Toggles.SetUp | src/js/main.js:68-81 | set up iff date and list are present (and a badge item for badges), collapsed, with the list's id |
| Toggles.ToggleList | src/js/main.js:83-86 | visibility flips and `aria-expanded` says the new state |
| Toggles.OnDate | src/js/main.js:88-97 | a click, Enter or Space toggles; other keys do nothing |
| Toggles.ExpandedMirrors | src/js/main.js:83-97 | after any events `aria-expanded` still mirrors visibility and the id is unchanged |
| Toggles.SetUpAll | src/js/main.js:64-99 | each wrap is set up with its own position |
| Toggles.SetUpAllIdsDiffer | src/js/main.js:64-99 | two wraps without ids get different ids |
| PageKey.Segments | technical/js/data-updated.js:2 | the segments are non-empty and contain no slash |
| PageKey.PageName | technical/js/data-updated.js:2 | a key exists iff the path has a non-empty segment, and it is never empty |
| PageKey.KeyOfRedundant | technical/js/data-updated.js:6 | the second empty-key check never changes the key |
| PageKey.TrailingSlash | technical/js/data-updated.js:2 | a trailing slash does not change the key |
| PageKey.IndexPrefixRemoved | technical/js/data-updated.js:2 | a last segment starting with `index.html` loses that prefix, and becomes `home` when nothing is left |
| PageKey.IndexIsHome | technical/js/data-updated.js:2 | a path ending in `index.html` is the home page |
| PageKey.PlainSegment | technical/js/data-updated.js:2 | a last segment without `index.html` is the key |
| PageKey.FirstOccurrenceOnly | technical/js/data-updated.js:2 | only the first `index.html` is removed |
| PageKey.LastUpdated | technical/js/data-updated.js:1-13 | throws iff the path has no segment; writes the text of the page's entry exactly when the property read on the data is truthy and the element exists, and nothing otherwise |
| PageKey.HomeEntry | technical/js/data-updated.js:1-13 | a path ending in `index.html` shows the text of the `home` entry |
| PageKey.InheritedKey | technical/js/data-updated.js:2-12 | a page named `constructor` shows whatever the property read yields, including a member inherited from `Object.prototype` |

## Left out

- File handling of `redirect.py` is not modelled: `iter_content_files`, `prepare_destination`, `ensure_empty_dest`, `resolve_path`, `main` and the reading and writing of files. A collection is a sequence of files, each a stem and its lines.
- The current date is a parameter of the run. The file name's stem stands for `os.path.splitext(os.path.basename(...))`.
- `\d` in the date pattern is modelled as ASCII digits. Python's `fromisoformat` rejects other digits, so the outcome is the same.
- Lower-casing (`toLowerCase`) is modelled for ASCII letters only.
- JSON parsing, `fetch`, timers, `requestAnimationFrame`, media queries, text measurement, scroll positions and element sizes are parameters or events. Layout, animation, vibration and the marquee geometry (`setupSlideshow` apart from `normalizeWithinSet`) are not modelled.
- Not modelled: the to-top button, `copy-page-link.js`, `ui-loader.js`, `data-blog.js`, `js/greetings.js`, `js/ripple.js`, `js/main.js`, `technical/js/sidebar.js`, `technical/js/scroll.js`, `initCardImageHeights` and `initCardImagePreview`. They are DOM wiring with no decision logic beyond what the modelled copies show.
- RedirectRun.TransformTwice: stated for stems without `#`. The slug is written unquoted and read back cut at `#`, so for such a stem a second run would add the address again.
- RedirectRun.TransformTwice: stated for front matter with at most one `redirect_from` line. Each run removes only the first, so for future posts with more lines the output changes again.
- RedirectRun.TransformTwice: stated for stems without `\n` or `\r`, and the second pass is given the lines the first wrote rather than the file read again. The script re-reads with `readlines` (scripts/redirect.py:197-198), which ends a line at every `\n` and lone `\r`. For a stem such as `a\nb` the written item `  - /blog/a\nb/` comes back as two lines, the address is not found, and every run appends it again. Splitting files into lines is not modelled.
- RedirectRun.ProcessTwice: carries the same three conditions as TransformTwice, for every file.
- RedirectEdit.InlineToBlockItems: stated when every old item is an address and the line after the entry is not indented. For other items the rewritten block reads back its items normalised by the block pattern, which this lemma does not describe.
- RedirectEdit.EnsureRedirectAppends: covers the block style only. The inline style is InlineToBlockItems.
- ClickRun.ExpireAgrees: says that the one-second timer and the pause check agree only for clicks more than a second apart. Timer interleavings within one millisecond of the window are not modelled.
- Featured.NormalizeWithinSet: offsets, widths and times are integers here, but doubles in the script (src/js/ui-effects.js:437-451, 269-297). In doubles a tiny negative remainder plus the width rounds to the width itself (value `-1e-20`, width 100 gives 100), so the script can return a value outside [0, width) that the integer model excludes.
- Featured.Step: the fade state's consistency does not bound the remaining countdown from above.
- NavScroll.NavOpacity: scroll positions and banner sizes are reals, and CSS values are the two opacities.
- Theme.Step: the theme names are free strings. Only `"dark"` and `"light"` come from the scripts; other stored values are kept as they are.
- Projects.FilterByTag: project tags are taken to be lists of strings. A project without `tags`, or with a tag that is not a string, makes `t.toLowerCase()` throw (technical/js/projects.js:32, 70); that path is not modelled.
- Projects.DoSearch: the box is stated to show the active tag. The script writes the tag into the input's `value` attribute unescaped (technical/js/projects.js:51), so the box shows the tag only when it has no `"` and no `&`. For `a"b` the box shows `a`, and an entity such as `&amp;` shows decoded. HTML attribute parsing is not modelled.
- Projects.SearchAgain: holds for tags without `"` or `&`, for the same reason as DoSearch. For `a"b` a second search lists the projects tagged `a`.

=== FILE: card_filter.dfy ===
/** The card filter above a list of posts or projects: `filterCards` and
    the search-mode buttons of `initCardFilters`, written the same way in
    `src/js/page-filters.js` and `technical/js/page-filters.js`. A keyword
    shows the cards whose title (or, in tag mode, whose tag list) contains
    it; a message says when none does, and the Show-All button lights up
    while any card is hidden. */
module CardFilter {
  import opened Maybe
  import opened Text
  import opened Scan

  /** What the filter reads from a card: the `data-tags` text and the title
      text, each empty when missing. */
  datatype Card = Card(tags: string, title: string)

  /** Which list the filter serves; it only changes the wording. */
  datatype ListKind = Posts | Projects

  function Label(kind: ListKind): string {
    if kind == Posts then "posts" else "projects"
  }

  /** The message under a list with no match. */
  function NoResults(kind: ListKind, tagMode: bool): string {
    "No " + Label(kind) + (if tagMode then " found for this tag." else " found for this keyword.")
  }

  /** The keyword as compared: lower case, trimmed. */
  function Keyword(input: string): string {
    Strip(Lower(input), JavaScript)
  }

  /** A card is shown for keyword `kw` (already lower-cased and trimmed):
      always for an empty keyword, else when the lower-cased tag text (tag
      mode) or title (title mode) contains it. */
  predicate Matches(c: Card, kw: string, tagMode: bool) {
    kw == "" || (if tagMode then Contains(Lower(c.tags), kw) else Contains(Lower(c.title), kw))
  }

  /** What the list shows after filtering: which cards are visible, the
      message if any, whether Show-All is lit, and the highlight the tag
      chips are drawn with (`src/js/page-filters.js` only). */
  datatype View = View(visible: seq<bool>, message: Option<string>, showAll: bool, highlight: string)

  /** A card's visibility flag is set: what `visibleCount` counts. */
  predicate IsVisible(b: bool) {
    b
  }

  /** `filterCards`. */
  function FilterCards(cards: seq<Card>, input: string, tagMode: bool, kind: ListKind): (v: View)
    ensures |v.visible| == |cards|
    ensures forall i :: 0 <= i < |cards| ==> v.visible[i] == Matches(cards[i], Keyword(input), tagMode)
    ensures v.message.Some? ==> v.message.value == NoResults(kind, tagMode)
    ensures v.highlight == (if tagMode then Keyword(input) else "")
  {
    var kw := Keyword(input);
    var visible := seq(|cards|, i requires 0 <= i < |cards| => Matches(cards[i], kw, tagMode));
    var count := CountWhere(IsVisible, visible);
    View(visible,
         if count == 0 && kw != "" then Some(NoResults(kind, tagMode)) else None,
         count < |cards|,
         if tagMode then kw else "")
  }

  /** The message and the Show-All button, stated by the cards: the message
      is there exactly when a non-empty keyword matches no card, Show-All is
      lit exactly when some card does not match, and an empty keyword shows
      every card. */
  lemma FilterCardsSpec(cards: seq<Card>, input: string, tagMode: bool, kind: ListKind)
    ensures var v := FilterCards(cards, input, tagMode, kind);
      var kw := Keyword(input);
      (v.message.Some? <==> kw != "" && forall i :: 0 <= i < |cards| ==> !Matches(cards[i], kw, tagMode))
      && (v.showAll <==> exists i :: 0 <= i < |cards| && !Matches(cards[i], kw, tagMode))
      && (kw == "" ==> !v.showAll && v.message.None?)
  {
    var v := FilterCards(cards, input, tagMode, kind);
    CountWhereAll(IsVisible, v.visible);
    FirstWhereIsFirst(IsVisible, v.visible);
  }

  /** The search box and its mode. */
  datatype Search = Search(tagMode: bool, input: string)

  /** A chip under a card: a tag, the `+N` chip or the PDF link. The list
      in `technical/js/page-filters.js` only has tag chips. */
  datatype Chip = TagChip(text: string) | OverflowChip | PdfChip

  datatype Event =
    | Typed(text: string)
    | Submit
    | TagButton
    | ShowAll
    | ChipClick(chip: Chip)

  /** The handlers: typing filters by the new text, Enter and the search
      icon by the text in the box; the tag button flips the mode and clears
      the box; Show-All goes back to title mode and clears the box; a tag
      chip searches its trimmed text in tag mode; the `+N` and PDF chips
      change nothing and filter nothing. The view is what the list is filtered to, if anything. */
  function Step(s: Search, e: Event, cards: seq<Card>, kind: ListKind): (r: (Search, Option<View>))
    ensures r.1.Some? ==> r.1.value == FilterCards(cards, r.0.input, r.0.tagMode, kind)
    ensures r.1.None? <==> e.ChipClick? && !e.chip.TagChip?
    ensures e.TagButton? ==> r.0 == Search(!s.tagMode, "")
    ensures e.ShowAll? ==> r.0 == Search(false, "")
    ensures e.ChipClick? && e.chip.TagChip? ==> r.0 == Search(true, Strip(e.chip.text, JavaScript))
    ensures e.Typed? ==> r.0 == s.(input := e.text)
    ensures e.Submit? || (e.ChipClick? && !e.chip.TagChip?) ==> r.0 == s
  {
    match e
    case Typed(text) => var t := s.(input := text); (t, Some(FilterCards(cards, t.input, t.tagMode, kind)))
    case Submit => (s, Some(FilterCards(cards, s.input, s.tagMode, kind)))
    case TagButton => var t := Search(!s.tagMode, ""); (t, Some(FilterCards(cards, "", t.tagMode, kind)))
    case ShowAll => var t := Search(false, ""); (t, Some(FilterCards(cards, "", false, kind)))
    case ChipClick(chip) =>
      match chip
      case TagChip(text) =>
        var t := Search(true, Strip(text, JavaScript));
        (t, Some(FilterCards(cards, t.input, true, kind)))
      case _ => (s, None)
  }

  /** The tag button and Show-All both end with every card shown, no
      message and Show-All unlit. */
  lemma ResetShowsAll(s: Search, e: Event, cards: seq<Card>, kind: ListKind)
    requires e.TagButton? || e.ShowAll?
    ensures var v := Step(s, e, cards, kind).1.value;
      v.message.None? && !v.showAll && forall i :: 0 <= i < |cards| ==> v.visible[i]
  {
    var r := Step(s, e, cards, kind);
    assert Keyword("") == "";
    FilterCardsSpec(cards, "", r.0.tagMode, kind);
  }
}

=== FILE: card_tags.dfy ===
/** The tag chips under a card, as `renderCardTags` in
    `src/js/page-filters.js` draws them: the tags read from the card's
    `data-tags-json`, an optional PDF chip, at most four chips in all with a
    `+N` chip for the rest, and the searched tag moved to the front. */
module CardTags {
  import opened Maybe
  import opened Text
  import opened Scan

  /** Chips a card shows at most, the PDF chip included. */
  const ChipBudget := 4

  /** One element of a parsed array: a string, or anything else (a number,
      `null`, an object, a nested array). */
  datatype Item = Str(s: string) | NonString

  /** What `JSON.parse` makes of an attribute: a syntax error, a value that
      is not an array, or an array. */
  datatype Json = Invalid | NotArray | Array(items: seq<Item>)

  /** `parseCardTags`: the array in `data-tags-json`, whatever its elements,
      and no tags when the attribute is missing or empty, does not parse, or
      holds something other than an array. `parse` stands for `JSON.parse`. */
  function ParseCardTags(raw: Option<string>, parse: string -> Json): (tags: seq<Item>)
    ensures tags == [] || (raw.Some? && raw.value != "" && parse(raw.value) == Array(tags))
    ensures raw.Some? && raw.value != "" && parse(raw.value).Array? ==> tags == parse(raw.value).items
  {
    if raw.None? || raw.value == "" then []
    else match parse(raw.value)
      case Array(items) => items
      case _ => []
  }

  /** Tests on a lower-cased tag name. */
  function Equals(h: string): string -> bool {
    (t: string) => t == h
  }

  function Includes(h: string): string -> bool {
    (t: string) => Contains(t, h)
  }

  lemma ContainsSelf(s: string)
    ensures Contains(s, s)
  {
    assert s[0..|s|] == s;
  }

  /** The position of the highlighted tag among the lower-cased names: the
      first exact match, else the first name that contains the highlight. */
  function HighlightIndex(lower: seq<string>, h: string): (r: Option<nat>)
    ensures r.None? <==> NoneWhere(Includes(h), lower)
    ensures !NoneWhere(Equals(h), lower) ==> r.Some? && IsFirst(Equals(h), lower, r.value)
    ensures NoneWhere(Equals(h), lower) && r.Some? ==> IsFirst(Includes(h), lower, r.value)
  {
    FirstWhereIsFirst(Equals(h), lower);
    FirstWhereIsFirst(Includes(h), lower);
    var exact := FirstWhere(Equals(h), lower);
    if exact < |lower| then
      ContainsSelf(lower[exact]);
      assert Includes(h)(lower[exact]);
      Some(exact)
    else
      var sub := FirstWhere(Includes(h), lower);
      if sub < |lower| then Some(sub) else None
  }

  /** `[tags[m], ...tags.filter((_, i) => i !== m)]`: tag `m` first, the
      others after it in their order. */
  function MoveToFront(tags: seq<string>, m: nat): (r: seq<string>)
    requires m < |tags|
    ensures |r| == |tags| && r[0] == tags[m]
    ensures multiset(r) == multiset(tags)
    ensures forall i :: 0 <= i < m ==> r[i + 1] == tags[i]
    ensures forall i :: m < i < |tags| ==> r[i] == tags[i]
  {
    var r := [tags[m]] + tags[..m] + tags[m + 1..];
    assert tags == tags[..m] + [tags[m]] + tags[m + 1..];
    r
  }

  /** The highlight as `renderCardTags` compares it: trimmed, lower case. */
  function HighlightOf(highlightTag: string): string {
    Lower(Strip(highlightTag, JavaScript))
  }

  /** The tags in the order their chips are drawn: with a highlight, the
      first tag equal to it first, or when none is equal the first tag that
      contains it; with no highlight or no match, as in the card. */
  function OrderTags(tags: seq<string>, highlightTag: string): (r: seq<string>)
    ensures multiset(r) == multiset(tags) && |r| == |tags|
    ensures (HighlightOf(highlightTag) == ""
             || NoneWhere(Includes(HighlightOf(highlightTag)), Map(Lower, tags))) ==> r == tags
    ensures HighlightOf(highlightTag) != "" ==>
      forall m :: IsFirst(Equals(HighlightOf(highlightTag)), Map(Lower, tags), m) ==> r[0] == tags[m]
    ensures HighlightOf(highlightTag) != "" && NoneWhere(Equals(HighlightOf(highlightTag)), Map(Lower, tags)) ==>
      forall m :: IsFirst(Includes(HighlightOf(highlightTag)), Map(Lower, tags), m) ==> r[0] == tags[m]
  {
    var h := HighlightOf(highlightTag);
    FirstWhereIsFirst(Equals(h), Map(Lower, tags));
    FirstWhereIsFirst(Includes(h), Map(Lower, tags));
    if h == "" then tags
    else match HighlightIndex(Map(Lower, tags), h)
      case None => tags
      case Some(m) => MoveToFront(tags, m)
  }

  /** The chips of a card: whether the PDF chip is there, the tag chips in
      order, and the number on the `+N` chip, 0 when there is none. */
  datatype Chips = Chips(pdf: bool, tags: seq<string>, overflow: nat)

  /** The chips for tags already in drawing order: the PDF chip when there
      is a PDF, as many tags as the budget leaves room for, and the count of
      the rest. */
  function Layout(ordered: seq<string>, hasPdf: bool): (c: Chips)
    ensures c.pdf == hasPdf
    ensures |c.tags| == if |ordered| < ChipBudget - (if hasPdf then 1 else 0) then |ordered|
                         else ChipBudget - (if hasPdf then 1 else 0)
    ensures c.tags == ordered[..|c.tags|]
  {
    var total := |ordered| + (if hasPdf then 1 else 0);
    var overflow := if total > ChipBudget then total - ChipBudget else 0;
    var limit := ChipBudget - (if hasPdf then 1 else 0);
    var shown := if |ordered| < limit then |ordered| else limit;
    Chips(hasPdf, ordered[..shown], overflow)
  }

  /** `renderCardTags`: the tags in highlight order, laid out with the PDF
      chip when the trimmed PDF address is not empty. */
  function RenderCardTags(tags: seq<string>, pdfUrl: string, highlightTag: string): (c: Chips)
    ensures c.pdf <==> Strip(pdfUrl, JavaScript) != ""
    ensures |c.tags| <= |tags|
    ensures c.tags == OrderTags(tags, highlightTag)[..|c.tags|]
  {
    Layout(OrderTags(tags, highlightTag), Strip(pdfUrl, JavaScript) != "")
  }

  /** Chips drawn, in words: never more than four, the `+N` chip makes up
      the rest of the tags and the PDF link exactly, and it is there exactly
      when tags and PDF together exceed four. */
  lemma ChipsAccount(tags: seq<string>, pdfUrl: string, highlightTag: string)
    ensures var c := RenderCardTags(tags, pdfUrl, highlightTag);
      var pdf := if c.pdf then 1 else 0;
      pdf + |c.tags| <= ChipBudget
      && |c.tags| == (if |tags| < ChipBudget - pdf then |tags| else ChipBudget - pdf)
      && pdf + |c.tags| + c.overflow == |tags| + pdf
      && (c.overflow > 0 <==> |tags| + pdf > ChipBudget)
  {
    LayoutAccount(OrderTags(tags, highlightTag), Strip(pdfUrl, JavaScript) != "");
  }

  lemma LayoutAccount(ordered: seq<string>, hasPdf: bool)
    ensures var c := Layout(ordered, hasPdf);
      var pdf := if c.pdf then 1 else 0;
      pdf + |c.tags| <= ChipBudget
      && pdf + |c.tags| + c.overflow == |ordered| + pdf
      && (c.overflow > 0 <==> |ordered| + pdf > ChipBudget)
  {
  }

  /** Every drawn tag is one of the card's tags, none drawn more often than it
      occurs. */
  lemma ChipsFromTags(tags: seq<string>, pdfUrl: string, highlightTag: string)
    ensures multiset(RenderCardTags(tags, pdfUrl, highlightTag).tags) <= multiset(tags)
  {
    var c := RenderCardTags(tags, pdfUrl, highlightTag);
    var ordered := OrderTags(tags, highlightTag);
    assert ordered == ordered[..|c.tags|] + ordered[|c.tags|..];
  }

  // ---------------------------------------------------------------------
  // Tags that are not strings

  /** The tag names, when every element is a string; `None` when one is
      not, where `tag.toLowerCase()` throws a `TypeError`. */
  function TagNames(items: seq<Item>): Option<seq<string>> {
    if |items| == 0 then Some([])
    else if items[0].NonString? then None
    else match TagNames(items[1..])
      case None => None
      case Some(rest) => Some([items[0].s] + rest)
  }

  /** Lower-casing succeeds exactly when every element is a string, and
      then gives those strings in order. */
  lemma {:induction false} TagNamesSpec(items: seq<Item>)
    ensures TagNames(items).Some? <==> forall i :: 0 <= i < |items| ==> items[i].Str?
    ensures TagNames(items).Some? ==>
      |TagNames(items).value| == |items| && forall i :: 0 <= i < |items| ==> TagNames(items).value[i] == items[i].s
    decreases |items|
  {
    if |items| > 0 {
      TagNamesSpec(items[1..]);
      assert forall i :: 1 <= i < |items| ==> items[1..][i - 1] == items[i];
    }
  }

  /** What a card carries for its chips: whether it has a `.card-tags`
      element, `data-tags-json`, and `data-pdf-url` (empty when missing). */
  datatype Card = Card(hasContainer: bool, rawTags: Option<string>, pdfUrl: string)

  /** What `renderCardTags` does to one card: nothing, when the card has no
      chip container (it returns before reading the tags); a throw on a tag
      that is no string, which happens while the tags are lower-cased,
      before the container is emptied, so the card keeps the chips it had;
      or the chips it draws. */
  datatype Redraw = NoContainer | Throws | Drawn(chips: Chips)

  /** Drawing the card's chips does not throw: it has no container, or
      every tag is a string. */
  predicate Safe(card: Card, parse: string -> Json) {
    !card.hasContainer || TagNames(ParseCardTags(card.rawTags, parse)).Some?
  }

  /** `renderCardTags` on one card. */
  function RenderCard(card: Card, parse: string -> Json, highlightTag: string): (r: Redraw)
    ensures r.NoContainer? <==> !card.hasContainer
    ensures var items := ParseCardTags(card.rawTags, parse);
      r.Throws? <==> card.hasContainer && exists i :: 0 <= i < |items| && items[i].NonString?
    ensures r.Throws? <==> !Safe(card, parse)
    ensures r.Drawn? ==>
      var names := TagNames(ParseCardTags(card.rawTags, parse)).value;
      r.chips.pdf == (Strip(card.pdfUrl, JavaScript) != "")
      && multiset(r.chips.tags) <= multiset(names) && |r.chips.tags| <= |names|
      && r.chips.tags == OrderTags(names, highlightTag)[..|r.chips.tags|]
  {
    TagNamesSpec(ParseCardTags(card.rawTags, parse));
    if !card.hasContainer then NoContainer
    else match TagNames(ParseCardTags(card.rawTags, parse))
      case None => Throws
      case Some(names) =>
        ChipsFromTags(names, card.pdfUrl, highlightTag);
        Drawn(RenderCardTags(names, card.pdfUrl, highlightTag))
  }

  /** `n` cards the redraw does not reach. */
  function Untouched(n: nat): (r: seq<Option<Redraw>>)
    ensures |r| == n && forall i :: 0 <= i < n ==> r[i].None?
  {
    if n == 0 then [] else [None] + Untouched(n - 1)
  }

  /** `updateCardTagsDisplay`: `renderCardTags` on every card in order,
      until one throws. The throw ends the `forEach`, so the cards after it
      are not reached (`None`) and keep their chips, and
      `requestCardLayoutUpdate` is not called; in `filterCards` the cards'
      visibility, the message and the Show-All button are set before the
      redraw and stay as set. A card without a chip container is passed
      over without a throw. */
  function RenderAll(cards: seq<Card>, parse: string -> Json, highlightTag: string): (r: seq<Option<Redraw>>)
    ensures |r| == |cards|
    ensures forall i :: 0 <= i < |cards| ==>
      (r[i].Some? <==> forall j :: 0 <= j < i ==> Safe(cards[j], parse))
    ensures forall i :: 0 <= i < |cards| && r[i].Some? ==> (r[i].value.Throws? <==> !Safe(cards[i], parse))
  {
    if |cards| == 0 then []
    else
      var first := RenderCard(cards[0], parse, highlightTag);
      if first.Throws? then [Some(first)] + Untouched(|cards| - 1)
      else
        var rest := RenderAll(cards[1..], parse, highlightTag);
        assert forall i :: 1 <= i < |cards| ==> cards[1..][i - 1] == cards[i];
        [Some(first)] + rest
  }

  /** A card the redraw reaches gets exactly what `renderCardTags` does to
      it on its own. */
  lemma {:induction false} RenderAllDraws(cards: seq<Card>, parse: string -> Json, highlightTag: string, i: nat)
    requires i < |cards| && RenderAll(cards, parse, highlightTag)[i].Some?
    ensures RenderAll(cards, parse, highlightTag)[i] == Some(RenderCard(cards[i], parse, highlightTag))
    decreases i
  {
    if i > 0 {
      assert cards[1..][i - 1] == cards[i];
      RenderAllDraws(cards[1..], parse, highlightTag, i - 1);
    }
  }

  /** A card without a chip container is passed over, whatever its tags,
      and the redraw goes on to the next card. */
  lemma ContainerlessPassedOver(cards: seq<Card>, parse: string -> Json, highlightTag: string)
    requires |cards| >= 2 && !cards[0].hasContainer
    ensures RenderAll(cards, parse, highlightTag)[0] == Some(NoContainer)
    ensures RenderAll(cards, parse, highlightTag)[1].Some?
  {
  }
}

=== FILE: click_run.dfy ===
/** The click-run counter of `initRipple` ("SUPERCLICKER"), written out the
    same way in `src/js/ui-effects.js`, `technical/js/ui-effects.js` and
    `technical/js/ripple.js`: every click near the top of the page gets a
    ripple, and eight clicks in a row on the same spot, each within a second
    of the one before, set off the easter egg. Times are the milliseconds
    `Date.now()` reads and positions the pixels of the click. */
module ClickRun {
  /** Largest move, in pixels on either axis, that still counts as the same
      spot. */
  const Threshold := 1
  /** Clicks a run needs to fire. */
  const RequiredClicks := 8
  /** Longest pause, in milliseconds, that keeps a run going. */
  const TimeWindow := 1000
  /** Clicks above this line (in pixels from the top) get a ripple. */
  const RippleBand := 200

  /** One click: when and where. */
  datatype Press = Press(time: int, x: int, y: int)

  /** The handler's variables: the clicks so far in the current run and the
      previous click. */
  datatype Counter = Counter(count: int, last: Press)

  /** The values the handler starts with. */
  const Start := Counter(0, Press(0, 0, 0))

  function Abs(n: int): nat {
    if n < 0 then -n else n
  }

  /** `p` does not continue a run whose previous click was `prev`: it came
      more than `TimeWindow` later or moved more than `Threshold` on an axis. */
  predicate Far(prev: Press, p: Press) {
    p.time - prev.time > TimeWindow
    || Abs(p.x - prev.x) > Threshold
    || Abs(p.y - prev.y) > Threshold
  }

  /** What one click does: the counter afterwards, whether a ripple is drawn
      and whether the easter egg fires. */
  datatype Outcome = Outcome(after: Counter, ripple: bool, fired: bool)

  /** The click handler: a ripple when the click is above `RippleBand`; the
      count is cleared when the click does not continue a run, then counts
      the click, and on reaching `RequiredClicks` the egg fires and the
      count goes back to 0. */
  function Click(s: Counter, p: Press): (r: Outcome)
    ensures r.ripple <==> p.y < RippleBand
    ensures r.after.last == p
    ensures 0 <= s.count < RequiredClicks ==> 0 <= r.after.count < RequiredClicks
    ensures r.fired ==> r.after.count == 0
    ensures 0 <= s.count && (s.count == 0 || Far(s.last, p)) ==> r.after.count == 1 && !r.fired
    ensures 0 <= s.count && !Far(s.last, p) ==>
      r.fired == (s.count == RequiredClicks - 1)
  {
    var count := (if s.count > 0 && Far(s.last, p) then 0 else s.count) + 1;
    if count == RequiredClicks then Outcome(Counter(0, p), p.y < RippleBand, true)
    else Outcome(Counter(count, p), p.y < RippleBand, false)
  }

  /** The one-second timer set after every click: when no click follows in
      time, the count is cleared. */
  function Expire(s: Counter): (r: Counter)
    ensures r.count == 0 && r.last == s.last
  {
    s.(count := 0)
  }

  /** A click that comes after the timer would have fired is treated the
      same whether or not the timer ran first: the pause check clears the
      count exactly as the timer does. */
  lemma ExpireAgrees(s: Counter, p: Press)
    requires s.count >= 0 && p.time - s.last.time > TimeWindow
    ensures Click(Expire(s), p) == Click(s, p)
  {
  }

  // ---------------------------------------------------------------------
  // Runs of clicks, stated without the counter

  /** Length of the run the last click of `clicks` ends: the clicks back to
      the most recent one that did not continue the click before it. */
  function RunLength(clicks: seq<Press>): (n: nat)
    ensures |clicks| > 0 ==> 1 <= n <= |clicks|
  {
    if |clicks| == 0 then 0
    else if |clicks| > 1 && Far(clicks[|clicks| - 2], clicks[|clicks| - 1]) then 1
    else RunLength(clicks[..|clicks| - 1]) + 1
  }

  /** How many of the clicks completed a multiple of `RequiredClicks` in
      their run. */
  function FireCount(clicks: seq<Press>): (n: nat)
    ensures n <= |clicks|
  {
    if |clicks| == 0 then 0
    else FireCount(clicks[..|clicks| - 1]) + (if RunLength(clicks) % RequiredClicks == 0 then 1 else 0)
  }

  /** The handler run over a sequence of clicks, with no timer in between:
      the count it ends with is the length of the final run modulo
      `RequiredClicks`, and it fires once for every click that completes a
      multiple of `RequiredClicks` in its run. */
  method Replay(clicks: seq<Press>) returns (c: Counter, fires: nat)
    ensures c.count == RunLength(clicks) % RequiredClicks
    ensures fires == FireCount(clicks)
    ensures 0 <= c.count < RequiredClicks
  {
    c := Start;
    fires := 0;
    var i := 0;
    while i < |clicks|
      invariant 0 <= i <= |clicks|
      invariant c.count == RunLength(clicks[..i]) % RequiredClicks
      invariant i > 0 ==> c.last == clicks[i - 1]
      invariant fires == FireCount(clicks[..i])
    {
      ReplayStep(clicks, i, c);
      var o := Click(c, clicks[i]);
      c := o.after;
      if o.fired {
        fires := fires + 1;
      }
      i := i + 1;
    }
    assert clicks[..|clicks|] == clicks;
  }

  /** One more click: the counter follows the run length of the longer
      prefix, and fires when that length reaches a multiple of
      `RequiredClicks`. */
  lemma ReplayStep(clicks: seq<Press>, i: nat, c: Counter)
    requires i < |clicks|
    requires c.count == RunLength(clicks[..i]) % RequiredClicks
    requires i > 0 ==> c.last == clicks[i - 1]
    ensures Click(c, clicks[i]).after.count == RunLength(clicks[..i + 1]) % RequiredClicks
    ensures Click(c, clicks[i]).fired <==> RunLength(clicks[..i + 1]) % RequiredClicks == 0
    ensures FireCount(clicks[..i + 1])
      == FireCount(clicks[..i]) + (if RunLength(clicks[..i + 1]) % RequiredClicks == 0 then 1 else 0)
  {
    var prefix := clicks[..i + 1];
    assert prefix[..i] == clicks[..i];
    assert prefix[|prefix| - 1] == clicks[i];
    var len := RunLength(clicks[..i]);
    if i > 0 && !Far(clicks[i - 1], clicks[i]) {
      assert prefix[|prefix| - 2] == clicks[i - 1];
      assert RunLength(prefix) == len + 1;
      assert len % RequiredClicks == RequiredClicks - 1 ==> (len + 1) % RequiredClicks == 0;
      assert len % RequiredClicks < RequiredClicks - 1 ==> (len + 1) % RequiredClicks == len % RequiredClicks + 1;
    } else if i > 0 {
      assert prefix[|prefix| - 2] == clicks[i - 1];
    }
  }
}

=== FILE: featured.dfy ===
/** The featured-cards showcase of `initFeaturedShowcase` in
    `src/js/ui-effects.js`: which presentation the showcase uses, the timed
    fade through the cards with its hover pause, and the wrap of a marquee
    offset into one set of cards. Media queries, timers and the clock are
    parameters; layout and the marquee geometry are not part of this model. */
module Featured {
  import opened Maybe
  import opened Modular

  /** Length of a fade, in milliseconds. */
  const FadeMs := 1500
  /** How long a card stays shown between fades, in milliseconds. */
  const RetainMs := 4500

  // ---------------------------------------------------------------------
  // Choosing the presentation

  /** The presentations; `Unset` is the empty mode before the first choice. */
  datatype Mode = Unset | Reduced | Static | Fade | Slideshow

  /** `updateMode`'s choice: reduced motion first, then a single card, then
      a wide viewport with four or more cards, and the fade otherwise. */
  function ChooseMode(reduced: bool, wide: bool, cards: nat): (m: Mode)
    ensures m == Reduced <==> reduced
    ensures m == Static <==> !reduced && cards <= 1
    ensures m == Slideshow <==> !reduced && cards > 1 && wide && cards >= 4
    ensures m == Fade <==> !reduced && cards > 1 && !(wide && cards >= 4)
  {
    if reduced then Reduced
    else if cards <= 1 then Static
    else if wide && cards >= 4 then Slideshow
    else Fade
  }

  /** What a call of `updateMode` does: tear the current presentation down
      and set up `next`, or only re-measure the one in place. */
  datatype ModeAction =
    | Rebuild(next: Mode, fadeReset: bool, hideUntilSync: bool, allVisible: bool)
    | Sync

  /** `updateMode` and `setupMode`: a new presentation is set up only when
      the choice differs from the current one. Cards are all visible in the
      static and reduced presentations; a fade that follows the slideshow or
      the first choice starts from the reset state; a new slideshow stays
      hidden until its first measurement. */
  function UpdateMode(current: Mode, reduced: bool, wide: bool, cards: nat): (a: ModeAction)
    ensures a.Sync? <==> ChooseMode(reduced, wide, cards) == current
    ensures a.Rebuild? ==> a.next == ChooseMode(reduced, wide, cards) && a.next != Unset
    ensures a.Rebuild? ==> (a.allVisible <==> a.next == Static || a.next == Reduced)
    ensures a.Rebuild? ==> (a.fadeReset <==> a.next == Fade && current in {Slideshow, Unset})
    ensures a.Rebuild? && a.next == Slideshow ==> a.hideUntilSync
  {
    var next := ChooseMode(reduced, wide, cards);
    if next == current then Sync
    else Rebuild(next,
                 next == Fade && (current == Slideshow || current == Unset),
                 next == Slideshow && current != Slideshow,
                 next == Static || next == Reduced)
  }

  /** The mode after a call of `updateMode`. */
  function ModeAfter(current: Mode, a: ModeAction): Mode {
    if a.Rebuild? then a.next else current
  }

  /** A second call with the same media-query answers and card count only
      re-measures. */
  lemma UpdateModeSettles(current: Mode, reduced: bool, wide: bool, cards: nat)
    ensures var m := ModeAfter(current, UpdateMode(current, reduced, wide, cards));
      UpdateMode(m, reduced, wide, cards) == Sync
  {
  }

  // ---------------------------------------------------------------------
  // The fade

  datatype Phase = Idle | FadeIn | Retain | FadeOut

  /** The variables of `setupFade`: the active card, the phase, whether the
      retain countdown is paused, how much of it is left and when it last
      started, and whether the first fade-in still has to clear the reset
      state. */
  datatype Fader = Fader(index: int, phase: Phase, paused: bool, remaining: int, retainStart: int, pendingReset: bool)

  /** The things that happen to the fade: the start delay, the three timers,
      and the pointer entering or leaving card `card`. `hovered` says whether
      the active card is under the pointer when its fade-in ends. */
  datatype Event =
    | Begin
    | FadeInDone(now: int, hovered: bool)
    | RetainDone
    | FadeOutDone
    | Enter(card: int, now: int)
    | Leave(card: int, now: int)

  function StartFader(pendingReset: bool): (f: Fader)
    ensures f.phase == Idle && f.index == 0 && f.remaining == RetainMs
  {
    Fader(0, Idle, false, RetainMs, 0, pendingReset)
  }

  /** What stays true while the fade runs over `n` cards: the active card is
      one of them, what is left of the countdown is never negative, and only
      the retain phase can be paused. */
  predicate Inv(f: Fader, n: int) {
    0 <= f.index < n && 0 <= f.remaining && (f.paused ==> f.phase == Retain)
  }

  /** `startFadeIn`: the active card fades in; the reset state is cleared. */
  function StartFadeIn(f: Fader): (r: Fader)
    ensures r.phase == FadeIn && !r.pendingReset && r.index == f.index && r.paused == f.paused
  {
    f.(phase := FadeIn, pendingReset := false)
  }

  /** `startFadeOut`. */
  function StartFadeOut(f: Fader): (r: Fader)
    ensures r.phase == FadeOut && r.index == f.index && r.paused == f.paused
  {
    f.(phase := FadeOut)
  }

  /** `pause`: only a running retain countdown stops, keeping what was left
      of it, never less than nothing. */
  function Pause(f: Fader, now: int): (r: Fader)
    ensures f.phase != Retain || f.paused ==> r == f
    ensures f.phase == Retain && !f.paused ==>
      r.paused && r.phase == Retain && r.index == f.index
      && r.remaining == if f.remaining - (now - f.retainStart) > 0 then f.remaining - (now - f.retainStart) else 0
    ensures r.remaining >= 0 || r == f
  {
    if f.phase != Retain || f.paused then f
    else
      var left := f.remaining - (now - f.retainStart);
      f.(paused := true, remaining := if left > 0 then left else 0)
  }

  /** `resume`: a paused countdown goes on from `now`, or the card fades out
      at once when nothing of it is left. */
  function Resume(f: Fader, now: int): (r: Fader)
    ensures !f.paused || f.phase != Retain ==> r == f
    ensures f.paused && f.phase == Retain ==> !r.paused && r.index == f.index
    ensures f.paused && f.phase == Retain && f.remaining <= 0 ==> r.phase == FadeOut
    ensures f.paused && f.phase == Retain && f.remaining > 0 ==>
      r.phase == Retain && r.retainStart == now && r.remaining == f.remaining
  {
    if !f.paused || f.phase != Retain then f
    else
      var g := f.(paused := false);
      if g.remaining <= 0 then StartFadeOut(g) else g.(retainStart := now)
  }

  /** `startRetain`: a fresh countdown from `now`, paused at once when the
      pointer is already on the card. */
  function StartRetain(f: Fader, now: int, hovered: bool): (r: Fader)
    ensures r.phase == Retain && r.index == f.index && r.remaining == RetainMs
    ensures r.paused <==> hovered || f.paused
  {
    var g := f.(phase := Retain, retainStart := now, remaining := RetainMs);
    if hovered then Pause(g, now) else g
  }

  /** One event over `n` cards. A timer whose phase is over has been
      cleared and does nothing; the pointer matters only on the active card. */
  function Step(f: Fader, e: Event, n: int): (r: Fader)
    requires n > 0
    ensures Inv(f, n) ==> Inv(r, n)
    ensures (e.Enter? || e.Leave?) && e.card != f.index ==> r == f
    ensures e.FadeOutDone? && f.phase == FadeOut ==>
      r.phase == FadeIn && r.index == (f.index + 1) % n
  {
    match e
    case Begin => if f.phase == Idle then StartFadeIn(f) else f
    case FadeInDone(now, hovered) =>
      if f.phase == FadeIn then StartRetain(f, now, hovered) else f
    case RetainDone => if f.phase == Retain && !f.paused then StartFadeOut(f) else f
    case FadeOutDone =>
      if f.phase == FadeOut then StartFadeIn(f.(index := (f.index + 1) % n)) else f
    case Enter(card, now) => if card == f.index then Pause(f, now) else f
    case Leave(card, now) => if card == f.index then Resume(f, now) else f
  }

  /** The events applied in order. */
  function Run(f: Fader, events: seq<Event>, n: int): (r: Fader)
    requires n > 0
    ensures Inv(f, n) ==> Inv(r, n)
    decreases |events|
  {
    if |events| == 0 then f else Run(Step(f, events[0], n), events[1..], n)
  }

  /** A hover that starts `t1 - t0` milliseconds into a countdown and ends
      at `t2` either lets the card stay for the rest of the countdown from
      `t2`, or, when the hover outlasted it, fades the card out at once. */
  lemma PauseResumeBudget(f: Fader, t1: int, t2: int)
    requires f.phase == Retain && !f.paused && f.retainStart <= t1
    ensures var r := Resume(Pause(f, t1), t2);
      if t1 - f.retainStart < f.remaining then
        r.phase == Retain && !r.paused && r.retainStart == t2
        && r.remaining == f.remaining - (t1 - f.retainStart)
      else r.phase == FadeOut && !r.paused
  {
  }

  /** One undisturbed round: fade-in, retain and fade-out move the active
      card one place on. */
  function Round(t: int): seq<Event> {
    [FadeInDone(t, false), RetainDone, FadeOutDone]
  }

  lemma RoundAdvances(f: Fader, t: int, n: int)
    requires n > 0 && f.phase == FadeIn && !f.paused
    ensures var r := Run(f, Round(t), n);
      r.phase == FadeIn && !r.paused && r.index == (f.index + 1) % n
  {
    var e := Round(t);
    var f1 := Step(f, e[0], n);
    var f2 := Step(f1, e[1], n);
    var f3 := Step(f2, e[2], n);
    assert e[1..][1..][1..] == [];
    assert Run(f, e, n) == Run(f1, e[1..], n);
    assert Run(f1, e[1..], n) == Run(f2, e[1..][1..], n);
    assert Run(f2, e[1..][1..], n) == f3;
  }

  /** `k` undisturbed rounds; after `n` of them the first card is back. */
  function Rounds(t: int, k: nat): seq<Event>
    decreases k
  {
    if k == 0 then [] else Round(t) + Rounds(t, k - 1)
  }

  lemma {:induction false} RunAppend(f: Fader, a: seq<Event>, b: seq<Event>, n: int)
    requires n > 0
    ensures Run(f, a + b, n) == Run(Run(f, a, n), b, n)
    decreases |a|
  {
    if |a| > 0 {
      assert (a + b)[0] == a[0];
      assert (a + b)[1..] == a[1..] + b;
      RunAppend(Step(f, a[0], n), a[1..], b, n);
    } else {
      assert a + b == b;
    }
  }

  /** The first round, then the rest. */
  lemma RunRounds(f: Fader, t: int, k: nat, n: int)
    requires n > 0 && k > 0
    ensures Run(f, Rounds(t, k), n) == Run(Run(f, Round(t), n), Rounds(t, k - 1), n)
  {
    RunAppend(f, Round(t), Rounds(t, k - 1), n);
  }

  /** `k` undisturbed rounds move the active card `k` places round the
      set. */
  lemma RoundsAdvance(f: Fader, t: int, k: nat, n: int)
    requires n > 0 && f.phase == FadeIn && !f.paused && 0 <= f.index < n
    ensures var r := Run(f, Rounds(t, k), n);
      r.phase == FadeIn && !r.paused && r.index == (f.index + k) % n
  {
    RoundsStep(f, t, k, n);
    AdvanceMod(f.index, k, n);
  }

  lemma {:induction false} RoundsStep(f: Fader, t: int, k: nat, n: int)
    requires n > 0 && f.phase == FadeIn && !f.paused && 0 <= f.index < n
    ensures var r := Run(f, Rounds(t, k), n);
      r.phase == FadeIn && !r.paused && r.index == Advance(f.index, k, n)
    decreases k
  {
    if k > 0 {
      RunRounds(f, t, k, n);
      RoundAdvances(f, t, n);
      NextMod(f.index, n);
      RoundsStep(Run(f, Round(t), n), t, k - 1, n);
    }
  }

  // ---------------------------------------------------------------------
  // Wrapping a marquee offset

  /** JavaScript's `a % b` on integers: the remainder takes the sign of the
      dividend. */
  function JsRem(a: int, b: int): (r: int)
    requires b != 0
  {
    var m := if b < 0 then -b else b;
    if a >= 0 then a % m else -((-a) % m)
  }

  /** `normalizeWithinSet`: no value or no set width leaves the value as it
      is; otherwise the remainder modulo the set width, moved up by one width
      when negative. */
  function NormalizeWithinSet(value: Option<int>, span: int): (r: Option<int>)
    ensures value.None? || span == 0 ==> r == value
    ensures value.Some? && span > 0 ==> r.Some? && 0 <= r.value < span
  {
    if value.None? || span == 0 then value
    else
      var m := JsRem(value.value, span);
      Some(if m < 0 then m + span else m)
  }

  /** With a positive width the result is the offset's Euclidean remainder,
      so it names the same position within the set as the offset does. */
  lemma NormalizeIsRemainder(v: int, span: int)
    requires span > 0
    ensures NormalizeWithinSet(Some(v), span) == Some(v % span)
  {
    if v < 0 {
      var m := (-v) % span;
      var q := (-v) / span;
      assert -v == q * span + m;
      if m == 0 {
        ModUnique(v, -q, 0, span);
      } else {
        ModUnique(v, -q - 1, span - m, span);
      }
    }
  }

  /** Offsets a whole number of widths apart wrap to the same place, and an
      offset already within the set is left alone. */
  lemma NormalizePeriodic(v: int, k: int, span: int)
    requires span > 0
    ensures NormalizeWithinSet(Some(v + k * span), span) == NormalizeWithinSet(Some(v), span)
    ensures 0 <= v < span ==> NormalizeWithinSet(Some(v), span) == Some(v)
  {
    NormalizeIsRemainder(v, span);
    NormalizeIsRemainder(v + k * span, span);
    var q := v / span;
    assert v == q * span + v % span;
    assert v + k * span == (q + k) * span + v % span;
    ModUnique(v + k * span, q + k, v % span, span);
    if 0 <= v < span {
      ModUnique(v, 0, v, span);
    }
  }
}

=== FILE: front_matter.dfy ===
/** Reading the YAML front matter of a Jekyll post, line by line, the way
    `scripts/redirect.py` does it.

    A post is a sequence of lines as Python's `readlines` returns them: each
    line keeps its line break, so a line contains `'\n'` at most as its last
    character. Every regular expression of the script is
    rewritten here as a hand-written function over such lines; the doc
    comment of each says which pattern it stands for. */
module FrontMatter {
  import opened Maybe
  import opened Text
  import opened Scan

  /** Python `strip()`. */
  function PyStrip(s: string): string {
    Strip(s, Python)
  }

  /** Python `line.lstrip() != line`: the line begins with whitespace. */
  predicate Indented(line: string) {
    LStrip(line, Python) != line
  }

  lemma IndentedIff(line: string)
    ensures Indented(line) <==> |line| > 0 && IsSpace(Python, line[0])
  {
  }

  /** The pattern `^\S`: the line begins with a non-whitespace character. */
  predicate StartsNonSpace(line: string) {
    |line| > 0 && !IsSpace(Python, line[0])
  }

  // ---------------------------------------------------------------------
  // normalize_value

  /** Python slice `t[1:-1]`: one character off each end ("" when shorter
      than two characters). */
  function Inner(t: string): (r: string)
    ensures |r| == if |t| >= 2 then |t| - 2 else 0
  {
    if |t| >= 2 then t[1..|t| - 1] else ""
  }

  /** `t` starts and ends with the quote character `q`. */
  predicate QuotedBy(t: string, q: char) {
    StartsWith(t, [q]) && EndsWith(t, [q])
  }

  predicate Quoted(t: string) {
    QuotedBy(t, '"') || QuotedBy(t, '\'')
  }

  /** `normalize_value`: strip, then drop one pair of matching surrounding
      quotes. */
  function NormalizeValue(value: string): (r: string)
    ensures |r| <= |value|
  {
    var t := PyStrip(value);
    if Quoted(t) then Inner(t) else t
  }

  /** Quoting round trip: a quoted value normalises to its content, whatever
      that content is (blanks inside the quotes survive). */
  lemma NormalizeQuoted(x: string, q: char)
    requires q == '"' || q == '\''
    ensures NormalizeValue([q] + x + [q]) == x
  {
    var v := [q] + x + [q];
    assert PyStrip(v) == v by { StripNoop(v, Python); }
    assert QuotedBy(v, q) by { assert v[..1] == [q] && v[|v| - 1..] == [q]; }
    assert Inner(v) == x;
  }

  /** A plain value (no outer blanks, no surrounding quote pair) is
      normalised to itself. */
  lemma NormalizePlain(x: string)
    requires x == [] || (!IsSpace(Python, x[0]) && !IsSpace(Python, x[|x| - 1]))
    requires !Quoted(x)
    ensures NormalizeValue(x) == x
  {
    StripNoop(x, Python);
  }

  /** Normalising adds no character. */
  lemma NormalizeKeepsOut(value: string, c: char)
    requires c !in value
    ensures c !in NormalizeValue(value)
  {
    StripKeepsOut(value, Python, c);
    var t := PyStrip(value);
    assert forall i :: 0 <= i < |Inner(t)| ==> Inner(t)[i] == t[i + 1];
  }

  // ---------------------------------------------------------------------
  // find_front_matter

  /** A `---` line, blanks and line break ignored. */
  predicate IsDelimiter(line: string) {
    PyStrip(line) == "---"
  }

  /** `find_front_matter`: the bounds `(0, i)` of the front matter, where
      line 0 and line `i` are the first two delimiters. */
  function FindFrontMatter(lines: seq<string>): (r: Option<(nat, nat)>)
    ensures r.Some? <==>
      |lines| > 0 && IsDelimiter(lines[0]) && !NoneWhere(IsDelimiter, lines[1..])
    ensures r.Some? ==> r.value.0 == 0 && 1 <= r.value.1 < |lines|
    ensures r.Some? ==> IsFirst(IsDelimiter, lines[1..], r.value.1 - 1)
  {
    if |lines| == 0 || !IsDelimiter(lines[0]) then None
    else
      FirstWhereIsFirst(IsDelimiter, lines[1..]);
      var i := FirstWhere(IsDelimiter, lines[1..]);
      if i < |lines| - 1 then Some((0, i + 1)) else None
  }

  // ---------------------------------------------------------------------
  // Key lines: `^key\s*:` and `^key\s*:\s*(.*)$`

  /** For a line matching `^key\s*:`, the text after that colon. */
  function KeyRest(line: string, key: string): (r: Option<string>)
    ensures r.Some? ==> StartsWith(line, key) && |r.value| < |line|
  {
    if StartsWith(line, key) then
      var rest := line[|key|..];
      var n := LeadingCount(rest, Python);
      if n < |rest| && rest[n] == ':' then
        Some(rest[n + 1..])
      else None
    else None
  }

  /** An unindented line matching `^key\s*:`. On a line of the shape
      `readlines` produces, `^key\s*:\s*(.*)$` matches exactly these lines
      too. */
  predicate IsKeyLine(line: string, key: string) {
    !Indented(line) && KeyRest(line, key).Some?
  }

  /** `IsKeyLine` for a fixed key, as a test to scan with. */
  function KeyLine(key: string): string -> bool {
    line => IsKeyLine(line, key)
  }

  /** The group `(.*)` of `^key\s*:\s*(.*)$` given the text after the colon:
      the blanks after the colon are skipped by `\s*`, and `$` matches
      before a final line break, which `.` does not take. */
  function Capture(rest: string): string {
    var t := rest[LeadingCount(rest, Python)..];
    if EndsWith(t, "\n") then t[..|t| - 1] else t
  }

  /** The value the script reads from an unindented `key:` line,
      `group(1).split("#", 1)[0].strip()`, before normalisation. */
  function RawValue(line: string, key: string): string
    requires IsKeyLine(line, key)
  {
    PyStrip(Before(Capture(KeyRest(line, key).value), '#'))
  }

  /** A key line whose value is not empty: where `get_slug` stops. */
  predicate HasValue(line: string, key: string) {
    IsKeyLine(line, key) && RawValue(line, key) != ""
  }

  function ValueLine(key: string): string -> bool {
    line => HasValue(line, key)
  }

  /** Index of the first key line for `key`, or `|lines|`. */
  function FirstKeyLine(lines: seq<string>, key: string): (r: nat)
    ensures r <= |lines|
    ensures r < |lines| ==> IsKeyLine(lines[r], key)
    ensures forall j :: 0 <= j < r ==> !IsKeyLine(lines[j], key)
  {
    FirstWhere(KeyLine(key), lines)
  }

  /** `get_front_matter_value`: the normalised value of the first unindented
      `key:` line, even when that value is empty; `None` without one. */
  function GetFrontMatterValue(fm: seq<string>, key: string): (r: Option<string>)
    ensures r.None? <==> forall j :: 0 <= j < |fm| ==> !IsKeyLine(fm[j], key)
    ensures forall i :: IsFirst(KeyLine(key), fm, i) ==>
      r == Some(NormalizeValue(RawValue(fm[i], key)))
  {
    match Found(KeyLine(key), fm)
    case None => None
    case Some(line) => Some(NormalizeValue(RawValue(line, key)))
  }

  /** `get_slug`: the first unindented `slug:` line with a non-empty value
      decides; without one, the file name's stem is the slug. */
  function GetSlug(fm: seq<string>, stem: string): (r: string)
    ensures (forall j :: 0 <= j < |fm| ==> !HasValue(fm[j], "slug")) ==> r == stem
    ensures forall i :: IsFirst(ValueLine("slug"), fm, i) ==>
      r == NormalizeValue(RawValue(fm[i], "slug"))
  {
    match Found(ValueLine("slug"), fm)
    case None => stem
    case Some(line) => NormalizeValue(RawValue(line, "slug"))
  }

  /** A value read from a line never holds a `#`, which starts a comment. */
  lemma RawValueNoHash(line: string, key: string)
    requires IsKeyLine(line, key)
    ensures '#' !in NormalizeValue(RawValue(line, key))
  {
    var b := Before(Capture(KeyRest(line, key).value), '#');
    BeforeSpec(Capture(KeyRest(line, key).value), '#');
    StripKeepsOut(b, Python, '#');
    NormalizeKeepsOut(RawValue(line, key), '#');
  }

  /** The slug holds no `#` unless the file name's stem does. */
  lemma SlugNoHash(fm: seq<string>, stem: string)
    requires '#' !in stem
    ensures '#' !in GetSlug(fm, stem)
  {
    match Found(ValueLine("slug"), fm)
    case None =>
    case Some(line) => RawValueNoHash(line, "slug");
  }

  /** None of `xs` is a key line for `key`. */
  predicate NoKeyLines(xs: seq<string>, key: string) {
    forall j :: 0 <= j < |xs| ==> !IsKeyLine(xs[j], key)
  }

  /** Neither key is a prefix of the other, so no line is a key line for
      both. */
  predicate Unrelated(k1: string, k2: string) {
    !StartsWith(k1, k2) && !StartsWith(k2, k1)
  }

  /** Two front matters agree on everything the script reads for `key`: the
      first key line, the first one with a value, and how many there are. */
  predicate SameKeyLines(a: seq<string>, b: seq<string>, key: string) {
    Found(KeyLine(key), a) == Found(KeyLine(key), b)
    && Found(ValueLine(key), a) == Found(ValueLine(key), b)
    && CountWhere(KeyLine(key), a) == CountWhere(KeyLine(key), b)
  }

  /** What agrees on the key lines agrees on what is read from them. */
  lemma SameKeyLinesReading(a: seq<string>, b: seq<string>, key: string)
    requires SameKeyLines(a, b, key)
    ensures GetFrontMatterValue(a, key) == GetFrontMatterValue(b, key)
    ensures key == "slug" ==> forall stem :: GetSlug(a, stem) == GetSlug(b, stem)
  {
  }

  /** Replacing lines that are not key lines for `key` by others that are
      not either changes nothing the script reads for `key`. */
  lemma KeyLinesSplice(a: seq<string>, x: seq<string>, y: seq<string>, b: seq<string>, key: string)
    requires NoKeyLines(x, key) && NoKeyLines(y, key)
    ensures SameKeyLines(a + x + b, a + y + b, key)
  {
    assert NoneWhere(KeyLine(key), x) && NoneWhere(KeyLine(key), y);
    assert NoneWhere(ValueLine(key), x) && NoneWhere(ValueLine(key), y);
    FoundSplice(KeyLine(key), a, x, y, b);
    FoundSplice(ValueLine(key), a, x, y, b);
    CountWhereSplice(KeyLine(key), a, x, y, b);
  }

  /** Overwriting a line that is no key line for `key` with another such
      line. */
  lemma KeyLinesUpdate(fm: seq<string>, i: nat, x: string, key: string)
    requires i < |fm| && !IsKeyLine(fm[i], key) && !IsKeyLine(x, key)
    ensures SameKeyLines(fm[i := x], fm, key)
  {
    assert fm[i := x] == fm[..i] + [x] + fm[i + 1..];
    assert fm == fm[..i] + [fm[i]] + fm[i + 1..];
    KeyLinesSplice(fm[..i], [x], [fm[i]], fm[i + 1..], key);
  }

  /** Inserting or deleting lines that are no key lines for `key`. */
  lemma KeyLinesInsert(fm: seq<string>, k: nat, x: seq<string>, key: string)
    requires k <= |fm| && NoKeyLines(x, key)
    ensures SameKeyLines(fm[..k] + x + fm[k..], fm, key)
  {
    assert fm == fm[..k] + [] + fm[k..];
    KeyLinesSplice(fm[..k], x, [], fm[k..], key);
  }

  /** A line beginning with a character that is neither blank nor `-` is
      not a delimiter. */
  lemma NotDelimiterByHead(line: string)
    requires |line| > 0 && !IsSpace(Python, line[0]) && line[0] != '-'
    ensures !IsDelimiter(line)
  {
    assert "" + line == line;
    LeadingCountAfter("", line, Python);
    if |PyStrip(line)| >= 1 {
      StripHead(line, Python);
    }
  }

  // ---------------------------------------------------------------------
  // Lines the script writes, read back

  /** A key the script looks up: not empty, not starting with a blank, no
      colon in it. */
  predicate PlainKey(key: string) {
    |key| > 0 && !IsSpace(Python, key[0]) && ':' !in key
  }

  /** A value with no blanks around it and no `#`, as written after a key. */
  predicate PlainValue(v: string) {
    |v| > 0 && !IsSpace(Python, v[0]) && !IsSpace(Python, v[|v| - 1]) && '#' !in v
  }

  /** Every key line starts with a non-blank character. */
  lemma KeyLineStartsNonSpace(line: string, key: string)
    requires IsKeyLine(line, key)
    ensures StartsNonSpace(line)
  {
    IndentedIff(line);
  }

  /** Two keys neither of which is a prefix of the other never share a key
      line. */
  lemma KeyLinesDisjoint(line: string, k1: string, k2: string)
    requires !StartsWith(k1, k2) && !StartsWith(k2, k1)
    ensures !(IsKeyLine(line, k1) && IsKeyLine(line, k2))
  {
    if KeyRest(line, k1).Some? && KeyRest(line, k2).Some? {
      PrefixesNest(line, k1, k2);
    }
  }

  /** The text after the first colon of `key + ":" + t`. */
  lemma AfterKeyColon(key: string, t: string)
    requires ':' !in key
    ensures ':' in key + ":" + t && After(key + ":" + t, ':') == t
  {
    var line := key + ":" + t;
    assert line[|key|] == ':';
    assert forall i :: 0 <= i < |key| ==> line[i] == key[i];
    FirstIndexFirst(line, ':');
    assert FirstIndex(line, ':') == |key|;
  }

  /** `key + ":\n"`, the header line of a block, is a key line. */
  lemma HeaderIsKeyLine(key: string)
    requires PlainKey(key)
    ensures IsKeyLine(key + ":\n", key)
  {
    var line := key + ":\n";
    assert line[..|key|] == key;
    assert line[|key|..] == ":\n";
  }

  /** The header line carries no inline value. */
  lemma HeaderInlineValue(key: string)
    requires PlainKey(key)
    ensures InlineValue(key + ":\n") == ""
  {
    AfterKeyColon(key, "\n");
    assert Before("\n", '#') == "\n";
    assert LStrip("\n", Python) == "";
  }

  /** `key + ": " + v + "\n"`, as `ensure_published_flag` writes it, reads
      back as `v`. */
  lemma WrittenValueLine(key: string, v: string)
    requires PlainKey(key) && PlainValue(v)
    ensures IsKeyLine(key + ": " + v + "\n", key)
    ensures RawValue(key + ": " + v + "\n", key) == v
  {
    var line := key + ": " + v + "\n";
    assert line[..|key|] == key;
    var rest := line[|key|..];
    assert rest == ": " + v + "\n";
    var c := " " + v + "\n";
    assert LeadingCount(rest, Python) == 0 by { assert rest[0] == ':'; }
    assert rest[1..] == c;
    assert KeyRest(line, key) == Some(c);
    assert c == " " + (v + "\n");
    LeadingCountAfter(" ", v + "\n", Python);
    var t := c[1..];
    assert t == v + "\n";
    assert EndsWith(t, "\n");
    assert t[..|t| - 1] == v;
    assert Capture(c) == v;
    assert Before(v, '#') == v;
    StripNoop(v, Python);
  }

  // ---------------------------------------------------------------------
  // parse_redirect_block

  const RedirectKey := "redirect_from"

  datatype Style = Inline | Block

  /** What `parse_redirect_block` returns: the key line's index, its style,
      the items listed, and the `range` of the block's item lines. */
  datatype RedirectBlock = RedirectBlock(index: nat, style: Style, items: seq<string>, start: nat, end: nat)

  /** `line.split(":", 1)[1].split("#", 1)[0].strip()` for a key line. */
  function InlineValue(line: string): string {
    if ':' in line then PyStrip(Before(After(line, ':'), '#')) else ""
  }

  /** `[p.strip() for p in parts if p.strip()]`, normalised. */
  function ListItems(parts: seq<string>): (r: seq<string>)
    ensures |r| <= |parts|
  {
    if |parts| == 0 then []
    else
      var p := PyStrip(parts[0]);
      (if p != "" then [NormalizeValue(p)] else []) + ListItems(parts[1..])
  }

  /** The items of an inline value: a flow list `[a, b]` or a single value. */
  function InlineItems(value: string): seq<string> {
    if StartsWith(value, "[") && EndsWith(value, "]") then
      var inner := PyStrip(Inner(value));
      if inner != "" then ListItems(Split(inner, ',')) else []
    else [NormalizeValue(value)]
  }

  /** An empty flow list, `[]` or `[ ]`, has no items. */
  lemma EmptyFlowList(s: string)
    requires PyStrip(s) == ""
    ensures InlineItems("[" + s + "]") == []
  {
    var v := "[" + s + "]";
    assert v[..1] == "[" && v[|v| - 1..] == "]";
    assert Inner(v) == s;
  }

  /** The item of a block line, per `^\s*-\s*(.+?)\s*(#.*)?$`, normalised.

      After the dash and its blanks, the lazy group stops at the first point
      where only blanks, or blanks and a `#` comment, remain. On a shaped
      line that is: the text before the first `#` that is not the group's
      first character, with trailing blanks removed. When only blanks follow
      the dash, backtracking hands one blank character to the group (which
      normalises to ""), unless nothing or just the line break follows. */
  function BlockItem(line: string): Option<string> {
    var w := LeadingCount(line, Python);
    if w < |line| && line[w] == '-' then AfterDash(line[w + 1..]) else None
  }

  /** The part of `^\s*-\s*(.+?)\s*(#.*)?$` after the dash, given the text
      after it; see `BlockItem`. */
  function AfterDash(rest: string): Option<string> {
    var v := rest[LeadingCount(rest, Python)..];
    if v == "" then
      if rest == "" || rest == "\n" then None else Some("")
    else
      Some(NormalizeValue(RStrip(v[..1 + FirstIndex(v[1..], '#')], Python)))
  }

  /** The items of the block lines, in order. */
  function BlockItems(lines: seq<string>): (r: seq<string>)
    ensures |r| <= |lines|
  {
    Collect(BlockItem, lines)
  }

  /** The end of a block list starting at `from`: the first line at or after
      `from` matching `^\S`, or `|lines|`. */
  function BlockEnd(lines: seq<string>, from: nat): (r: nat)
    requires from <= |lines|
    ensures from <= r <= |lines|
    ensures forall j :: from <= j < r ==> !StartsNonSpace(lines[j])
    ensures r == |lines| || StartsNonSpace(lines[r])
  {
    var k := FirstWhere(StartsNonSpace, lines[from..]);
    assert forall j :: from <= j < from + k ==> lines[j] == lines[from..][j - from];
    assert from + k < |lines| ==> lines[from + k] == lines[from..][k];
    from + k
  }

  /** `parse_redirect_block`: `None` without a `redirect_from:` key line;
      otherwise the first such line, inline when it carries a value and a
      block of the following indented lines when it does not. */
  function ParseRedirectBlock(fm: seq<string>): (r: Option<RedirectBlock>)
    ensures r.None? <==> forall j :: 0 <= j < |fm| ==> !IsKeyLine(fm[j], RedirectKey)
    ensures r.Some? ==> IsFirst(KeyLine(RedirectKey), fm, r.value.index)
    ensures r.Some? ==> r.value.start == r.value.index + 1 <= r.value.end <= |fm|
    ensures r.Some? ==> (r.value.style == Inline <==> InlineValue(fm[r.value.index]) != "")
    ensures r.Some? && r.value.style == Inline ==>
      r.value.end == r.value.start && r.value.items == InlineItems(InlineValue(fm[r.value.index]))
    ensures r.Some? && r.value.style == Block ==>
      (forall j :: r.value.start <= j < r.value.end ==> !StartsNonSpace(fm[j]))
      && (r.value.end == |fm| || StartsNonSpace(fm[r.value.end]))
      && r.value.items == BlockItems(fm[r.value.start..r.value.end])
  {
    FirstWhereIsFirst(KeyLine(RedirectKey), fm);
    var idx := FirstKeyLine(fm, RedirectKey);
    if idx == |fm| then None
    else
      var value := InlineValue(fm[idx]);
      if value != "" then
        Some(RedirectBlock(idx, Inline, InlineItems(value), idx + 1, idx + 1))
      else
        var e := BlockEnd(fm, idx + 1);
        Some(RedirectBlock(idx, Block, BlockItems(fm[idx + 1..e]), idx + 1, e))
  }

  /** The pattern `^(\s*)-\s+`: the blanks before a dash that is followed by
      at least one blank. */
  function DashIndent(line: string): (r: Option<string>)
    ensures r.Some? ==> |r.value| < |line| && line[|r.value|] == '-'
    ensures r.Some? ==> StartsWith(line, r.value) && forall i :: 0 <= i < |r.value| ==> IsSpace(Python, r.value[i])
  {
    var w := LeadingCount(line, Python);
    LeadingSpaces(line, Python);
    if w + 1 < |line| && line[w] == '-' && IsSpace(Python, line[w + 1]) then Some(line[..w]) else None
  }
}

=== FILE: greeting.dfy ===
/** The rotating greeting of `initGreeting` (the same code in
    `src/js/ui-effects.js` and `technical/js/ui-effects.js`): the greetings
    that fit the container, the one on show, the rotation through them, and
    how the one on show follows a change of the list on resize. Measuring a
    text's width is a browser layout query; it is the parameter `fits`. */
module Greeting {
  import opened Maybe
  import opened Scan
  import opened Modular

  /** One entry of the greetings file. */
  datatype Entry = Entry(text: string, lang: string)

  /** `filterGreetingsByWidth`: the greetings that fit, in file order, or
      all of them when none does. */
  function FilterByWidth(all: seq<Entry>, fits: Entry -> bool): (r: seq<Entry>)
    ensures |r| == 0 <==> |all| == 0
  {
    var fitting := Keep(fits, all);
    if |fitting| > 0 then fitting else all
  }

  /** What the filter returns, stated without it: an order-preserving
      selection of the greetings which, when any greeting fits, holds exactly
      the fitting ones, and otherwise is the whole list. */
  lemma FilterByWidthSpec(all: seq<Entry>, fits: Entry -> bool)
    ensures Subseq(FilterByWidth(all, fits), all)
    ensures !NoneWhere(fits, all) ==>
      forall e :: e in FilterByWidth(all, fits) <==> e in all && fits(e)
    ensures NoneWhere(fits, all) ==> FilterByWidth(all, fits) == all
  {
    KeepSubseq(fits, all);
    SubseqSelf(all);
  }

  /** The state of the greeting element: the whole list, the list in use,
      the position in it, and the text and `lang` attribute on show. */
  datatype Shown = Shown(all: seq<Entry>, valid: seq<Entry>, index: int, text: string, lang: string)

  /** The text on show is the entry at the current position of the list in
      use, and that list is never empty. */
  predicate Inv(s: Shown) {
    |s.all| > 0 && 0 <= s.index < |s.valid| && s.valid[s.index].text == s.text
  }

  /** The greetings file has arrived: the filtered list is put in use and its
      first entry shown. An empty file makes `validGreetings[0]` throw; the
      `catch` then shows a fixed fallback text and nothing rotates, which is `None`. */
  function Load(all: seq<Entry>, fits: Entry -> bool): (r: Option<Shown>)
    ensures r.None? <==> |all| == 0
    ensures r.Some? ==> Inv(r.value) && r.value.index == 0
  {
    var valid := FilterByWidth(all, fits);
    if |valid| == 0 then None
    else Some(Shown(all, valid, 0, valid[0].text, valid[0].lang))
  }

  /** `updateGreetingList` after a resize: when the filtered list differs
      from the one in use it is put in use, the position moves to the first
      entry with the text on show, and when there is none the first entry is
      shown instead. The text on show stays an entry of the list in use. */
  function Resize(s: Shown, fits: Entry -> bool): (r: Shown)
    requires |s.all| > 0
    ensures r.all == s.all
    ensures r.valid == FilterByWidth(s.all, fits)
    ensures Inv(s) ==> Inv(r)
    ensures r.valid == s.valid ==> r == s
    ensures r.valid != s.valid ==> 0 <= r.index < |r.valid|
    ensures r.valid != s.valid && (exists j :: 0 <= j < |r.valid| && r.valid[j].text == s.text) ==>
      r.text == s.text && r.lang == s.lang
      && forall j :: 0 <= j < r.index ==> r.valid[j].text != s.text
    ensures r.valid != s.valid && (forall j :: 0 <= j < |r.valid| ==> r.valid[j].text != s.text) ==>
      r.index == 0 && r.text == r.valid[0].text && r.lang == r.valid[0].lang
  {
    var valid := FilterByWidth(s.all, fits);
    if valid == s.valid then s
    else
      var k := FirstWhere((e: Entry) => e.text == s.text, valid);
      if k < |valid| then Shown(s.all, valid, k, s.text, s.lang)
      else Shown(s.all, valid, 0, valid[0].text, valid[0].lang)
  }

  /** `changeText`: the next entry of the list in use, wrapping at the end. */
  function Rotate(s: Shown): (r: Shown)
    requires Inv(s)
    ensures Inv(r)
    ensures r.all == s.all && r.valid == s.valid
    ensures r.index == (s.index + 1) % |s.valid|
  {
    var i := (s.index + 1) % |s.valid|;
    Shown(s.all, s.valid, i, s.valid[i].text, s.valid[i].lang)
  }

  /** `k` rotations in a row. */
  function RotateTimes(s: Shown, k: nat): (r: Shown)
    requires Inv(s)
    ensures Inv(r) && r.valid == s.valid
    decreases k
  {
    if k == 0 then s else RotateTimes(Rotate(s), k - 1)
  }

  /** After `k` rotations the position has moved `k` places round the list;
      in particular a full round shows the starting text again. */
  lemma RotateTimesIndex(s: Shown, k: nat)
    requires Inv(s)
    ensures RotateTimes(s, k).index == (s.index + k) % |s.valid|
    ensures RotateTimes(s, |s.valid|).text == s.text
  {
    RotateTimesStep(s, k);
    AdvanceMod(s.index, k, |s.valid|);
    RotateTimesStep(s, |s.valid|);
    AdvanceMod(s.index, |s.valid|, |s.valid|);
    ModUnique(s.index + |s.valid|, 1, s.index, |s.valid|);
  }

  lemma {:induction false} RotateTimesStep(s: Shown, k: nat)
    requires Inv(s)
    ensures RotateTimes(s, k).index == Advance(s.index, k, |s.valid|)
    decreases k
  {
    if k > 0 {
      var r1 := Rotate(s);
      NextMod(s.index, |s.valid|);
      RotateTimesStep(r1, k - 1);
    }
  }
}

=== FILE: maybe.dfy ===
/** An optional value: the model's stand-in for Python's `None` and
    JavaScript's `null` / `undefined`. */
module Maybe {

  datatype Option<+T> = None | Some(value: T)
}

=== FILE: modular.dfy ===
/** Facts about Euclidean remainders that the position arithmetic of the
    carousels and rotations rests on. */
module Modular {
  lemma MulAtLeast(d: int, n: int)
    requires d >= 1 && n > 0
    ensures d * n >= n
  {
    assert d * n == (d - 1) * n + n;
  }

  /** The remainder is the one `r` in `[0, n)` with `a == k * n + r`. */
  lemma ModUnique(a: int, k: int, r: int, n: int)
    requires n > 0 && 0 <= r < n && a == k * n + r
    ensures a % n == r
  {
    var q := a / n;
    var m := a % n;
    assert a == q * n + m;
    assert (q - k) * n == r - m;
    if q > k {
      MulAtLeast(q - k, n);
    } else if q < k {
      MulAtLeast(k - q, n);
    }
  }

  /** Stepping one place round and then `b` more is `b + 1` places. */
  lemma ModAddOne(a: int, b: int, n: int)
    requires n > 0
    ensures ((a + 1) % n + b) % n == (a + b + 1) % n
  {
    var q := (a + 1) / n;
    var x := (a + 1) % n + b;
    var q2 := x / n;
    assert a + 1 == q * n + (a + 1) % n;
    assert x == q2 * n + x % n;
    assert a + b + 1 == (q + q2) * n + x % n;
    ModUnique(a + b + 1, q + q2, x % n, n);
  }

  /** One place round and then `k - 1` more is `k` places. */
  lemma ModAdvance(a: int, k: int, n: int)
    requires n > 0 && k >= 1
    ensures ((a + 1) % n + (k - 1)) % n == (a + k) % n
  {
    ModAddOne(a, k - 1, n);
    assert a + (k - 1) + 1 == a + k;
  }

  /** The next place round a ring of `n`. */
  lemma NextMod(i: int, n: int)
    requires 0 <= i < n
    ensures (i + 1) % n == if i + 1 < n then i + 1 else 0
  {
    if i + 1 < n {
      ModUnique(i + 1, 0, i + 1, n);
    } else {
      ModUnique(i + 1, 1, 0, n);
    }
  }

  /** `k` single steps round a ring of `n` places, wrapping to 0 after the
      last place. */
  function Advance(i: int, k: nat, n: int): int
    decreases k
  {
    if k == 0 then i else Advance(if i + 1 < n then i + 1 else 0, k - 1, n)
  }

  /** Stepping `k` times lands where the remainder says. */
  lemma {:induction false} AdvanceMod(i: int, k: nat, n: int)
    requires 0 <= i < n
    ensures Advance(i, k, n) == (i + k) % n
    decreases k
  {
    if k == 0 {
      ModUnique(i, 0, i, n);
    } else {
      var j := if i + 1 < n then i + 1 else 0;
      AdvanceMod(j, k - 1, n);
      NextMod(i, n);
      ModAdvance(i, k, n);
    }
  }
}

=== FILE: nav.dfy ===
/** The mobile sidebar of `initSidebar` (the same code in
    `src/js/ui-effects.js` and `technical/js/ui-effects.js`): the sidebar,
    its overlay and the page's `no-scroll` class, and the events that open
    and close them. */
module Sidebar {
  /** The three `active`/`no-scroll` classes. */
  datatype Flags = Flags(sidebar: bool, overlay: bool, noScroll: bool)

  /** The page as it loads: everything closed. */
  const Closed := Flags(false, false, false)

  /** Widest window, in pixels, that keeps the sidebar open on resize. */
  const MobileWidth := 768

  /** The three classes say the same thing. */
  predicate Agree(f: Flags) {
    f.sidebar == f.overlay == f.noScroll
  }

  /** `toggleSidebar`: each class flipped. */
  function Toggle(f: Flags): (r: Flags)
    ensures r.sidebar != f.sidebar && r.overlay != f.overlay && r.noScroll != f.noScroll
    ensures Agree(f) ==> Agree(r)
  {
    Flags(!f.sidebar, !f.overlay, !f.noScroll)
  }

  /** `closeSidebar`: each class removed, whatever it was. */
  function Close(f: Flags): (r: Flags)
    ensures Agree(r) && !r.sidebar && !r.overlay && !r.noScroll
  {
    Closed
  }

  /** Closing a closed sidebar changes nothing. */
  lemma CloseIdempotent(f: Flags)
    ensures Close(Close(f)) == Close(f)
  {
  }

  /** The menu button, a click on the overlay or on a link in the sidebar,
      and a resize of the window to a width. */
  datatype Event = MenuClick | OverlayClick | LinkClick | Resize(width: int)

  function Step(f: Flags, e: Event): (r: Flags)
    ensures Agree(f) ==> Agree(r)
    ensures e.MenuClick? ==> r.sidebar != f.sidebar
    ensures e.OverlayClick? || e.LinkClick? ==> r == Closed
    ensures e.Resize? ==> r == (if e.width > MobileWidth then Closed else f)
  {
    match e
    case MenuClick => Toggle(f)
    case OverlayClick => Close(f)
    case LinkClick => Close(f)
    case Resize(w) => if w > MobileWidth then Close(f) else f
  }

  /** The events in order. */
  function Run(f: Flags, es: seq<Event>): Flags
    decreases |es|
  {
    if |es| == 0 then f else Run(Step(f, es[0]), es[1..])
  }

  /** Whatever happens after the page loads, the sidebar, the overlay and
      the scroll lock are open or closed together. */
  lemma {:induction false} RunAgrees(f: Flags, es: seq<Event>)
    requires Agree(f)
    ensures Agree(Run(f, es))
    decreases |es|
  {
    if |es| > 0 {
      RunAgrees(Step(f, es[0]), es[1..]);
    }
  }

  /** Two presses of the menu button change nothing. */
  lemma ToggleTwice(f: Flags)
    ensures Toggle(Toggle(f)) == f
  {
  }
}

/** The navigation bar's reaction to scrolling, `initScrollEffects` in both
    `ui-effects.js` files. */
module NavScroll {
  /** `--nav-opacity`: `0.5` or `1`. */
  datatype Opacity = Half | Full

  /** The bar carries `scrolled` exactly when the page is scrolled at all. */
  predicate Scrolled(scrollY: real) {
    scrollY > 0.0
  }

  /** `updateNavOpacity`: full opacity while the banner's bottom edge (when
      the page has a banner) has not been scrolled past; half otherwise. */
  function NavOpacity(bannerBottom: real, hasBanner: bool, scrollY: real): (o: Opacity)
    ensures o == Full <==> hasBanner && scrollY <= bannerBottom
  {
    if hasBanner then (if scrollY > bannerBottom then Half else Full) else Half
  }

  /** Scrolling further down never brings the full opacity back, and a
      page with no banner shows the bar at half opacity from the start. */
  lemma OpacityMonotone(bannerBottom: real, hasBanner: bool, y1: real, y2: real)
    requires y1 <= y2
    ensures NavOpacity(bannerBottom, hasBanner, y2) == Full ==> NavOpacity(bannerBottom, hasBanner, y1) == Full
    ensures !hasBanner ==> NavOpacity(bannerBottom, hasBanner, y1) == Half
  {
  }

  /** On a page with a banner whose bottom is below the top, the bar is at
      full opacity while it is still unscrolled. */
  lemma TopIsFull(bannerBottom: real, scrollY: real)
    requires bannerBottom >= 0.0 && !Scrolled(scrollY) && scrollY >= 0.0
    ensures NavOpacity(bannerBottom, true, scrollY) == Full
  {
  }
}

=== FILE: page_key.dfy ===
/** The "last updated" line of the technical pages, `initLastUpdated` in
    `technical/js/data-updated.js` and the same code in
    `technical/js/main.js`: the page's key derived from the URL path, and
    whether the date for that key is written into `#last-updated`. The
    fetched JSON file is the parameter `data`. */
module PageKey {
  import opened Maybe
  import opened Text
  import opened Scan

  const IndexFile := "index.html"
  const Home := "home"

  /** `filter(Boolean)` on strings: the non-empty ones. */
  predicate NonEmpty(s: string) {
    s != ""
  }

  /** The path's non-empty `/`-separated segments, in order. */
  function Segments(path: string): (segs: seq<string>)
    ensures forall i :: 0 <= i < |segs| ==> segs[i] != "" && '/' !in segs[i]
  {
    var parts := Split(path, '/');
    SplitParts(path, '/');
    KeepSubseq(NonEmpty, parts);
    Keep(NonEmpty, parts)
  }

  /** No part of a split holds the separator. */
  lemma {:induction false} SplitParts(s: string, c: char)
    ensures forall x :: x in Split(s, c) ==> c !in x
    decreases |s|
  {
    var k := FirstIndex(s, c);
    FirstIndexFirst(s, c);
    if k < |s| {
      SplitParts(s[k + 1..], c);
    }
  }

  /** The page name: the last segment with its first `index.html` removed,
      `home` when that leaves nothing. A path with no segment (`/`) makes
      `pop()` return `undefined` and `.replace` throw; that is `None`. */
  function PageName(path: string): (r: Option<string>)
    ensures r.None? <==> Segments(path) == []
    ensures r.Some? ==> r.value != ""
  {
    var segs := Segments(path);
    if |segs| == 0 then None
    else
      var name := ReplaceFirst(segs[|segs| - 1], IndexFile, "");
      Some(if name == "" then Home else name)
  }

  /** The handler's second guard, `page === '' ? 'home' : page`. */
  function KeyOf(page: string): string {
    if page == "" then Home else page
  }

  /** The guard never applies: a page name is never empty. */
  lemma KeyOfRedundant(path: string)
    requires PageName(path).Some?
    ensures KeyOf(PageName(path).value) == PageName(path).value
  {
  }

  lemma SegmentsSnoc(path: string, s: string)
    requires '/' !in s
    ensures Segments(path + "/" + s) == Segments(path) + (if s == "" then [] else [s])
  {
    assert path + "/" + s == path + ['/'] + s;
    SplitConcat(path, s, '/');
    SplitNone(s, '/');
    KeepAppend(NonEmpty, Split(path, '/'), [s]);
    assert [s][1..] == [];
  }

  /** A trailing `/` changes nothing. */
  lemma TrailingSlash(path: string)
    ensures PageName(path + "/") == PageName(path)
  {
    SegmentsSnoc(path, "");
    assert path + "/" + "" == path + "/";
  }

  /** A last segment that begins with `index.html` loses that and nothing
      else; when nothing is left the page is the home page. */
  lemma IndexPrefixRemoved(path: string, rest: string)
    requires '/' !in rest
    ensures PageName(path + "/" + (IndexFile + rest)) == Some(if rest == "" then Home else rest)
  {
    var seg := IndexFile + rest;
    assert '/' !in seg by {
      assert forall i :: 0 <= i < |seg| ==> seg[i] == if i < |IndexFile| then IndexFile[i] else rest[i - |IndexFile|];
    }
    SegmentsSnoc(path, seg);
    assert seg[0..|IndexFile|] == IndexFile;
    assert FindFrom(seg, IndexFile, 0) == Some(0);
    assert seg[|IndexFile|..] == rest;
    assert ReplaceFirst(seg, IndexFile, "") == seg[..0] + "" + seg[|IndexFile|..];
    assert ReplaceFirst(seg, IndexFile, "") == rest;
    var segs := Segments(path + "/" + seg);
    assert segs[|segs| - 1] == seg;
  }

  /** Any path whose last segment is `index.html` is the home page. */
  lemma IndexIsHome(path: string)
    ensures PageName(path + "/" + IndexFile) == Some(Home)
  {
    IndexPrefixRemoved(path, "");
    assert IndexFile + "" == IndexFile;
  }

  /** A last segment that does not mention `index.html` is the page name
      as it stands. */
  lemma PlainSegment(path: string, s: string)
    requires '/' !in s && s != "" && !Contains(s, IndexFile)
    ensures PageName(path + "/" + s) == Some(s)
  {
    SegmentsSnoc(path, s);
  }

  /** Only the first `index.html` is removed: the segment
      `index.htmlindex.html` names the page `index.html`. */
  lemma FirstOccurrenceOnly(path: string)
    ensures PageName(path + "/" + (IndexFile + IndexFile)) == Some(IndexFile)
  {
    IndexPrefixRemoved(path, IndexFile);
  }

  /** What reading `data[key]` on the parsed file gives, as far as the
      handler looks at it: a falsy value (`undefined` for a key the object
      lacks, `""`, `0`, `false`, `null`), or a truthy one with the text the
      template literal makes of it (`5` becomes "5", `[]` becomes ""). */
  datatype Entry = Falsy | Truthy(text: string)

  /** What the handler does once the data has arrived: it throws (before
      fetching) when the path has no segment, writes the text of the page's
      entry when that entry is truthy and `#last-updated` exists, and
      otherwise leaves the page alone. */
  datatype Outcome = Throws | Skip | Write(text: string)

  /** `data` is the property read on the parsed file. The read follows the
      prototype chain, so it also answers for keys the file lacks, such as
      `constructor` or `toString`, whose values are truthy functions. */
  function LastUpdated(path: string, data: string -> Entry, hasElement: bool): (o: Outcome)
    ensures o.Throws? <==> Segments(path) == []
    ensures o.Write? <==> Segments(path) != [] && hasElement && data(PageName(path).value).Truthy?
    ensures o.Write? ==> o.text == data(PageName(path).value).text
  {
    match PageName(path)
    case None => Throws
    case Some(page) =>
      var key := KeyOf(page);
      if data(key).Truthy? && hasElement then Write(data(key).text) else Skip
  }

  /** On a page ending in `index.html` the home entry is the one written. */
  lemma HomeEntry(path: string, data: string -> Entry)
    requires data(Home).Truthy?
    ensures LastUpdated(path + "/" + IndexFile, data, true) == Write(data(Home).text)
  {
    IndexIsHome(path);
  }

  /** A page named after a member of `Object.prototype` is written with what
      the read yields for it, whether or not the file has that key: for
      `/technical/constructor/` the text of the `Object` function. */
  lemma InheritedKey(path: string, data: string -> Entry)
    requires data("constructor").Truthy?
    ensures LastUpdated(path + "/constructor", data, true) == Write(data("constructor").text)
  {
    ConstructorPlain();
    PlainSegment(path, "constructor");
    assert path + "/" + "constructor" == path + "/constructor";
  }

  /** `constructor` is a plain segment: no `/`, no `index.html`. */
  lemma ConstructorPlain()
    ensures '/' !in "constructor" && !Contains("constructor", IndexFile)
  {
    var s := "constructor";
    assert IndexFile[0] == 'i';
    assert s[0..10][0] == 'c' && s[1..11][0] == 'o';
    assert FindFrom(s, IndexFile, 2) == None;
    assert FindFrom(s, IndexFile, 1) == None;
    assert FindFrom(s, IndexFile, 0) == None;
  }
}

=== FILE: projects.dfy ===
/** The project list of `technical/js/projects.js`: a search box that keeps
    the projects carrying a tag equal to the query, ignoring case, and a
    Show-All button that brings them all back. Rendering the cards as HTML
    is not part of this model; what is kept is which projects are listed,
    the active tag, the text in the box and the two visible flags. */
module Projects {
  import opened Maybe
  import opened Text
  import opened Scan

  datatype Project = Project(title: string, tags: seq<string>)

  /** `p.tags.some(t => t.toLowerCase() === tag.toLowerCase())`: a whole tag
      equal to the query up to case, not a part of one. */
  predicate HasTag(p: Project, tag: string) {
    exists i :: 0 <= i < |p.tags| && Lower(p.tags[i]) == Lower(tag)
  }

  function Tagged(tag: string): Project -> bool {
    (p: Project) => HasTag(p, tag)
  }

  /** `allProjects.filter(...)`. */
  function FilterByTag(all: seq<Project>, tag: string): (r: seq<Project>)
    ensures forall i :: 0 <= i < |r| ==> HasTag(r[i], tag)
  {
    Keep(Tagged(tag), all)
  }

  /** The filtered list keeps the order of the full one and holds exactly
      the projects with the tag. */
  lemma FilterByTagSpec(all: seq<Project>, tag: string)
    ensures Subseq(FilterByTag(all, tag), all)
    ensures forall p :: p in FilterByTag(all, tag) <==> p in all && HasTag(p, tag)
  {
    KeepSubseq(Tagged(tag), all);
  }

  /** What the page shows: the active tag (`null` is `None`), the projects
      listed, and the text in the search box. */
  datatype Page = Page(activeTag: Option<string>, listed: seq<Project>, input: string)

  /** The Show-All button is lit exactly when no tag is active. */
  predicate ShowAllLit(p: Page) {
    p.activeTag.None?
  }

  /** The list is replaced by "No projects found for this keyword." exactly
      when nothing is listed. */
  predicate NoProjectsMessage(p: Page) {
    |p.listed| == 0
  }

  /** The box as `renderFilter` fills it: the active tag, or empty. The tag
      goes into the `value` attribute unescaped, so this is the box's text
      only for a tag without `"` and `&`; attribute parsing is not
      modelled. */
  function BoxText(activeTag: Option<string>): string {
    if activeTag.Some? then activeTag.value else ""
  }

  /** `doSearch`: the trimmed query; an empty one clears the tag and lists
      everything, any other becomes the active tag and lists its projects. */
  function DoSearch(all: seq<Project>, input: string): (p: Page)
    ensures p.activeTag.None? <==> Strip(input, JavaScript) == ""
    ensures p.activeTag.None? ==> p.listed == all
    ensures p.activeTag.Some? ==>
      (p.activeTag.value == Strip(input, JavaScript) && p.listed == FilterByTag(all, p.activeTag.value))
    ensures p.input == BoxText(p.activeTag)
    ensures NoProjectsMessage(p) <==>
      forall i :: 0 <= i < |all| ==> p.activeTag.Some? && !HasTag(all[i], p.activeTag.value)
  {
    var tag := Strip(input, JavaScript);
    FilterByTagSpec(all, tag);
    if tag == "" then Page(None, all, "")
    else Page(Some(tag), FilterByTag(all, tag), tag)
  }

  /** The Show-All button. */
  function ShowAll(all: seq<Project>): (p: Page)
    ensures ShowAllLit(p) && p.listed == all && p.input == ""
    ensures NoProjectsMessage(p) <==> |all| == 0
  {
    Page(None, all, "")
  }

  /** A click on a tag chip: its `data-tag` becomes the active tag, as is,
      and the box shows it. */
  function TagClick(all: seq<Project>, tag: string): (p: Page)
    ensures p.activeTag == Some(tag) && p.input == tag && !ShowAllLit(p)
    ensures p.listed == FilterByTag(all, tag)
    ensures NoProjectsMessage(p) <==> forall i :: 0 <= i < |all| ==> !HasTag(all[i], tag)
  {
    FilterByTagSpec(all, tag);
    Page(Some(tag), FilterByTag(all, tag), tag)
  }

  /** Searching the text a search left in the box lists the same projects
      again: the box holds the trimmed query, which trims to itself. */
  lemma SearchAgain(all: seq<Project>, input: string)
    ensures var p := DoSearch(all, input);
      DoSearch(all, p.input) == p
  {
    var tag := Strip(input, JavaScript);
    StripNoop(tag, JavaScript);
  }

  /** A search lights Show-All exactly when it lists everything because its
      query was blank. */
  lemma SearchLightsShowAll(all: seq<Project>, input: string)
    ensures ShowAllLit(DoSearch(all, input)) <==> Strip(input, JavaScript) == ""
  {
  }

  /** Case does not matter to the search: queries that differ only in case
      list the same projects. */
  lemma SearchIgnoresCase(all: seq<Project>, a: string, b: string)
    requires Lower(a) == Lower(b)
    ensures FilterByTag(all, a) == FilterByTag(all, b)
  {
    KeepSame(Tagged(a), Tagged(b), all);
  }
}

=== FILE: publish_date.dfy ===
/** `parse_date_value` in `scripts/redirect.py`: the leading `YYYY-MM-DD`
    of a front-matter value as a calendar date, as
    `datetime.date.fromisoformat` accepts it, and the comparison with today
    that decides whether a post is scheduled for the future. */
module PublishDate {
  import opened Maybe
  import opened Text

  /** A proleptic Gregorian date, as `datetime.date` holds it. */
  datatype Date = Date(year: int, month: int, day: int)

  predicate IsLeap(y: int) {
    y % 4 == 0 && (y % 100 != 0 || y % 400 == 0)
  }

  function DaysInMonth(y: int, m: int): (n: int)
    requires 1 <= m <= 12
    ensures 28 <= n <= 31
  {
    if m == 2 then (if IsLeap(y) then 29 else 28)
    else if m == 4 || m == 6 || m == 9 || m == 11 then 30
    else 31
  }

  /** The dates `datetime.date` can hold: years 1 to 9999, real days. */
  predicate ValidDate(d: Date) {
    1 <= d.year <= 9999 && 1 <= d.month <= 12 && 1 <= d.day <= DaysInMonth(d.year, d.month)
  }

  /** An ASCII digit. `\d` also matches other decimal digits, but
      `fromisoformat` rejects those, so the outcome is the same. */
  predicate IsDigit(c: char) {
    '0' <= c <= '9'
  }

  /** The number an all-digit string spells. */
  function DigitsValue(s: string): (n: nat)
    requires forall i :: 0 <= i < |s| ==> IsDigit(s[i])
  {
    if |s| == 0 then 0
    else
      assert IsDigit(s[|s| - 1]);
      DigitsValue(s[..|s| - 1]) * 10 + (s[|s| - 1] as int - '0' as int)
  }

  /** Ten characters of the shape `\d{4}-\d{2}-\d{2}`. */
  predicate DateShape(s: string) {
    |s| == 10 && s[4] == '-' && s[7] == '-'
    && forall i :: 0 <= i < 10 && i != 4 && i != 7 ==> IsDigit(s[i])
  }

  /** `datetime.date.fromisoformat` on a string of the date shape: the
      date when it exists, `None` where Python raises `ValueError`. */
  function FromIsoFormat(s: string): (r: Option<Date>)
    requires DateShape(s)
    ensures r.Some? ==> ValidDate(r.value)
  {
    var d := Date(DigitsValue(s[..4]), DigitsValue(s[5..7]), DigitsValue(s[8..10]));
    if ValidDate(d) then Some(d) else None
  }

  /** `parse_date_value`: `None` for a missing or empty value; otherwise
      the date spelled by the first ten characters after leading
      whitespace (`^\s*(\d{4}-\d{2}-\d{2})`, not anchored at the end), or
      `None` when they do not have that shape or name no real date. */
  function ParseDateValue(raw: Option<string>): (r: Option<Date>)
    ensures raw.None? || raw.value == "" ==> r.None?
    ensures r.Some? ==> ValidDate(r.value)
    ensures r.Some? ==>
      var t := raw.value[LeadingCount(raw.value, Python)..];
      |t| >= 10 && t[..10] == FormatDate(r.value)
  {
    if raw.None? || raw.value == "" then None
    else
      var t := raw.value[LeadingCount(raw.value, Python)..];
      if |t| >= 10 && DateShape(t[..10]) then
        var r := FromIsoFormat(t[..10]);
        if r.Some? then FormatOfParsed(t[..10]); r else None
      else None
  }

  // ---------------------------------------------------------------------
  // Writing a date, `date.isoformat()`

  /** `n` as exactly `width` decimal digits, zero-padded on the left. */
  function Padded(n: nat, width: nat): (r: string)
    ensures |r| == width
    ensures forall i :: 0 <= i < width ==> IsDigit(r[i])
  {
    if width == 0 then [] else Padded(n / 10, width - 1) + [DigitChar(n % 10)]
  }

  /** Padded digits read back as the number, when it fits. */
  lemma {:induction false} PaddedValue(n: nat, width: nat)
    requires n < Pow10(width)
    ensures DigitsValue(Padded(n, width)) == n
    decreases width
  {
    if width > 0 {
      var r := Padded(n, width);
      assert r[..|r| - 1] == Padded(n / 10, width - 1);
      PaddedValue(n / 10, width - 1);
    }
  }

  function Pow10(k: nat): (p: nat)
    ensures p >= 1
  {
    if k == 0 then 1 else 10 * Pow10(k - 1)
  }

  /** `YYYY-MM-DD`. */
  function FormatDate(d: Date): (r: string)
    requires ValidDate(d)
    ensures DateShape(r)
  {
    var r := Padded(d.year, 4) + "-" + Padded(d.month, 2) + "-" + Padded(d.day, 2);
    assert forall i :: 0 <= i < 4 ==> r[i] == Padded(d.year, 4)[i];
    assert forall i :: 5 <= i < 7 ==> r[i] == Padded(d.month, 2)[i - 5];
    assert forall i :: 8 <= i < 10 ==> r[i] == Padded(d.day, 2)[i - 8];
    r
  }

  /** The pieces of a formatted date. */
  lemma FormatDateParts(d: Date)
    requires ValidDate(d)
    ensures FormatDate(d)[..4] == Padded(d.year, 4)
    ensures FormatDate(d)[5..7] == Padded(d.month, 2)
    ensures FormatDate(d)[8..10] == Padded(d.day, 2)
  {
  }

  /** Digits that spell a number read back the same way once padded. */
  lemma {:induction false} DigitsPadded(s: string)
    requires forall i :: 0 <= i < |s| ==> IsDigit(s[i])
    ensures DigitsValue(s) < Pow10(|s|)
    ensures Padded(DigitsValue(s), |s|) == s
    decreases |s|
  {
    if |s| > 0 {
      var init := s[..|s| - 1];
      DigitsPadded(init);
      var n := DigitsValue(s);
      var c := s[|s| - 1] as int - '0' as int;
      assert n / 10 == DigitsValue(init) && n % 10 == c;
      assert DigitChar(c) == s[|s| - 1];
      assert s == init + [s[|s| - 1]];
    }
  }

  /** A parsed date writes back as the text it was read from. */
  lemma FormatOfParsed(s: string)
    requires DateShape(s) && FromIsoFormat(s).Some?
    ensures FormatDate(FromIsoFormat(s).value) == s
  {
    var d := FromIsoFormat(s).value;
    DigitsPadded(s[..4]);
    DigitsPadded(s[5..7]);
    DigitsPadded(s[8..10]);
    FormatDateParts(d);
    var f := FormatDate(d);
    assert f[4] == '-' && f[7] == '-';
    assert f == f[..4] + [f[4]] + f[5..7] + [f[7]] + f[8..10];
    assert s == s[..4] + [s[4]] + s[5..7] + [s[7]] + s[8..10];
  }

  /** Round trip: a valid date written out, after any leading whitespace and
      followed by anything (a time, a comment), is read back as itself. */
  lemma ParseFormatted(d: Date, w: string, rest: string)
    requires ValidDate(d)
    requires forall i :: 0 <= i < |w| ==> IsSpace(Python, w[i])
    ensures ParseDateValue(Some(w + FormatDate(d) + rest)) == Some(d)
  {
    var f := FormatDate(d);
    var raw := w + f + rest;
    assert raw == w + (f + rest);
    IsDigitNotSpace(f[0]);
    LeadingCountAfter(w, f + rest, Python);
    var t := raw[|w|..];
    assert t == f + rest;
    assert t[..10] == f;
    FormatDateParts(d);
    PaddedValue(d.year, 4);
    PaddedValue(d.month, 2);
    PaddedValue(d.day, 2);
  }

  lemma IsDigitNotSpace(c: char)
    requires IsDigit(c)
    ensures !IsSpace(Python, c)
  {
  }

  // ---------------------------------------------------------------------
  // Comparing dates

  /** `a > b` on `datetime.date`: later year, or same year and later month,
      or same month and later day. */
  predicate Later(a: Date, b: Date) {
    a.year > b.year
    || (a.year == b.year && (a.month > b.month || (a.month == b.month && a.day > b.day)))
  }

  /** A date as one number, digit groups side by side as in `YYYYMMDD`. */
  function DateKey(d: Date): int {
    d.year * 10000 + d.month * 100 + d.day
  }

  /** On valid dates, `Later` is the order of their `YYYYMMDD` numbers. */
  lemma LaterIffKey(a: Date, b: Date)
    requires ValidDate(a) && ValidDate(b)
    ensures Later(a, b) <==> DateKey(a) > DateKey(b)
  {
    if a.year != b.year {
      assert a.month * 100 + a.day < 10000 && b.month * 100 + b.day < 10000;
      if a.year > b.year {
        assert a.year * 10000 >= b.year * 10000 + 10000;
      } else {
        assert b.year * 10000 >= a.year * 10000 + 10000;
      }
    } else if a.month != b.month {
      if a.month > b.month {
        assert a.month * 100 >= b.month * 100 + 100;
      } else {
        assert b.month * 100 >= a.month * 100 + 100;
      }
    }
  }
}

=== FILE: published_flag.dfy ===
/** `ensure_published_flag` in `scripts/redirect.py`: set the `published`
    key of a front matter, or add `published: false` after the date keys. */
module PublishedFlag {
  import opened Maybe
  import opened Text
  import opened Scan
  import opened FrontMatter
  import opened RedirectEdit

  const PublishedKey := "published"

  /** How the flag is spelled in the line the script writes. */
  function FlagText(value: bool): string {
    if value then "true" else "false"
  }

  /** `published: true\n` or `published: false\n`. */
  function PublishedLine(value: bool): string {
    PublishedKey + ": " + FlagText(value) + "\n"
  }

  /** An unindented line matching `^(date_update|date_publish|date)\s*:`. */
  predicate DateLine(line: string) {
    IsKeyLine(line, "date_update") || IsKeyLine(line, "date_publish") || IsKeyLine(line, "date")
  }

  /** Where `published: false` goes: after the last date line, or at the end
      when there is none. */
  function InsertAt(fm: seq<string>): (k: nat)
    ensures k <= |fm|
  {
    match LastWhere(DateLine, fm)
    case Some(j) => j + 1
    case None => |fm|
  }

  /** `ensure_published_flag`: the first unindented `published:` line is
      rewritten with the value (reported as a change even when it already
      says so); without one, a true value leaves the front matter alone and a
      false one inserts `published: false` at `InsertAt`. */
  function EnsurePublishedFlag(fm: seq<string>, value: bool): (r: Edit)
    ensures r.changed <==> !(value && NoneWhere(KeyLine(PublishedKey), fm))
    ensures !r.changed ==> r.lines == fm
    ensures !NoneWhere(KeyLine(PublishedKey), fm) ==> |r.lines| == |fm|
    ensures NoneWhere(KeyLine(PublishedKey), fm) && !value ==> |r.lines| == |fm| + 1
  {
    FirstWhereIsFirst(KeyLine(PublishedKey), fm);
    var i := FirstWhere(KeyLine(PublishedKey), fm);
    if i < |fm| then Edit(true, fm[i := PublishedLine(value)])
    else if value then Edit(false, fm)
    else Edit(true, fm[..InsertAt(fm)] + [PublishedLine(false)] + fm[InsertAt(fm)..])
  }

  /** The position `InsertAt` picks, described without the scan: right after
      a date line with none after it, or the end when there is no date line
      at all. */
  lemma InsertAtSpec(fm: seq<string>)
    ensures var k := InsertAt(fm);
      (NoneWhere(DateLine, fm) && k == |fm|)
      || (0 < k && DateLine(fm[k - 1]) && NoneWhere(DateLine, fm[k..]))
  {
    var k := InsertAt(fm);
    if LastWhere(DateLine, fm).Some? {
      assert forall j :: 0 <= j < |fm| - k ==> fm[k..][j] == fm[k + j];
    }
  }

  /** The written line reads back as its flag. */
  lemma PublishedLineReadsBack(value: bool)
    ensures IsKeyLine(PublishedLine(value), PublishedKey)
    ensures RawValue(PublishedLine(value), PublishedKey) == FlagText(value)
    ensures NormalizeValue(FlagText(value)) == FlagText(value)
  {
    PublishedKeyPlain();
    FlagTextPlain(value);
    WrittenValueLine(PublishedKey, FlagText(value));
    NormalizePlain(FlagText(value));
  }

  lemma PublishedKeyPlain()
    ensures PlainKey(PublishedKey)
  {
  }

  lemma FlagTextPlain(value: bool)
    ensures PlainValue(FlagText(value)) && !Quoted(FlagText(value))
  {
  }

  /** What the script reads for `published` afterwards: the flag that was
      set, or nothing when a true flag was asked for and none was there. */
  lemma EnsurePublishedFlagReads(fm: seq<string>, value: bool)
    ensures GetFrontMatterValue(EnsurePublishedFlag(fm, value).lines, PublishedKey) ==
      if value && NoneWhere(KeyLine(PublishedKey), fm) then None else Some(FlagText(value))
  {
    var out := EnsurePublishedFlag(fm, value).lines;
    var line := PublishedLine(value);
    PublishedLineReadsBack(value);
    assert KeyLine(PublishedKey)(line);
    FirstWhereIsFirst(KeyLine(PublishedKey), fm);
    var i := FirstWhere(KeyLine(PublishedKey), fm);
    if i < |fm| {
      FirstAfterUpdate(KeyLine(PublishedKey), fm, i, line);
      assert out[i] == line;
    } else if !value {
      var k := InsertAt(fm);
      NoneWhereSlice(KeyLine(PublishedKey), fm, 0, k);
      assert fm[..k] == fm[0..k];
      FirstAfterInsert(KeyLine(PublishedKey), fm[..k], line, fm[k..]);
      assert out[k] == line;
    }
  }

  /** The new `published: false` line, when one is inserted, goes right
      after the last date line, or at the end without one. */
  lemma EnsurePublishedFlagPlacement(fm: seq<string>)
    requires NoneWhere(KeyLine(PublishedKey), fm)
    ensures var k := InsertAt(fm);
      EnsurePublishedFlag(fm, false).lines == fm[..k] + [PublishedLine(false)] + fm[k..]
      && ((NoneWhere(DateLine, fm) && k == |fm|)
          || (0 < k && DateLine(fm[k - 1]) && NoneWhere(DateLine, fm[k..])))
  {
    InsertAtSpec(fm);
  }

  /** With a `published:` line at `i`, the flag is written over it. */
  lemma SetExisting(fm: seq<string>, value: bool, i: nat)
    requires IsFirst(KeyLine(PublishedKey), fm, i)
    ensures EnsurePublishedFlag(fm, value).lines == fm[i := PublishedLine(value)]
  {
    FirstWhereIsFirst(KeyLine(PublishedKey), fm);
  }

  /** After a flag is written at `i`, writing it again changes no line. */
  lemma RewriteSame(fm: seq<string>, value: bool, i: nat)
    requires IsFirst(KeyLine(PublishedKey), fm, i) && fm[i] == PublishedLine(value)
    ensures EnsurePublishedFlag(fm, value).lines == fm
  {
    SetExisting(fm, value, i);
    assert fm[i := PublishedLine(value)] == fm;
  }

  /** Setting the same flag again yields the same lines. */
  lemma EnsurePublishedFlagIdempotent(fm: seq<string>, value: bool)
    ensures var out := EnsurePublishedFlag(fm, value).lines;
      EnsurePublishedFlag(out, value).lines == out
  {
    var out := EnsurePublishedFlag(fm, value).lines;
    var line := PublishedLine(value);
    PublishedLineReadsBack(value);
    assert KeyLine(PublishedKey)(line);
    FirstWhereIsFirst(KeyLine(PublishedKey), fm);
    var i := FirstWhere(KeyLine(PublishedKey), fm);
    if i < |fm| {
      SetExisting(fm, value, i);
      FirstAfterUpdate(KeyLine(PublishedKey), fm, i, line);
      RewriteSame(out, value, i);
    } else if !value {
      var k := InsertAt(fm);
      NoneWhereSlice(KeyLine(PublishedKey), fm, 0, k);
      assert fm[..k] == fm[0..k];
      FirstAfterInsert(KeyLine(PublishedKey), fm[..k], line, fm[k..]);
      assert out[k] == line;
      RewriteSame(out, value, k);
    }
  }

  /** The written line is no key line for a key unrelated to `published`. */
  lemma PublishedLineShape(value: bool, key: string)
    requires Unrelated(key, PublishedKey)
    ensures !IsKeyLine(PublishedLine(value), key)
  {
    PublishedLineReadsBack(value);
    KeyLinesDisjoint(PublishedLine(value), key, PublishedKey);
  }

  /** Everything read for a key unrelated to `published` stays as it was. */
  lemma EnsurePublishedFlagFrame(fm: seq<string>, value: bool, key: string)
    requires Unrelated(key, PublishedKey)
    ensures SameKeyLines(EnsurePublishedFlag(fm, value).lines, fm, key)
  {
    PublishedLineShape(value, key);
    FirstWhereIsFirst(KeyLine(PublishedKey), fm);
    var i := FirstWhere(KeyLine(PublishedKey), fm);
    if i < |fm| {
      KeyLinesDisjoint(fm[i], key, PublishedKey);
      KeyLinesUpdate(fm, i, PublishedLine(value), key);
    } else if !value {
      KeyLinesInsert(fm, InsertAt(fm), [PublishedLine(false)], key);
    }
  }

  lemma PublishedLineNotDelimiter(value: bool)
    ensures !IsDelimiter(PublishedLine(value))
  {
    NotDelimiterByHead(PublishedLine(value));
  }

  /** No delimiter line is added. */
  lemma EnsurePublishedFlagNoDelimiter(fm: seq<string>, value: bool)
    requires NoneWhere(IsDelimiter, fm)
    ensures NoneWhere(IsDelimiter, EnsurePublishedFlag(fm, value).lines)
  {
    PublishedLineNotDelimiter(value);
    FirstWhereIsFirst(KeyLine(PublishedKey), fm);
    var i := FirstWhere(KeyLine(PublishedKey), fm);
    if i < |fm| {
      NoneWhereUpdate(IsDelimiter, fm, i, PublishedLine(value));
    } else if !value {
      NoneWhereInsert(IsDelimiter, fm, InsertAt(fm), PublishedLine(false));
    }
  }
}

=== FILE: redirect_edit.dfy ===
/** The three edits `scripts/redirect.py` makes to a front matter: adding the
    post's short address to `redirect_from`, setting `published`, and
    removing the `redirect_from` entry. Each returns whether it changed
    anything together with the new lines, as the script's
    `(changed, fm_lines)` pairs do. */
module RedirectEdit {
  import opened Maybe
  import opened Text
  import opened Scan
  import opened FrontMatter

  /** An edit's outcome: whether it reports a change, and the lines after it. */
  datatype Edit = Edit(changed: bool, lines: seq<string>)

  /** `/{collection}/{slug}/`: the address a post is redirected from. */
  function ShortUrl(collection: string, slug: string): string {
    "/" + collection + "/" + slug + "/"
  }

  /** An address that survives being written as a list item and read back:
      it begins and ends with `/` and has no `#` (which would start a
      comment). */
  predicate Address(a: string) {
    |a| > 0 && a[0] == '/' && a[|a| - 1] == '/' && '#' !in a
  }

  lemma ShortUrlAddress(collection: string, slug: string)
    requires '#' !in collection && '#' !in slug
    ensures Address(ShortUrl(collection, slug))
  {
  }

  /** Whitespace only. */
  predicate Blank(s: string) {
    forall i :: 0 <= i < |s| ==> IsSpace(Python, s[i])
  }

  /** A block list item as the script writes it: `{indent}- {item}\n`. */
  function ItemLine(indent: string, item: string): string {
    indent + "- " + item + "\n"
  }

  /** The header line `redirect_from:\n`. */
  function Header(): string {
    RedirectKey + ":\n"
  }

  /** One item line, indented by two blanks, per item. */
  function ItemLines(items: seq<string>): (r: seq<string>)
    ensures |r| == |items|
    ensures forall i :: 0 <= i < |items| ==> r[i] == ItemLine("  ", items[i])
  {
    seq(|items|, i requires 0 <= i < |items| => ItemLine("  ", items[i]))
  }

  /** An address followed by the line break, after the dash and its blank,
      is read as the address. */
  lemma AfterDashAddress(a: string)
    requires Address(a)
    ensures AfterDash(" " + a + "\n") == Some(a)
  {
    var rest := " " + a + "\n";
    assert rest == " " + (a + "\n");
    LeadingCountAfter(" ", a + "\n", Python);
    var v := rest[1..];
    assert v == a + "\n";
    assert 1 + FirstIndex(v[1..], '#') == |v| by {
      assert forall i :: 0 <= i < |v| - 2 ==> v[1..][i] == a[i + 1];
      assert '#' !in v[1..];
    }
    assert v[..|v|] == v;
    assert RStrip(v, Python) == a by {
      assert v[..|v| - 1] == a;
      assert RStrip(a, Python) == a;
    }
    assert NormalizeValue(a) == a by {
      assert a[..1] == ['/'];
      NormalizePlain(a);
    }
  }

  /** An item line reads back as the address written into it. */
  lemma ItemLineReadsBack(indent: string, a: string)
    requires Blank(indent) && Address(a)
    ensures BlockItem(ItemLine(indent, a)) == Some(a)
  {
    var line := ItemLine(indent, a);
    assert line == indent + ("- " + a + "\n");
    LeadingCountAfter(indent, "- " + a + "\n", Python);
    assert line[|indent|] == '-';
    assert line[|indent| + 1..] == " " + a + "\n";
    AfterDashAddress(a);
  }

  /** An item line under a non-empty indent is indented: it is neither a key
      line nor a line matching `^\S`, nor a delimiter. */
  lemma ItemLineShape(indent: string, item: string)
    requires Blank(indent) && |indent| > 0
    ensures !StartsNonSpace(ItemLine(indent, item))
    ensures Indented(ItemLine(indent, item))
    ensures !IsDelimiter(ItemLine(indent, item))
  {
    var line := ItemLine(indent, item);
    assert line[0] == indent[0];
    IndentedIff(line);
    assert line == indent + ("- " + item + "\n");
    LeadingCountAfter(indent, "- " + item + "\n", Python);
    if |PyStrip(line)| >= 2 {
      StripHead(line, Python);
      assert line[|indent| + 1] == ' ';
    }
  }

  /** An indented line is no key line. */
  lemma IndentedNoKey(line: string, key: string)
    requires Indented(line)
    ensures !IsKeyLine(line, key)
  {
  }

  /** The address is among the items of the `redirect_from` entry. */
  predicate Listed(fm: seq<string>, a: string) {
    ParseRedirectBlock(fm).Some? && a in ParseRedirectBlock(fm).value.items
  }

  /** A line matching `^(\s*)-\s+`. */
  predicate DashLine(line: string) {
    DashIndent(line).Some?
  }

  /** The indent of new block items: that of the first item line of the
      block matching `^(\s*)-\s+`, two blanks without one. */
  function ListIndent(fm: seq<string>, start: nat, end: nat): (r: string)
    requires start <= end <= |fm|
    ensures Blank(r)
    ensures (forall j :: start <= j < end ==> !StartsNonSpace(fm[j])) ==> |r| > 0
  {
    match Found(DashLine, fm[start..end])
    case Some(line) => DashIndent(line).value
    case None => "  "
  }

  /** The indent used is that of the first line of the block matching
      `^(\s*)-\s+`, and two blanks when no line does. */
  lemma ListIndentSpec(fm: seq<string>, start: nat, end: nat)
    requires start <= end <= |fm|
    ensures NoneWhere(DashLine, fm[start..end]) ==> ListIndent(fm, start, end) == "  "
    ensures forall i :: IsFirst(DashLine, fm[start..end], i) ==>
      ListIndent(fm, start, end) == DashIndent(fm[start + i]).value
  {
    forall i | IsFirst(DashLine, fm[start..end], i)
      ensures ListIndent(fm, start, end) == DashIndent(fm[start + i]).value
    {
      assert fm[start..end][i] == fm[start + i];
    }
  }

  /** The separating empty line put before a new entry when the front
      matter's last line is not blank. */
  function Pad(fm: seq<string>): (r: seq<string>)
    ensures |r| <= 1
    ensures forall i :: 0 <= i < |r| ==> r[i] == "\n"
  {
    if |fm| > 0 && PyStrip(fm[|fm| - 1]) != "" then ["\n"] else []
  }

  /** A new block entry holding `a` at the end of the front matter. */
  function NewBlock(fm: seq<string>, a: string): seq<string> {
    fm + Pad(fm) + [Header(), ItemLine("  ", a)]
  }

  /** The inline entry at `index` rewritten as a block of `items` and `a`. */
  function InlineToBlock(fm: seq<string>, index: nat, items: seq<string>, a: string): seq<string>
    requires index < |fm|
  {
    fm[..index] + [Header()] + ItemLines(items + [a]) + fm[index + 1..]
  }

  /** `a` added to a block as a new item line before line `end`. */
  function AppendItem(fm: seq<string>, end: nat, indent: string, a: string): seq<string>
    requires end <= |fm|
  {
    fm[..end] + [ItemLine(indent, a)] + fm[end..]
  }

  /** `ensure_redirect`: nothing to do when the short address is already
      listed; otherwise a new `redirect_from` block when there is none
      (after a separating empty line when the front matter's last line is not
      blank), an inline entry rewritten as a block with the address added, or
      the address appended to the existing block. */
  function EnsureRedirect(fm: seq<string>, collection: string, slug: string): (r: Edit)
    ensures r.changed <==> !Listed(fm, ShortUrl(collection, slug))
    ensures !r.changed ==> r.lines == fm
    ensures |r.lines| >= |fm|
  {
    var short := ShortUrl(collection, slug);
    match ParseRedirectBlock(fm)
    case None => Edit(true, NewBlock(fm, short))
    case Some(b) =>
      if short in b.items then Edit(false, fm)
      else if b.style == Inline then Edit(true, InlineToBlock(fm, b.index, b.items, short))
      else Edit(true, AppendItem(fm, b.end, ListIndent(fm, b.start, b.end), short))
  }

  /** The entry `parse_redirect_block` finds is at the first key line. */
  lemma ParsedAt(out: seq<string>, idx: nat)
    requires IsFirst(KeyLine(RedirectKey), out, idx)
    ensures ParseRedirectBlock(out).Some? && ParseRedirectBlock(out).value.index == idx
  {
    FirstWhereIsFirst(KeyLine(RedirectKey), out);
    assert IsKeyLine(out[idx], RedirectKey);
    var r := ParseRedirectBlock(out);
    assert r.Some?;
    assert IsFirst(KeyLine(RedirectKey), out, r.value.index);
  }

  /** A block entry reaches past every following line not matching `^\S`. */
  lemma BlockReaches(out: seq<string>, k: nat)
    requires ParseRedirectBlock(out).Some?
    requires ParseRedirectBlock(out).value.style == Block
    requires ParseRedirectBlock(out).value.index < k < |out|
    requires forall j :: ParseRedirectBlock(out).value.index < j <= k ==> !StartsNonSpace(out[j])
    ensures ParseRedirectBlock(out).value.start <= k < ParseRedirectBlock(out).value.end
  {
  }

  /** The redirect entry found at `idx` is a block reaching at least to line
      `k`, whose item is `a`: then `a` is listed. */
  lemma ListedAt(out: seq<string>, idx: nat, k: nat, a: string)
    requires IsFirst(KeyLine(RedirectKey), out, idx)
    requires InlineValue(out[idx]) == ""
    requires idx < k < |out|
    requires forall j :: idx < j <= k ==> !StartsNonSpace(out[j])
    requires BlockItem(out[k]) == Some(a)
    ensures Listed(out, a)
  {
    ParsedAt(out, idx);
    BlockReaches(out, k);
    var b := ParseRedirectBlock(out).value;
    CollectSliceHas(BlockItem, out, b.start, b.end, k);
  }

  lemma NewBlockLists(fm: seq<string>, a: string)
    requires NoneWhere(KeyLine(RedirectKey), fm)
    requires Address(a)
    ensures Listed(NewBlock(fm, a), a)
  {
    NewBlockHeaderFirst(fm, a);
    ListedAfterHeader(NewBlock(fm, a), |fm| + |Pad(fm)|, a);
  }

  /** A first `redirect_from:` line with no value, followed by the item
      line for `a`, lists `a`. */
  lemma ListedAfterHeader(out: seq<string>, idx: nat, a: string)
    requires idx + 1 < |out| && IsFirst(KeyLine(RedirectKey), out, idx)
    requires InlineValue(out[idx]) == "" && out[idx + 1] == ItemLine("  ", a)
    requires Address(a)
    ensures Listed(out, a)
  {
    NewItemLine(a);
    assert forall j :: idx < j <= idx + 1 ==> out[j] == ItemLine("  ", a);
    ListedAt(out, idx, idx + 1, a);
  }

  /** A new item line is indented and reads back as its address. */
  lemma NewItemLine(a: string)
    requires Address(a)
    ensures !StartsNonSpace(ItemLine("  ", a)) && BlockItem(ItemLine("  ", a)) == Some(a)
  {
    ItemLineShape("  ", a);
    ItemLineReadsBack("  ", a);
  }

  /** The header of a new block is the first key line, followed by its
      item. */
  lemma NewBlockHeaderFirst(fm: seq<string>, a: string)
    requires NoneWhere(KeyLine(RedirectKey), fm)
    ensures var out, idx := NewBlock(fm, a), |fm| + |Pad(fm)|;
      idx + 1 < |out| && IsFirst(KeyLine(RedirectKey), out, idx)
      && InlineValue(out[idx]) == "" && out[idx + 1] == ItemLine("  ", a)
  {
    var out := NewBlock(fm, a);
    var idx := |fm| + |Pad(fm)|;
    HeaderIsKeyLine(RedirectKey);
    HeaderInlineValue(RedirectKey);
    assert out[idx] == Header();
    assert out[idx + 1] == ItemLine("  ", a);
    IndentedIff("\n");
    forall j | 0 <= j < idx ensures !IsKeyLine(out[j], RedirectKey) {
      if j < |fm| {
        assert out[j] == fm[j];
      } else {
        assert out[j] == "\n";
      }
    }
  }

  lemma InlineToBlockLists(fm: seq<string>, index: nat, items: seq<string>, a: string)
    requires IsFirst(KeyLine(RedirectKey), fm, index)
    requires Address(a)
    ensures Listed(InlineToBlock(fm, index, items, a), a)
  {
    var out := InlineToBlock(fm, index, items, a);
    var k := index + 1 + |items|;
    InlineToBlockHeaderFirst(fm, index, items, a);
    InlineToBlockIndented(fm, index, items, a);
    ListedItemAt(out, index, k, a);
  }

  /** `ListedAt` for a new item line. */
  lemma ListedItemAt(out: seq<string>, idx: nat, k: nat, a: string)
    requires IsFirst(KeyLine(RedirectKey), out, idx)
    requires InlineValue(out[idx]) == ""
    requires idx < k < |out|
    requires forall j :: idx < j <= k ==> !StartsNonSpace(out[j])
    requires out[k] == ItemLine("  ", a) && Address(a)
    ensures Listed(out, a)
  {
    NewItemLine(a);
    ListedAt(out, idx, k, a);
  }

  /** The rewritten entry's header stays the first key line. */
  lemma InlineToBlockHeaderFirst(fm: seq<string>, index: nat, items: seq<string>, a: string)
    requires IsFirst(KeyLine(RedirectKey), fm, index)
    ensures var out := InlineToBlock(fm, index, items, a);
      IsFirst(KeyLine(RedirectKey), out, index) && InlineValue(out[index]) == ""
  {
    HeaderIsKeyLine(RedirectKey);
    HeaderInlineValue(RedirectKey);
    InlineToBlockKeeps(fm, index, items, a);
  }

  /** The lines before the rewritten entry stay, and the header takes its
      place. */
  lemma InlineToBlockKeeps(fm: seq<string>, index: nat, items: seq<string>, a: string)
    requires index < |fm|
    ensures var out := InlineToBlock(fm, index, items, a);
      index < |out| && out[index] == Header() && forall j :: 0 <= j < index ==> out[j] == fm[j]
  {
  }

  /** The item lines after the rewritten header are indented, the last one
      holding `a`. */
  lemma InlineToBlockIndented(fm: seq<string>, index: nat, items: seq<string>, a: string)
    requires index < |fm|
    ensures var out, k := InlineToBlock(fm, index, items, a), index + 1 + |items|;
      k < |out| && out[k] == ItemLine("  ", a)
      && forall j :: index < j <= k ==> !StartsNonSpace(out[j])
  {
    var out := InlineToBlock(fm, index, items, a);
    var lines := ItemLines(items + [a]);
    var k := index + 1 + |items|;
    forall j | index < j <= k
      ensures !StartsNonSpace(out[j])
    {
      assert out[j] == lines[j - index - 1];
      ItemLineShape("  ", (items + [a])[j - index - 1]);
    }
    assert out[k] == ItemLine("  ", a);
  }

  lemma AppendItemLists(fm: seq<string>, index: nat, end: nat, indent: string, a: string)
    requires IsFirst(KeyLine(RedirectKey), fm, index) && InlineValue(fm[index]) == ""
    requires index < end <= |fm|
    requires forall j :: index < j < end ==> !StartsNonSpace(fm[j])
    requires Blank(indent) && |indent| > 0
    requires Address(a)
    ensures Listed(AppendItem(fm, end, indent, a), a)
  {
    var out := AppendItem(fm, end, indent, a);
    assert out[index] == fm[index];
    assert IsFirst(KeyLine(RedirectKey), out, index) by {
      assert forall j :: 0 <= j < index ==> out[j] == fm[j];
    }
    assert out[end] == ItemLine(indent, a);
    ItemLineShape(indent, a);
    assert forall j :: index < j <= end ==> !StartsNonSpace(out[j]) by {
      assert forall j :: index < j < end ==> out[j] == fm[j];
    }
    ItemLineReadsBack(indent, a);
    ListedAt(out, index, end, a);
  }

  /** A first `redirect_from:` line with no value, followed by indented
      lines up to `end` and then a line matching `^\S` or the end, is read
      as a block over exactly those lines. */
  lemma BlockParse(out: seq<string>, idx: nat, end: nat)
    requires IsFirst(KeyLine(RedirectKey), out, idx) && InlineValue(out[idx]) == ""
    requires idx < end <= |out|
    requires forall j :: idx < j < end ==> !StartsNonSpace(out[j])
    requires end == |out| || StartsNonSpace(out[end])
    ensures ParseRedirectBlock(out)
      == Some(RedirectBlock(idx, Block, BlockItems(out[idx + 1..end]), idx + 1, end))
  {
    ParsedAt(out, idx);
    var r := ParseRedirectBlock(out).value;
    EndUnique(out, idx + 1, r.end, end);
  }

  /** A run of lines not matching `^\S` ends at one place only. */
  lemma EndUnique(out: seq<string>, from: nat, e1: nat, e2: nat)
    requires from <= e1 <= |out| && from <= e2 <= |out|
    requires forall j :: from <= j < e1 ==> !StartsNonSpace(out[j])
    requires forall j :: from <= j < e2 ==> !StartsNonSpace(out[j])
    requires e1 == |out| || StartsNonSpace(out[e1])
    requires e2 == |out| || StartsNonSpace(out[e2])
    ensures e1 == e2
  {
  }

  /** An inline entry rewritten as a block is read back as a block of its
      old items in their order followed by `a`, when all of them are
      addresses and the entry is not followed by indented lines (which
      would join the new block). */
  lemma InlineToBlockItems(fm: seq<string>, index: nat, items: seq<string>, a: string)
    requires IsFirst(KeyLine(RedirectKey), fm, index)
    requires forall i :: 0 <= i < |items| ==> Address(items[i])
    requires Address(a)
    requires index + 1 == |fm| || StartsNonSpace(fm[index + 1])
    ensures ParseRedirectBlock(InlineToBlock(fm, index, items, a))
      == Some(RedirectBlock(index, Block, items + [a], index + 1, index + 2 + |items|))
  {
    var out := InlineToBlock(fm, index, items, a);
    var end := index + 2 + |items|;
    assert IsFirst(KeyLine(RedirectKey), out, index) && InlineValue(out[index]) == ""
      && index < end <= |out|
      && (forall j :: index < j < end ==> !StartsNonSpace(out[j]))
      && (end == |out| || StartsNonSpace(out[end]))
      && BlockItems(out[index + 1..end]) == items + [a] by {
      InlineToBlockHeaderFirst(fm, index, items, a);
      InlineToBlockIndented(fm, index, items, a);
      InlineToBlockNext(fm, index, items, a);
      assert out[index + 1..end] == ItemLines(items + [a]);
      WrittenItemsRead(items + [a]);
    }
    BlockReadAs(out, index, end, items + [a]);
  }

  /** `BlockParse` with the items already known. */
  lemma BlockReadAs(out: seq<string>, idx: nat, end: nat, items: seq<string>)
    requires IsFirst(KeyLine(RedirectKey), out, idx) && InlineValue(out[idx]) == ""
    requires idx < end <= |out|
    requires forall j :: idx < j < end ==> !StartsNonSpace(out[j])
    requires end == |out| || StartsNonSpace(out[end])
    requires BlockItems(out[idx + 1..end]) == items
    ensures ParseRedirectBlock(out) == Some(RedirectBlock(idx, Block, items, idx + 1, end))
  {
    BlockParse(out, idx, end);
  }

  /** The line after the rewritten block is the line after the entry. */
  lemma InlineToBlockNext(fm: seq<string>, index: nat, items: seq<string>, a: string)
    requires index < |fm|
    ensures var out, k := InlineToBlock(fm, index, items, a), index + 2 + |items|;
      k <= |out| && (k == |out| <==> index + 1 == |fm|) && (k < |out| ==> out[k] == fm[index + 1])
  {
  }

  /** The item lines written for addresses read back as those addresses. */
  lemma WrittenItemsRead(items: seq<string>)
    requires forall i :: 0 <= i < |items| ==> Address(items[i])
    ensures BlockItems(ItemLines(items)) == items
  {
    var lines := ItemLines(items);
    forall i | 0 <= i < |lines| ensures BlockItem(lines[i]) == Some(items[i]) {
      ItemLineReadsBack("  ", items[i]);
    }
    CollectAll(BlockItem, lines, items);
  }

  /** An address appended to a block entry at `index` ending at `end` (as
      `BlockParse` reads it) is read back after the block's old items, and
      the block grows by that one line. */
  lemma AppendItemItems(fm: seq<string>, index: nat, end: nat, indent: string, a: string)
    requires IsFirst(KeyLine(RedirectKey), fm, index) && InlineValue(fm[index]) == ""
    requires index < end <= |fm|
    requires forall j :: index < j < end ==> !StartsNonSpace(fm[j])
    requires end == |fm| || StartsNonSpace(fm[end])
    requires Blank(indent) && |indent| > 0 && Address(a)
    ensures ParseRedirectBlock(AppendItem(fm, end, indent, a))
      == Some(RedirectBlock(index, Block, BlockItems(fm[index + 1..end]) + [a], index + 1, end + 1))
  {
    AppendItemParse(fm, index, end, indent, a);
    AppendItemRead(fm, index, end, indent, a);
  }

  /** The appended line reads back as the address, after the items already
      there. */
  lemma AppendItemRead(fm: seq<string>, index: nat, end: nat, indent: string, a: string)
    requires index < end <= |fm|
    requires Blank(indent) && |indent| > 0 && Address(a)
    ensures BlockItems(AppendItem(fm, end, indent, a)[index + 1..end + 1])
      == BlockItems(fm[index + 1..end]) + [a]
  {
    var out := AppendItem(fm, end, indent, a);
    assert out[index + 1..end + 1] == fm[index + 1..end] + [ItemLine(indent, a)];
    CollectAppend(BlockItem, fm[index + 1..end], [ItemLine(indent, a)]);
    ItemLineReadsBack(indent, a);
    assert Collect(BlockItem, [ItemLine(indent, a)]) == [a];
  }

  /** After the append the entry is still read as a block, one line longer. */
  lemma AppendItemParse(fm: seq<string>, index: nat, end: nat, indent: string, a: string)
    requires IsFirst(KeyLine(RedirectKey), fm, index) && InlineValue(fm[index]) == ""
    requires index < end <= |fm|
    requires forall j :: index < j < end ==> !StartsNonSpace(fm[j])
    requires end == |fm| || StartsNonSpace(fm[end])
    requires Blank(indent) && |indent| > 0
    ensures var out := AppendItem(fm, end, indent, a);
      ParseRedirectBlock(out)
        == Some(RedirectBlock(index, Block, BlockItems(out[index + 1..end + 1]), index + 1, end + 1))
  {
    AppendItemShape(fm, index, end, indent, a);
    BlockParse(AppendItem(fm, end, indent, a), index, end + 1);
  }

  /** After the append the entry's key line is still the first, and the new
      line sits among the indented lines before the old end. */
  lemma AppendItemShape(fm: seq<string>, index: nat, end: nat, indent: string, a: string)
    requires IsFirst(KeyLine(RedirectKey), fm, index) && InlineValue(fm[index]) == ""
    requires index < end <= |fm|
    requires forall j :: index < j < end ==> !StartsNonSpace(fm[j])
    requires end == |fm| || StartsNonSpace(fm[end])
    requires Blank(indent) && |indent| > 0
    ensures var out := AppendItem(fm, end, indent, a);
      IsFirst(KeyLine(RedirectKey), out, index) && InlineValue(out[index]) == ""
      && end + 1 <= |out|
      && (forall j :: index < j < end + 1 ==> !StartsNonSpace(out[j]))
      && (end + 1 == |out| || StartsNonSpace(out[end + 1]))
  {
    var out := AppendItem(fm, end, indent, a);
    assert forall j :: 0 <= j < end ==> out[j] == fm[j];
    ItemLineShape(indent, a);
    assert end + 1 < |out| ==> out[end + 1] == fm[end];
  }

  /** After `ensure_redirect` the short address is listed, provided neither
      the collection nor the slug contains a `#`. */
  lemma EnsureRedirectLists(fm: seq<string>, collection: string, slug: string)
    requires '#' !in collection && '#' !in slug
    ensures Listed(EnsureRedirect(fm, collection, slug).lines, ShortUrl(collection, slug))
  {
    var short := ShortUrl(collection, slug);
    ShortUrlAddress(collection, slug);
    match ParseRedirectBlock(fm)
    case None => NewBlockLists(fm, short);
    case Some(b) =>
      if short !in b.items {
        if b.style == Inline {
          InlineToBlockLists(fm, b.index, b.items, short);
        } else {
          AppendItemLists(fm, b.index, b.end, ListIndent(fm, b.start, b.end), short);
        }
      }
  }

  /** On a block entry that does not list the short address yet,
      `ensure_redirect` leaves the entry a block with the old items in their
      order and the short address after them. */
  lemma EnsureRedirectAppends(fm: seq<string>, collection: string, slug: string)
    requires '#' !in collection && '#' !in slug
    requires ParseRedirectBlock(fm).Some? && ParseRedirectBlock(fm).value.style == Block
    requires ShortUrl(collection, slug) !in ParseRedirectBlock(fm).value.items
    ensures var b, r := ParseRedirectBlock(fm).value, ParseRedirectBlock(EnsureRedirect(fm, collection, slug).lines);
      r.Some? && r.value.index == b.index && r.value.style == Block
      && r.value.items == b.items + [ShortUrl(collection, slug)] && r.value.end == b.end + 1
  {
    var b := ParseRedirectBlock(fm).value;
    ShortUrlAddress(collection, slug);
    EnsureRedirectBlockEdit(fm, collection, slug);
    AppendToBlock(fm, b, ListIndent(fm, b.start, b.end), ShortUrl(collection, slug));
  }

  /** `AppendItemItems` for the block as `parse_redirect_block` reports it. */
  lemma AppendToBlock(fm: seq<string>, b: RedirectBlock, indent: string, a: string)
    requires ParseRedirectBlock(fm) == Some(b) && b.style == Block
    requires Blank(indent) && |indent| > 0 && Address(a)
    ensures b.end <= |fm|
    ensures var r := ParseRedirectBlock(AppendItem(fm, b.end, indent, a));
      r.Some? && r.value.index == b.index && r.value.style == Block
      && r.value.items == b.items + [a] && r.value.end == b.end + 1
  {
    BlockFacts(fm, b);
    AppendItemItems(fm, b.index, b.end, indent, a);
  }

  /** What `parse_redirect_block` promises about a block entry, as plain facts. */
  lemma BlockFacts(fm: seq<string>, b: RedirectBlock)
    requires ParseRedirectBlock(fm) == Some(b) && b.style == Block
    ensures IsFirst(KeyLine(RedirectKey), fm, b.index) && InlineValue(fm[b.index]) == ""
    ensures b.start == b.index + 1 && b.index < b.end <= |fm|
    ensures forall j :: b.index < j < b.end ==> !StartsNonSpace(fm[j])
    ensures b.end == |fm| || StartsNonSpace(fm[b.end])
    ensures b.items == BlockItems(fm[b.index + 1..b.end])
  {
  }

  /** The edit `ensure_redirect` makes to a block entry that does not list
      the short address: one item line at the end of the block. */
  lemma EnsureRedirectBlockEdit(fm: seq<string>, collection: string, slug: string)
    requires ParseRedirectBlock(fm).Some? && ParseRedirectBlock(fm).value.style == Block
    requires ShortUrl(collection, slug) !in ParseRedirectBlock(fm).value.items
    ensures var b := ParseRedirectBlock(fm).value;
      EnsureRedirect(fm, collection, slug).lines
        == AppendItem(fm, b.end, ListIndent(fm, b.start, b.end), ShortUrl(collection, slug))
  {
  }

  /** Running `ensure_redirect` again on its own output changes nothing. */
  lemma EnsureRedirectIdempotent(fm: seq<string>, collection: string, slug: string)
    requires '#' !in collection && '#' !in slug
    ensures var r := EnsureRedirect(fm, collection, slug);
      EnsureRedirect(r.lines, collection, slug) == Edit(false, r.lines)
  {
    EnsureRedirectLists(fm, collection, slug);
  }

  lemma NewBlockFrame(fm: seq<string>, a: string, key: string)
    requires Unrelated(key, RedirectKey)
    ensures SameKeyLines(NewBlock(fm, a), fm, key)
  {
    var x := Pad(fm) + [Header(), ItemLine("  ", a)];
    NewBlockTailNoKeyLines(fm, a, key);
    assert NewBlock(fm, a) == fm + x + [];
    KeyLinesSplice(fm, x, [], [], key);
    assert fm + [] + [] == fm;
  }

  lemma InlineToBlockFrame(fm: seq<string>, index: nat, items: seq<string>, a: string, key: string)
    requires index < |fm| && IsKeyLine(fm[index], RedirectKey)
    requires Unrelated(key, RedirectKey)
    ensures SameKeyLines(InlineToBlock(fm, index, items, a), fm, key)
  {
    var x := [Header()] + ItemLines(items + [a]);
    WrittenNoKeyLines(items + [a], key);
    KeyLinesDisjoint(fm[index], key, RedirectKey);
    assert InlineToBlock(fm, index, items, a) == fm[..index] + x + fm[index + 1..];
    assert fm == fm[..index] + [fm[index]] + fm[index + 1..];
    KeyLinesSplice(fm[..index], x, [fm[index]], fm[index + 1..], key);
  }

  lemma NewBlockTailNoKeyLines(fm: seq<string>, a: string, key: string)
    requires Unrelated(key, RedirectKey)
    ensures NoKeyLines(Pad(fm) + [Header(), ItemLine("  ", a)], key)
  {
    WrittenNoKeyLines([a], key);
    assert [Header()] + ItemLines([a]) == [Header(), ItemLine("  ", a)];
    IndentedIff("\n");
  }

  /** The header and item lines written are key lines of no unrelated key. */
  lemma WrittenNoKeyLines(items: seq<string>, key: string)
    requires Unrelated(key, RedirectKey)
    ensures NoKeyLines([Header()] + ItemLines(items), key)
  {
    var x := [Header()] + ItemLines(items);
    HeaderIsKeyLine(RedirectKey);
    KeyLinesDisjoint(Header(), key, RedirectKey);
    forall j | 0 <= j < |x| ensures !IsKeyLine(x[j], key) {
      if j > 0 {
        ItemLineShape("  ", items[j - 1]);
      }
    }
  }

  lemma AppendItemFrame(fm: seq<string>, end: nat, indent: string, a: string, key: string)
    requires end <= |fm|
    requires Blank(indent) && |indent| > 0
    ensures SameKeyLines(AppendItem(fm, end, indent, a), fm, key)
  {
    ItemLineShape(indent, a);
    assert fm == fm[..end] + [] + fm[end..];
    KeyLinesSplice(fm[..end], [ItemLine(indent, a)], [], fm[end..], key);
  }

  /** `ensure_redirect` leaves alone everything read for a key unrelated to
      `redirect_from`. */
  lemma EnsureRedirectFrame(fm: seq<string>, collection: string, slug: string, key: string)
    requires Unrelated(key, RedirectKey)
    ensures SameKeyLines(EnsureRedirect(fm, collection, slug).lines, fm, key)
  {
    var short := ShortUrl(collection, slug);
    match ParseRedirectBlock(fm)
    case None => NewBlockFrame(fm, short, key);
    case Some(b) =>
      if short !in b.items {
        if b.style == Inline {
          InlineToBlockFrame(fm, b.index, b.items, short, key);
        } else {
          AppendItemFrame(fm, b.end, ListIndent(fm, b.start, b.end), short, key);
        }
      }
  }

  /** The lines `ensure_redirect` writes are no delimiters. */
  lemma WrittenNoDelimiter(items: seq<string>)
    ensures !IsDelimiter(Header())
    ensures !IsDelimiter("\n")
    ensures NoneWhere(IsDelimiter, ItemLines(items))
  {
    NotDelimiterByHead(Header());
    assert LStrip("\n", Python) == "";
    var lines := ItemLines(items);
    forall j | 0 <= j < |lines| ensures !IsDelimiter(lines[j]) {
      ItemLineShape("  ", items[j]);
    }
  }

  lemma NewBlockNoDelimiter(fm: seq<string>, a: string)
    requires NoneWhere(IsDelimiter, fm)
    ensures NoneWhere(IsDelimiter, NewBlock(fm, a))
  {
    var tail := Pad(fm) + [Header(), ItemLine("  ", a)];
    NewBlockTailNoDelimiter(fm, a);
    assert NewBlock(fm, a) == fm + tail;
    NoneWhereConcat(IsDelimiter, fm, tail);
  }

  lemma NewBlockTailNoDelimiter(fm: seq<string>, a: string)
    ensures NoneWhere(IsDelimiter, Pad(fm) + [Header(), ItemLine("  ", a)])
  {
    WrittenBlockNoDelimiter([a]);
    assert [Header()] + ItemLines([a]) == [Header(), ItemLine("  ", a)];
    PadNoDelimiter(fm);
    NoneWhereConcat(IsDelimiter, Pad(fm), [Header(), ItemLine("  ", a)]);
  }

  lemma PadNoDelimiter(fm: seq<string>)
    ensures NoneWhere(IsDelimiter, Pad(fm))
  {
    WrittenNoDelimiter([]);
  }

  lemma InlineToBlockNoDelimiter(fm: seq<string>, index: nat, items: seq<string>, a: string)
    requires index < |fm|
    requires NoneWhere(IsDelimiter, fm)
    ensures NoneWhere(IsDelimiter, InlineToBlock(fm, index, items, a))
  {
    var mid := [Header()] + ItemLines(items + [a]);
    WrittenBlockNoDelimiter(items + [a]);
    NoneWhereSlice(IsDelimiter, fm, 0, index);
    NoneWhereSlice(IsDelimiter, fm, index + 1, |fm|);
    assert fm[..index] == fm[0..index];
    assert fm[index + 1..] == fm[index + 1..|fm|];
    NoneWhereConcat(IsDelimiter, fm[..index], mid);
    NoneWhereConcat(IsDelimiter, fm[..index] + mid, fm[index + 1..]);
    assert InlineToBlock(fm, index, items, a) == fm[..index] + mid + fm[index + 1..];
  }

  lemma WrittenBlockNoDelimiter(items: seq<string>)
    ensures NoneWhere(IsDelimiter, [Header()] + ItemLines(items))
  {
    WrittenNoDelimiter(items);
    assert NoneWhere(IsDelimiter, [Header()]);
    NoneWhereConcat(IsDelimiter, [Header()], ItemLines(items));
  }

  lemma AppendItemNoDelimiter(fm: seq<string>, end: nat, indent: string, a: string)
    requires end <= |fm|
    requires Blank(indent) && |indent| > 0
    requires NoneWhere(IsDelimiter, fm)
    ensures NoneWhere(IsDelimiter, AppendItem(fm, end, indent, a))
  {
    ItemLineShape(indent, a);
    NoneWhereSlice(IsDelimiter, fm, 0, end);
    NoneWhereSlice(IsDelimiter, fm, end, |fm|);
    assert fm[..end] == fm[0..end];
    assert fm[end..] == fm[end..|fm|];
    assert NoneWhere(IsDelimiter, [ItemLine(indent, a)]);
    NoneWhereConcat(IsDelimiter, fm[..end], [ItemLine(indent, a)]);
    NoneWhereConcat(IsDelimiter, fm[..end] + [ItemLine(indent, a)], fm[end..]);
  }

  /** `ensure_redirect` adds no `---` line. */
  lemma EnsureRedirectNoDelimiter(fm: seq<string>, collection: string, slug: string)
    requires NoneWhere(IsDelimiter, fm)
    ensures NoneWhere(IsDelimiter, EnsureRedirect(fm, collection, slug).lines)
  {
    var short := ShortUrl(collection, slug);
    match ParseRedirectBlock(fm)
    case None => NewBlockNoDelimiter(fm, short);
    case Some(b) =>
      if short !in b.items {
        if b.style == Inline {
          InlineToBlockNoDelimiter(fm, b.index, b.items, short);
        } else {
          AppendItemNoDelimiter(fm, b.end, ListIndent(fm, b.start, b.end), short);
        }
      }
  }

  // ---------------------------------------------------------------------
  // remove_redirect_block

  /** `remove_redirect_block`: delete the `redirect_from` key line, and for
      a block also its item lines; report whether there was one. */
  function RemoveRedirectBlock(fm: seq<string>): (r: Edit)
    ensures r.changed <==> !NoneWhere(KeyLine(RedirectKey), fm)
    ensures !r.changed ==> r.lines == fm
    ensures r.changed ==> |r.lines| < |fm|
  {
    match ParseRedirectBlock(fm)
    case None => Edit(false, fm)
    case Some(b) =>
      if b.style == Inline then Edit(true, fm[..b.index] + fm[b.index + 1..])
      else Edit(true, fm[..b.index] + fm[b.end..])
  }

  /** Whatever its style, the entry removed is the key line and the lines of
      its range. */
  lemma RemovedLines(fm: seq<string>)
    requires ParseRedirectBlock(fm).Some?
    ensures var b := ParseRedirectBlock(fm).value;
      RemoveRedirectBlock(fm).lines == fm[..b.index] + fm[b.end..]
  {
  }

  /** Lines not matching `^\S` are no key lines for any key. */
  lemma RangeNoKeyLines(fm: seq<string>, start: nat, end: nat, key: string)
    requires start <= end <= |fm|
    requires forall j :: start <= j < end ==> !StartsNonSpace(fm[j])
    ensures NoKeyLines(fm[start..end], key)
  {
    forall j | 0 <= j < end - start
      ensures !IsKeyLine(fm[start..end][j], key)
    {
      var line := fm[start..end][j];
      assert line == fm[start + j];
      if IsKeyLine(line, key) {
        KeyLineStartsNonSpace(line, key);
      }
    }
  }

  /** Deleting the key line at `index` and the indented lines up to `end`
      leaves the count of key lines one lower. */
  lemma DeleteEntryCount(fm: seq<string>, index: nat, end: nat)
    requires index < end <= |fm| && IsKeyLine(fm[index], RedirectKey)
    requires forall j :: index < j < end ==> !StartsNonSpace(fm[j])
    ensures CountWhere(KeyLine(RedirectKey), fm[..index] + fm[end..]) ==
      CountWhere(KeyLine(RedirectKey), fm) - 1
  {
    RangeNoKeyLines(fm, index + 1, end, RedirectKey);
    assert NoneWhere(KeyLine(RedirectKey), fm[index + 1..end]);
    CountWhereDelete(KeyLine(RedirectKey), fm, index, end);
  }

  /** The same deletion leaves everything read for an unrelated key. */
  lemma DeleteEntryFrame(fm: seq<string>, index: nat, end: nat, key: string)
    requires index < end <= |fm| && IsKeyLine(fm[index], RedirectKey)
    requires forall j :: index < j < end ==> !StartsNonSpace(fm[j])
    requires Unrelated(key, RedirectKey)
    ensures SameKeyLines(fm[..index] + fm[end..], fm, key)
  {
    var x := [fm[index]] + fm[index + 1..end];
    RangeNoKeyLines(fm, index + 1, end, key);
    KeyLinesDisjoint(fm[index], key, RedirectKey);
    assert NoKeyLines(x, key) by {
      assert forall j :: 1 <= j < |x| ==> x[j] == fm[index + 1..end][j - 1];
    }
    assert fm == fm[..index] + x + fm[end..];
    assert fm[..index] + fm[end..] == fm[..index] + [] + fm[end..];
    KeyLinesSplice(fm[..index], [], x, fm[end..], key);
  }

  /** Removal takes away exactly one `redirect_from` key line. */
  lemma RemoveRedirectBlockCount(fm: seq<string>)
    ensures CountWhere(KeyLine(RedirectKey), RemoveRedirectBlock(fm).lines) ==
      if NoneWhere(KeyLine(RedirectKey), fm) then 0 else CountWhere(KeyLine(RedirectKey), fm) - 1
  {
    if ParseRedirectBlock(fm).Some? {
      var b := ParseRedirectBlock(fm).value;
      RemovedLines(fm);
      DeleteEntryCount(fm, b.index, b.end);
    }
  }

  /** With at most one `redirect_from` key line, none is left. */
  lemma RemoveRedirectBlockLeavesNone(fm: seq<string>)
    requires CountWhere(KeyLine(RedirectKey), fm) <= 1
    ensures NoneWhere(KeyLine(RedirectKey), RemoveRedirectBlock(fm).lines)
  {
    RemoveRedirectBlockCount(fm);
  }

  /** Everything read for a key unrelated to `redirect_from` stays. */
  lemma RemoveRedirectBlockFrame(fm: seq<string>, key: string)
    requires Unrelated(key, RedirectKey)
    ensures SameKeyLines(RemoveRedirectBlock(fm).lines, fm, key)
  {
    if ParseRedirectBlock(fm).Some? {
      var b := ParseRedirectBlock(fm).value;
      RemovedLines(fm);
      DeleteEntryFrame(fm, b.index, b.end, key);
    }
  }

  /** Removal adds no delimiter line. */
  lemma RemoveRedirectBlockNoDelimiter(fm: seq<string>)
    requires NoneWhere(IsDelimiter, fm)
    ensures NoneWhere(IsDelimiter, RemoveRedirectBlock(fm).lines)
  {
    if ParseRedirectBlock(fm).Some? {
      var b := ParseRedirectBlock(fm).value;
      RemovedLines(fm);
      DeleteKeepsNone(IsDelimiter, fm, b.index, b.end);
    }
  }
}

=== FILE: redirect_run.dfy ===
/** `process_collection` in `scripts/redirect.py`, one file at a time: find
    the front matter, decide from its publish date whether the post is
    scheduled for the future, and either hide it (`published: false`, no
    redirect entry) or make sure its short address redirects to it. */
module RedirectRun {
  import opened Maybe
  import opened Text
  import opened Scan
  import opened FrontMatter
  import opened RedirectEdit
  import opened PublishedFlag
  import opened PublishDate

  /** The collections the script walks. */
  datatype Collection = Blog | Projects

  function Label(c: Collection): (r: string)
    ensures '#' !in r
  {
    match c
    case Blog => "blog"
    case Projects => "projects"
  }

  /** The publish date's raw value: `date_publish`, or `date` when there is
      no `date_publish` line at all (an empty `date_publish` still wins). */
  function PublishValue(fm: seq<string>): (r: Option<string>)
    ensures GetFrontMatterValue(fm, "date_publish").Some? ==> r == GetFrontMatterValue(fm, "date_publish")
    ensures GetFrontMatterValue(fm, "date_publish").None? ==> r == GetFrontMatterValue(fm, "date")
  {
    match GetFrontMatterValue(fm, "date_publish")
    case Some(v) => Some(v)
    case None => GetFrontMatterValue(fm, "date")
  }

  /** `is_future`: a publish date that parses and is after today. */
  predicate IsFuture(fm: seq<string>, today: Date) {
    var d := ParseDateValue(PublishValue(fm));
    d.Some? && Later(d.value, today)
  }

  /** The front matter edit of one file: for a future post the flag and the
      removal, each reporting its own change; otherwise `ensure_redirect`. */
  function EditFrontMatter(fm: seq<string>, c: Collection, stem: string, today: Date): (r: Edit)
    ensures !r.changed ==> r.lines == fm
  {
    if IsFuture(fm, today) then
      var f := EnsurePublishedFlag(fm, false);
      var rm := RemoveRedirectBlock(f.lines);
      Edit(f.changed || rm.changed, rm.lines)
    else
      EnsureRedirect(fm, Label(c), GetSlug(fm, stem))
  }

  /** The edit of one file's front matter, as a function to apply. */
  function FileEdit(c: Collection, stem: string, today: Date): seq<string> -> Edit {
    fm => EditFrontMatter(fm, c, stem, today)
  }

  /** One file of `process_collection`, for a given front matter edit:
      files without front matter are skipped; a changed front matter is put
      back between the delimiters, the rest of the file kept as it was. */
  function TransformWith(lines: seq<string>, edit: seq<string> -> Edit): (r: Edit)
    ensures !r.changed ==> r.lines == lines
    ensures r.changed ==> FindFrontMatter(lines).Some?
  {
    match FindFrontMatter(lines)
    case None => Edit(false, lines)
    case Some((s, e)) =>
      var ed := edit(lines[s + 1..e]);
      if ed.changed then Edit(true, lines[..s + 1] + ed.lines + lines[e..])
      else Edit(false, lines)
  }

  /** One file of `process_collection`. */
  function TransformFile(lines: seq<string>, c: Collection, stem: string, today: Date): (r: Edit)
    ensures !r.changed ==> r.lines == lines
    ensures r.changed ==> FindFrontMatter(lines).Some?
  {
    TransformWith(lines, FileEdit(c, stem, today))
  }

  /** A rewritten file keeps its opening delimiter and everything from the
      closing delimiter on. */
  lemma TransformKeepsOutside(lines: seq<string>, edit: seq<string> -> Edit)
    requires TransformWith(lines, edit).changed
    ensures var r := TransformWith(lines, edit).lines;
      var e := FindFrontMatter(lines).value.1;
      |r| >= 1 + (|lines| - e) && r[0] == lines[0] && r[|r| - (|lines| - e)..] == lines[e..]
  {
    var e := FindFrontMatter(lines).value.1;
    var ed := edit(lines[1..e]);
    var r := lines[..1] + ed.lines + lines[e..];
    assert r[|r| - (|lines| - e)..] == lines[e..];
  }

  // ---------------------------------------------------------------------
  // The front matter of the rewritten file

  /** The front matter's lines hold no delimiter. */
  lemma FrontMatterNoDelimiter(lines: seq<string>)
    requires FindFrontMatter(lines).Some?
    ensures var e := FindFrontMatter(lines).value.1;
      NoneWhere(IsDelimiter, lines[1..e])
  {
    var e := FindFrontMatter(lines).value.1;
    assert forall j :: 0 <= j < e - 1 ==> lines[1..e][j] == lines[1..][j];
  }

  /** Putting delimiter-free lines back between the delimiters: the new
      file's front matter is exactly those lines. */
  lemma Reassembled(lines: seq<string>, fm: seq<string>)
    requires FindFrontMatter(lines).Some?
    requires NoneWhere(IsDelimiter, fm)
    ensures var e := FindFrontMatter(lines).value.1;
      var out := lines[..1] + fm + lines[e..];
      FindFrontMatter(out) == Some((0, |fm| + 1)) && out[1..|fm| + 1] == fm
  {
    var e := FindFrontMatter(lines).value.1;
    var out := lines[..1] + fm + lines[e..];
    assert out[0] == lines[0];
    assert out[|fm| + 1] == lines[e] by {
      assert lines[1..][e - 1] == lines[e];
    }
    assert IsFirst(IsDelimiter, out[1..], |fm|) by {
      assert forall j :: 0 <= j < |fm| ==> out[1..][j] == fm[j];
      assert out[1..][|fm|] == lines[e];
    }
    FirstWhereIsFirst(IsDelimiter, out[1..]);
    assert out[1..|fm| + 1] == fm;
  }

  // ---------------------------------------------------------------------
  // Running twice

  /** Two front matters agree on everything that decides the outcome: the
      slug and the publish date. */
  predicate SameInputs(a: seq<string>, b: seq<string>) {
    SameKeyLines(a, b, "slug") && SameKeyLines(a, b, "date_publish") && SameKeyLines(a, b, "date")
  }

  lemma SameInputsReading(a: seq<string>, b: seq<string>, stem: string, today: Date)
    requires SameInputs(a, b)
    ensures GetSlug(a, stem) == GetSlug(b, stem)
    ensures IsFuture(a, today) == IsFuture(b, today)
  {
    SameKeyLinesReading(a, b, "slug");
    SameKeyLinesReading(a, b, "date_publish");
    SameKeyLinesReading(a, b, "date");
  }

  /** The keys deciding the outcome are unrelated to the keys edited. */
  lemma InputKeysUnrelated()
    ensures Unrelated("slug", RedirectKey) && Unrelated("slug", PublishedKey)
    ensures Unrelated("date_publish", RedirectKey) && Unrelated("date_publish", PublishedKey)
    ensures Unrelated("date", RedirectKey) && Unrelated("date", PublishedKey)
  {
    assert "slug"[0] != RedirectKey[0] && "slug"[0] != PublishedKey[0];
    assert "date_publish"[0] != RedirectKey[0] && "date_publish"[0] != PublishedKey[0];
    assert "date"[0] != RedirectKey[0] && "date"[0] != PublishedKey[0];
  }

  lemma SameKeyLinesTrans(a: seq<string>, b: seq<string>, c: seq<string>, key: string)
    requires SameKeyLines(a, b, key) && SameKeyLines(b, c, key)
    ensures SameKeyLines(a, c, key)
  {
  }

  /** The edit of a front matter leaves the slug and publish date alone, and
      adds no delimiter. */
  lemma EditKeepsInputs(fm: seq<string>, c: Collection, stem: string, today: Date)
    requires NoneWhere(IsDelimiter, fm)
    ensures SameInputs(EditFrontMatter(fm, c, stem, today).lines, fm)
    ensures NoneWhere(IsDelimiter, EditFrontMatter(fm, c, stem, today).lines)
  {
    InputKeysUnrelated();
    if IsFuture(fm, today) {
      var f := EnsurePublishedFlag(fm, false).lines;
      var out := RemoveRedirectBlock(f).lines;
      EnsurePublishedFlagFrame(fm, false, "slug");
      EnsurePublishedFlagFrame(fm, false, "date_publish");
      EnsurePublishedFlagFrame(fm, false, "date");
      RemoveRedirectBlockFrame(f, "slug");
      RemoveRedirectBlockFrame(f, "date_publish");
      RemoveRedirectBlockFrame(f, "date");
      SameKeyLinesTrans(out, f, fm, "slug");
      SameKeyLinesTrans(out, f, fm, "date_publish");
      SameKeyLinesTrans(out, f, fm, "date");
      EnsurePublishedFlagNoDelimiter(fm, false);
      RemoveRedirectBlockNoDelimiter(f);
    } else {
      var slug := GetSlug(fm, stem);
      EnsureRedirectFrame(fm, Label(c), slug, "slug");
      EnsureRedirectFrame(fm, Label(c), slug, "date_publish");
      EnsureRedirectFrame(fm, Label(c), slug, "date");
      EnsureRedirectNoDelimiter(fm, Label(c), slug);
    }
  }

  /** A post that is not in the future: the second edit changes nothing. */
  lemma EditStablePast(fm: seq<string>, c: Collection, stem: string, today: Date)
    requires NoneWhere(IsDelimiter, fm) && !IsFuture(fm, today)
    requires '#' !in stem
    ensures var out := EditFrontMatter(fm, c, stem, today).lines;
      EditFrontMatter(out, c, stem, today) == Edit(false, out)
  {
    var out := EditFrontMatter(fm, c, stem, today).lines;
    var slug := GetSlug(fm, stem);
    EditKeepsInputs(fm, c, stem, today);
    SameInputsReading(out, fm, stem, today);
    SlugNoHash(fm, stem);
    EnsureRedirectIdempotent(fm, Label(c), slug);
  }

  /** With the flag written first, writing it again leaves the lines. */
  lemma FlagAlreadySet(fm: seq<string>, value: bool)
    requires Found(KeyLine(PublishedKey), fm) == Some(PublishedLine(value))
    ensures EnsurePublishedFlag(fm, value) == Edit(true, fm)
  {
    FirstWhereIsFirst(KeyLine(PublishedKey), fm);
    var i := FirstWhere(KeyLine(PublishedKey), fm);
    RewriteSame(fm, value, i);
  }

  /** A future post: the second edit writes the same lines again, yet
      reports a change, because `ensure_published_flag` always does once
      a `published` line exists. Needs at most one `redirect_from` line, as
      each run removes only the first. */
  lemma EditStableFuture(fm: seq<string>, c: Collection, stem: string, today: Date)
    requires NoneWhere(IsDelimiter, fm) && IsFuture(fm, today)
    requires CountWhere(KeyLine(RedirectKey), fm) <= 1
    ensures var out := EditFrontMatter(fm, c, stem, today).lines;
      EditFrontMatter(out, c, stem, today) == Edit(true, out)
  {
    var f := EnsurePublishedFlag(fm, false).lines;
    var out := RemoveRedirectBlock(f).lines;
    EditKeepsInputs(fm, c, stem, today);
    SameInputsReading(out, fm, stem, today);
    // the flag is the first `published` line after the first run
    EnsurePublishedFlagReads(fm, false);
    PublishedFirstLine(fm);
    assert Unrelated(PublishedKey, RedirectKey) by {
      assert PublishedKey[0] != RedirectKey[0];
    }
    RemoveRedirectBlockFrame(f, PublishedKey);
    FlagAlreadySet(out, false);
    // no `redirect_from` line is left to remove
    assert Unrelated(RedirectKey, PublishedKey);
    EnsurePublishedFlagFrame(fm, false, RedirectKey);
    RemoveRedirectBlockLeavesNone(f);
  }

  /** After `ensure_published_flag(fm, False)` the first `published` line is
      the one written. */
  lemma PublishedFirstLine(fm: seq<string>)
    ensures Found(KeyLine(PublishedKey), EnsurePublishedFlag(fm, false).lines) == Some(PublishedLine(false))
  {
    var out := EnsurePublishedFlag(fm, false).lines;
    var line := PublishedLine(false);
    PublishedLineReadsBack(false);
    FirstWhereIsFirst(KeyLine(PublishedKey), fm);
    var i := FirstWhere(KeyLine(PublishedKey), fm);
    if i < |fm| {
      SetExisting(fm, false, i);
      FirstAfterUpdate(KeyLine(PublishedKey), fm, i, line);
      assert out[i] == line;
    } else {
      var k := InsertAt(fm);
      NoneWhereSlice(KeyLine(PublishedKey), fm, 0, k);
      assert fm[..k] == fm[0..k];
      FirstAfterInsert(KeyLine(PublishedKey), fm[..k], line, fm[k..]);
      assert out[k] == line;
    }
  }

  /** At most one `redirect_from` line in the front matter, if any. */
  predicate AtMostOneRedirect(lines: seq<string>) {
    FindFrontMatter(lines).Some? ==>
      CountWhere(KeyLine(RedirectKey), lines[1..FindFrontMatter(lines).value.1]) <= 1
  }

  /** Running twice with an edit that adds no delimiter and writes the same
      lines again on its own output: the second run writes the same lines
      and reports a change only if the second edit does. */
  lemma TransformWithTwice(lines: seq<string>, edit: seq<string> -> Edit)
    requires FindFrontMatter(lines).Some?
    requires var fm := lines[1..FindFrontMatter(lines).value.1];
      NoneWhere(IsDelimiter, edit(fm).lines) && edit(edit(fm).lines).lines == edit(fm).lines
    ensures var fm := lines[1..FindFrontMatter(lines).value.1];
      var r1 := TransformWith(lines, edit);
      var r2 := TransformWith(r1.lines, edit);
      r2.lines == r1.lines && r2.changed == (r1.changed && edit(edit(fm).lines).changed)
  {
    var e := FindFrontMatter(lines).value.1;
    var ed := edit(lines[1..e]);
    TransformWithAt(lines, edit);
    if ed.changed {
      var out := lines[..1] + ed.lines + lines[e..];
      Reassembled(lines, ed.lines);
      TransformWithAt(out, edit);
      ReassembledAgain(lines, ed.lines, e);
    }
  }

  /** Putting the same front matter back into a reassembled file gives the
      same file. */
  lemma ReassembledAgain(lines: seq<string>, fm: seq<string>, e: nat)
    requires 1 <= e <= |lines|
    ensures var out := lines[..1] + fm + lines[e..];
      out[..1] + fm + out[|fm| + 1..] == out
  {
    var out := lines[..1] + fm + lines[e..];
    assert out[..1] == lines[..1];
    assert out[|fm| + 1..] == lines[e..];
  }

  /** `TransformWith` once the front matter is found. */
  lemma TransformWithAt(lines: seq<string>, edit: seq<string> -> Edit)
    requires FindFrontMatter(lines).Some?
    ensures var e := FindFrontMatter(lines).value.1;
      TransformWith(lines, edit) ==
        if edit(lines[1..e]).changed then Edit(true, lines[..1] + edit(lines[1..e]).lines + lines[e..])
        else Edit(false, lines)
  {
  }

  /** Running the script twice over a file: the second run writes the same
      lines it finds, and for a post that is not in the future it reports no
      change at all. A future post is reported changed (and rewritten with
      the same lines) on every run. The second run is given the lines the
      first one wrote, where the script reads the file again; the two agree
      only while no written line holds a line break before its end, which a
      stem with `\n` or `\r` would break. */
  lemma TransformTwice(lines: seq<string>, c: Collection, stem: string, today: Date)
    requires '#' !in stem && '\n' !in stem && '\r' !in stem
    requires AtMostOneRedirect(lines)
    ensures var r1 := TransformFile(lines, c, stem, today);
      var r2 := TransformFile(r1.lines, c, stem, today);
      r2.lines == r1.lines
      && (FindFrontMatter(lines).Some? ==>
            var fm := lines[1..FindFrontMatter(lines).value.1];
            r2.changed == (r1.changed && IsFuture(fm, today)))
  {
    if FindFrontMatter(lines).Some? {
      var e := FindFrontMatter(lines).value.1;
      var fm := lines[1..e];
      var edit := FileEdit(c, stem, today);
      var ed := EditFrontMatter(fm, c, stem, today);
      FrontMatterNoDelimiter(lines);
      EditKeepsInputs(fm, c, stem, today);
      if IsFuture(fm, today) {
        EditStableFuture(fm, c, stem, today);
      } else {
        EditStablePast(fm, c, stem, today);
      }
      assert edit(fm) == ed;
      assert edit(ed.lines) == EditFrontMatter(ed.lines, c, stem, today);
      TransformWithTwice(lines, edit);
    }
  }

  // ---------------------------------------------------------------------
  // A whole collection

  /** A content file: its name's stem and its lines. */
  datatype SourceFile = SourceFile(stem: string, lines: seq<string>)

  /** What a run over a collection leaves: how many files it rewrote, and
      the files afterwards. */
  datatype Run = Run(updated: nat, files: seq<SourceFile>)

  /** A file whose front matter holds a future publish date. */
  predicate FileIsFuture(lines: seq<string>, today: Date) {
    FindFrontMatter(lines).Some? && IsFuture(lines[1..FindFrontMatter(lines).value.1], today)
  }

  /** Every file put through `step`, the rewritten ones counted. */
  function ProcessWith(files: seq<SourceFile>, step: SourceFile -> Edit): (r: Run)
    ensures |r.files| == |files| && r.updated <= |files|
    ensures forall i :: 0 <= i < |files| ==>
      r.files[i] == SourceFile(files[i].stem, step(files[i]).lines)
    ensures r.updated == 0 <==> forall i :: 0 <= i < |files| ==> !step(files[i]).changed
  {
    if |files| == 0 then Run(0, [])
    else
      var t := step(files[0]);
      var rest := ProcessWith(files[1..], step);
      assert forall i :: 1 <= i < |files| ==> files[1..][i - 1] == files[i];
      Run((if t.changed then 1 else 0) + rest.updated, [SourceFile(files[0].stem, t.lines)] + rest.files)
  }

  /** A second pass with a step that writes back what it wrote: the same
      files, and a count of zero exactly when no second step reports a
      change. */
  lemma ProcessWithTwice(files: seq<SourceFile>, step: SourceFile -> Edit)
    requires forall i :: 0 <= i < |files| ==>
      step(SourceFile(files[i].stem, step(files[i]).lines)).lines == step(files[i]).lines
    ensures var r1 := ProcessWith(files, step);
      var r2 := ProcessWith(r1.files, step);
      r2.files == r1.files
      && (r2.updated == 0 <==>
            forall i :: 0 <= i < |files| ==> !step(SourceFile(files[i].stem, step(files[i]).lines)).changed)
  {
    var r1 := ProcessWith(files, step);
    var r2 := ProcessWith(r1.files, step);
    assert forall i :: 0 <= i < |files| ==> r2.files[i] == r1.files[i];
  }

  /** One file's transformation as a step. */
  function FileStep(c: Collection, today: Date): SourceFile -> Edit {
    (f: SourceFile) => TransformFile(f.lines, c, f.stem, today)
  }

  /** `process_collection` over a collection's files. */
  function Process(files: seq<SourceFile>, c: Collection, today: Date): Run {
    ProcessWith(files, FileStep(c, today))
  }

  /** Running over a collection twice: the second run leaves every file's
      lines as the first run wrote them, and when no post is scheduled for
      the future it rewrites nothing. */
  lemma ProcessTwice(files: seq<SourceFile>, c: Collection, today: Date)
    requires forall i :: 0 <= i < |files| ==>
      '#' !in files[i].stem && '\n' !in files[i].stem && '\r' !in files[i].stem && AtMostOneRedirect(files[i].lines)
    ensures var r1 := Process(files, c, today);
      var r2 := Process(r1.files, c, today);
      r2.files == r1.files
      && ((forall i :: 0 <= i < |files| ==> !FileIsFuture(files[i].lines, today)) ==> r2.updated == 0)
  {
    var step := FileStep(c, today);
    forall i | 0 <= i < |files|
      ensures step(SourceFile(files[i].stem, step(files[i]).lines)).lines == step(files[i]).lines
      ensures !FileIsFuture(files[i].lines, today) ==>
        !step(SourceFile(files[i].stem, step(files[i]).lines)).changed
    {
      TransformTwice(files[i].lines, c, files[i].stem, today);
    }
    ProcessWithTwice(files, step);
  }
}

=== FILE: scan.dfy ===
/** Scans over a sequence with a per-element test: the first element that
    passes, the last one, how many pass. Every loop of the form "for each
    line, skip unless it matches, stop at the first" in the script is one of
    these. Stating them once, over an arbitrary test, keeps the proofs about
    list surgery (append, splice, delete) apart from the tests themselves. */
module Scan {
  import opened Maybe

  /** No element passes `p`. */
  predicate NoneWhere<T>(p: T -> bool, xs: seq<T>) {
    forall j :: 0 <= j < |xs| ==> !p(xs[j])
  }

  /** Joining and cutting keep `NoneWhere`. */
  lemma NoneWhereConcat<T>(p: T -> bool, a: seq<T>, b: seq<T>)
    requires NoneWhere(p, a) && NoneWhere(p, b)
    ensures NoneWhere(p, a + b)
  {
    assert forall j :: 0 <= j < |a + b| ==> (a + b)[j] == if j < |a| then a[j] else b[j - |a|];
  }

  lemma NoneWhereSlice<T>(p: T -> bool, xs: seq<T>, i: nat, k: nat)
    requires NoneWhere(p, xs) && i <= k <= |xs|
    ensures NoneWhere(p, xs[i..k])
  {
    assert forall j :: 0 <= j < k - i ==> xs[i..k][j] == xs[i + j];
  }

  lemma NoneWhereUpdate<T>(p: T -> bool, xs: seq<T>, i: nat, x: T)
    requires NoneWhere(p, xs) && i < |xs| && !p(x)
    ensures NoneWhere(p, xs[i := x])
  {
    assert forall j :: 0 <= j < |xs| ==> xs[i := x][j] == if j == i then x else xs[j];
  }

  lemma NoneWhereInsert<T>(p: T -> bool, xs: seq<T>, k: nat, x: T)
    requires NoneWhere(p, xs) && k <= |xs| && !p(x)
    ensures NoneWhere(p, xs[..k] + [x] + xs[k..])
  {
    var ys := xs[..k] + [x] + xs[k..];
    assert forall j :: 0 <= j < |ys| ==> ys[j] == if j < k then xs[j] else if j == k then x else xs[j - 1];
  }

  lemma DeleteKeepsNone<T>(p: T -> bool, xs: seq<T>, i: nat, k: nat)
    requires NoneWhere(p, xs) && i <= k <= |xs|
    ensures NoneWhere(p, xs[..i] + xs[k..])
  {
    var ys := xs[..i] + xs[k..];
    assert forall j :: 0 <= j < |ys| ==> ys[j] == if j < i then xs[j] else xs[j - i + k];
  }

  /** Deleting one passing element and a run of failing ones after it
      lowers the count by one. */
  lemma CountWhereDelete<T>(p: T -> bool, xs: seq<T>, i: nat, k: nat)
    requires i < k <= |xs| && p(xs[i]) && NoneWhere(p, xs[i + 1..k])
    ensures CountWhere(p, xs[..i] + xs[k..]) == CountWhere(p, xs) - 1
  {
    var x := xs[i..k];
    assert x[1..] == xs[i + 1..k];
    CountWhereLeadOnly(p, x);
    assert xs == xs[..i] + x + xs[k..];
    CountWhereThree(p, xs[..i], x, xs[k..]);
    CountWhereAppend(p, xs[..i], xs[k..]);
  }

  lemma CountWhereLeadOnly<T>(p: T -> bool, x: seq<T>)
    requires |x| > 0 && p(x[0]) && NoneWhere(p, x[1..])
    ensures CountWhere(p, x) == 1
  {
  }

  lemma CountWhereThree<T>(p: T -> bool, a: seq<T>, x: seq<T>, b: seq<T>)
    ensures CountWhere(p, a + x + b) == CountWhere(p, a) + CountWhere(p, x) + CountWhere(p, b)
  {
    CountWhereAppend(p, a, x);
    CountWhereAppend(p, a + x, b);
  }

  /** Index of the first element that passes `p`, or `|xs|` if none does. */
  function FirstWhere<T>(p: T -> bool, xs: seq<T>): (r: nat)
    ensures r <= |xs|
    ensures r < |xs| ==> p(xs[r])
    ensures forall j :: 0 <= j < r ==> !p(xs[j])
  {
    if |xs| == 0 then 0 else if p(xs[0]) then 0 else 1 + FirstWhere(p, xs[1..])
  }

  /** `i` is the first index whose element passes `p`. */
  predicate IsFirst<T>(p: T -> bool, xs: seq<T>, i: int) {
    0 <= i < |xs| && p(xs[i]) && forall j :: 0 <= j < i ==> !p(xs[j])
  }

  /** `FirstWhere` finds exactly the first passing element. */
  lemma FirstWhereIsFirst<T>(p: T -> bool, xs: seq<T>)
    ensures forall i :: IsFirst(p, xs, i) <==> i == FirstWhere(p, xs) < |xs|
    ensures FirstWhere(p, xs) == |xs| <==> NoneWhere(p, xs)
  {
  }

  /** Scanning a concatenation: the first hit is in the left part if it has
      one, otherwise in the right part. */
  lemma {:induction false} FirstWhereAppend<T>(p: T -> bool, a: seq<T>, b: seq<T>)
    ensures FirstWhere(p, a + b) ==
      if FirstWhere(p, a) < |a| then FirstWhere(p, a) else |a| + FirstWhere(p, b)
    decreases |a|
  {
    if |a| > 0 {
      assert (a + b)[0] == a[0];
      assert (a + b)[1..] == a[1..] + b;
      FirstWhereAppend(p, a[1..], b);
    } else {
      assert a + b == b;
    }
  }

  /** The first element that passes `p`, if any. */
  function Found<T>(p: T -> bool, xs: seq<T>): (r: Option<T>)
    ensures r.None? <==> NoneWhere(p, xs)
    ensures r.Some? ==> p(r.value) && r.value in xs
    ensures forall i :: IsFirst(p, xs, i) ==> r == Some(xs[i])
  {
    FirstWhereIsFirst(p, xs);
    var i := FirstWhere(p, xs);
    if i < |xs| then Some(xs[i]) else None
  }

  /** Overwriting the first hit with another passing element keeps it the
      first hit. */
  lemma FirstAfterUpdate<T>(p: T -> bool, xs: seq<T>, i: nat, x: T)
    requires IsFirst(p, xs, i) && p(x)
    ensures IsFirst(p, xs[i := x], i)
  {
    assert forall j :: 0 <= j < i ==> xs[i := x][j] == xs[j];
  }

  /** A passing element inserted after elements none of which pass is the
      first hit. */
  lemma FirstAfterInsert<T>(p: T -> bool, a: seq<T>, x: T, b: seq<T>)
    requires NoneWhere(p, a) && p(x)
    ensures IsFirst(p, a + [x] + b, |a|)
  {
    assert forall j :: 0 <= j < |a| ==> (a + [x] + b)[j] == a[j];
  }

  /** Lines that no element passes can be exchanged anywhere without changing
      what the scan finds. */
  lemma FoundSplice<T>(p: T -> bool, a: seq<T>, x: seq<T>, y: seq<T>, b: seq<T>)
    requires NoneWhere(p, x) && NoneWhere(p, y)
    ensures Found(p, a + x + b) == Found(p, a + y + b)
  {
    FirstWhereAppend(p, a, x + b);
    FirstWhereAppend(p, x, b);
    FirstWhereAppend(p, a, y + b);
    FirstWhereAppend(p, y, b);
    assert a + x + b == a + (x + b);
    assert a + y + b == a + (y + b);
    var k := FirstWhere(p, b);
    if FirstWhere(p, a) == |a| && k < |b| {
      assert (a + (x + b))[|a| + |x| + k] == b[k];
      assert (a + (y + b))[|a| + |y| + k] == b[k];
    }
  }

  /** Index of the last element that passes `p`, if any. */
  function LastWhere<T>(p: T -> bool, xs: seq<T>): (r: Option<nat>)
    ensures r.None? ==> NoneWhere(p, xs)
    ensures r.Some? ==> r.value < |xs| && p(xs[r.value])
    ensures r.Some? ==> forall j :: r.value < j < |xs| ==> !p(xs[j])
    decreases |xs|
  {
    if |xs| == 0 then None
    else if p(xs[|xs| - 1]) then Some(|xs| - 1)
    else LastWhere(p, xs[..|xs| - 1])
  }

  /** Number of elements that pass `p`. */
  function CountWhere<T>(p: T -> bool, xs: seq<T>): (n: nat)
    ensures n <= |xs|
    ensures n == 0 <==> NoneWhere(p, xs)
  {
    if |xs| == 0 then 0 else (if p(xs[0]) then 1 else 0) + CountWhere(p, xs[1..])
  }

  /** Elements no element of which passes `p` can be exchanged without
      changing the count. */
  lemma CountWhereSplice<T>(p: T -> bool, a: seq<T>, x: seq<T>, y: seq<T>, b: seq<T>)
    requires NoneWhere(p, x) && NoneWhere(p, y)
    ensures CountWhere(p, a + x + b) == CountWhere(p, a + y + b)
  {
    CountWhereAppend(p, a, x);
    CountWhereAppend(p, a + x, b);
    CountWhereAppend(p, a, y);
    CountWhereAppend(p, a + y, b);
  }

  lemma {:induction false} CountWhereAppend<T>(p: T -> bool, a: seq<T>, b: seq<T>)
    ensures CountWhere(p, a + b) == CountWhere(p, a) + CountWhere(p, b)
    decreases |a|
  {
    if |a| > 0 {
      assert (a + b)[0] == a[0];
      assert (a + b)[1..] == a[1..] + b;
      CountWhereAppend(p, a[1..], b);
    } else {
      assert a + b == b;
    }
  }

  /** Every element passes exactly when all of them are counted. */
  lemma {:induction false} CountWhereAll<T>(p: T -> bool, xs: seq<T>)
    ensures CountWhere(p, xs) == |xs| <==> forall i :: 0 <= i < |xs| ==> p(xs[i])
    decreases |xs|
  {
    if |xs| > 0 {
      CountWhereAll(p, xs[1..]);
      assert forall i :: 0 < i < |xs| ==> xs[i] == xs[1..][i - 1];
    }
  }

  /** `f` applied to every element. */
  function Map<T, U>(f: T -> U, xs: seq<T>): (r: seq<U>)
    ensures |r| == |xs|
    ensures forall i :: 0 <= i < |xs| ==> r[i] == f(xs[i])
  {
    if |xs| == 0 then [] else [f(xs[0])] + Map(f, xs[1..])
  }

  // ---------------------------------------------------------------------
  // Keeping the elements that pass, in order

  /** The elements that pass `p`, in their original order, as
      `Array.prototype.filter` returns them. */
  function Keep<T>(p: T -> bool, xs: seq<T>): (r: seq<T>)
    ensures |r| == CountWhere(p, xs)
    ensures forall i :: 0 <= i < |r| ==> p(r[i])
  {
    if |xs| == 0 then [] else (if p(xs[0]) then [xs[0]] else []) + Keep(p, xs[1..])
  }

  /** `a` is `b` with some elements left out, the rest in the same order. */
  predicate Subseq<T(==)>(a: seq<T>, b: seq<T>)
    decreases |b|
  {
    if |a| == 0 then true
    else if |b| == 0 then false
    else if a[0] == b[0] then Subseq(a[1..], b[1..])
    else Subseq(a, b[1..])
  }

  /** What `Keep` returns is an order-preserving selection of its input,
      and holds every element of it that passes. */
  lemma {:induction false} KeepSubseq<T>(p: T -> bool, xs: seq<T>)
    ensures Subseq(Keep(p, xs), xs)
    ensures forall x :: x in Keep(p, xs) <==> x in xs && p(x)
    decreases |xs|
  {
    if |xs| > 0 {
      KeepSubseq(p, xs[1..]);
      assert xs == [xs[0]] + xs[1..];
      if p(xs[0]) {
        assert Keep(p, xs)[1..] == Keep(p, xs[1..]);
      } else {
        assert Keep(p, xs) == Keep(p, xs[1..]);
        SubseqDropHead(Keep(p, xs[1..]), xs);
      }
    }
  }

  /** Dropping nothing but one head element of the larger sequence keeps a
      selection a selection. */
  lemma {:induction false} SubseqDropHead<T>(a: seq<T>, b: seq<T>)
    requires |b| > 0 && Subseq(a, b[1..])
    ensures Subseq(a, b)
    decreases |b|, 0
  {
    if |a| > 0 && a[0] == b[0] {
      SubseqTail(a, b[1..]);
    }
  }

  /** A selection minus its first element is still a selection. */
  lemma {:induction false} SubseqTail<T>(a: seq<T>, b: seq<T>)
    requires |a| > 0 && Subseq(a, b)
    ensures Subseq(a[1..], b)
    decreases |b|, 1
  {
    if a[0] == b[0] {
      if |a| > 1 {
        SubseqDropHead(a[1..], b);
      }
    } else {
      SubseqTail(a, b[1..]);
      SubseqDropHead(a[1..], b);
    }
  }

  /** Every sequence is a selection of itself. */
  lemma {:induction false} SubseqSelf<T>(xs: seq<T>)
    ensures Subseq(xs, xs)
    decreases |xs|
  {
    if |xs| > 0 {
      SubseqSelf(xs[1..]);
    }
  }

  /** Tests that agree on every element keep the same elements. */
  lemma {:induction false} KeepSame<T>(p: T -> bool, q: T -> bool, xs: seq<T>)
    requires forall i :: 0 <= i < |xs| ==> p(xs[i]) == q(xs[i])
    ensures Keep(p, xs) == Keep(q, xs)
    decreases |xs|
  {
    if |xs| > 0 {
      KeepSame(p, q, xs[1..]);
    }
  }

  /** When every element passes, nothing is dropped. */
  lemma {:induction false} KeepAll<T>(p: T -> bool, xs: seq<T>)
    requires forall i :: 0 <= i < |xs| ==> p(xs[i])
    ensures Keep(p, xs) == xs
    decreases |xs|
  {
    if |xs| > 0 {
      KeepAll(p, xs[1..]);
      assert xs == [xs[0]] + xs[1..];
    }
  }

  /** Keeping from two pieces is keeping from each. */
  lemma {:induction false} KeepAppend<T>(p: T -> bool, a: seq<T>, b: seq<T>)
    ensures Keep(p, a + b) == Keep(p, a) + Keep(p, b)
    decreases |a|
  {
    if |a| > 0 {
      assert (a + b)[0] == a[0];
      assert (a + b)[1..] == a[1..] + b;
      KeepAppend(p, a[1..], b);
    } else {
      assert a + b == b;
    }
  }

  /** The values `f` finds in the elements, in order, skipping the elements
      in which it finds none. */
  function Collect<T, U>(f: T -> Option<U>, xs: seq<T>): (r: seq<U>)
    ensures |r| <= |xs|
  {
    if |xs| == 0 then []
    else (match f(xs[0]) case Some(x) => [x] case None => []) + Collect(f, xs[1..])
  }

  /** Every value found in an element is collected. */
  lemma {:induction false} CollectHas<T, U>(f: T -> Option<U>, xs: seq<T>, k: nat)
    requires k < |xs| && f(xs[k]).Some?
    ensures f(xs[k]).value in Collect(f, xs)
    decreases k
  {
    if k > 0 {
      CollectHas(f, xs[1..], k - 1);
      assert xs[1..][k - 1] == xs[k];
    }
  }

  /** Every value found in an element of a slice is collected from the
      slice. */
  lemma CollectSliceHas<T, U>(f: T -> Option<U>, xs: seq<T>, start: nat, end: nat, k: nat)
    requires start <= k < end <= |xs| && f(xs[k]).Some?
    ensures f(xs[k]).value in Collect(f, xs[start..end])
  {
    assert xs[start..end][k - start] == xs[k];
    CollectHas(f, xs[start..end], k - start);
  }

  /** Collecting from a concatenation collects from each part in turn. */
  lemma {:induction false} CollectAppend<T, U>(f: T -> Option<U>, a: seq<T>, b: seq<T>)
    ensures Collect(f, a + b) == Collect(f, a) + Collect(f, b)
    decreases |a|
  {
    if |a| > 0 {
      assert (a + b)[0] == a[0];
      assert (a + b)[1..] == a[1..] + b;
      CollectAppend(f, a[1..], b);
    } else {
      assert a + b == b;
    }
  }

  /** When every element yields a value, the values are collected in
      order, one per element. */
  lemma {:induction false} CollectAll<T, U>(f: T -> Option<U>, xs: seq<T>, ys: seq<U>)
    requires |xs| == |ys|
    requires forall i :: 0 <= i < |xs| ==> f(xs[i]) == Some(ys[i])
    ensures Collect(f, xs) == ys
    decreases |xs|
  {
    if |xs| > 0 {
      assert f(xs[0]) == Some(ys[0]);
      assert forall i :: 0 <= i < |xs| - 1 ==> xs[1..][i] == xs[i + 1] && ys[1..][i] == ys[i + 1];
      CollectAll(f, xs[1..], ys[1..]);
      assert ys == [ys[0]] + ys[1..];
    }
  }
}

=== FILE: text.dfy ===
/** String operations shared by the Python script and the browser scripts:
    prefixes, substring search, splitting on a character, whitespace
    trimming under a given notion of whitespace, and ASCII case folding. */
module Text {
  import opened Maybe

  /** `s` begins with `p` (Python `startswith`, JavaScript `startsWith`). */
  predicate StartsWith(s: string, p: string) {
    |p| <= |s| && s[..|p|] == p
  }

  /** Two prefixes of one string: the shorter is a prefix of the longer. */
  lemma PrefixesNest(s: string, a: string, b: string)
    requires StartsWith(s, a) && StartsWith(s, b)
    ensures StartsWith(a, b) || StartsWith(b, a)
  {
    if |a| <= |b| {
      assert b[..|a|] == s[..|a|];
    } else {
      assert a[..|b|] == s[..|b|];
    }
  }

  /** `s` ends with `p` (Python `endswith`). */
  predicate EndsWith(s: string, p: string) {
    |p| <= |s| && s[|s| - |p|..] == p
  }

  /** `p` occurs in `s` starting at index `i`. */
  predicate OccursAt(s: string, p: string, i: int) {
    0 <= i && i + |p| <= |s| && s[i..i + |p|] == p
  }

  /** The first position at or after `from` where `p` occurs in `s`. */
  function FindFrom(s: string, p: string, from: nat): (r: Option<nat>)
    ensures r.Some? ==> from <= r.value && OccursAt(s, p, r.value)
    ensures forall j :: from <= j && (r.None? || j < r.value) ==> !OccursAt(s, p, j)
    decreases |s| - from
  {
    if from + |p| > |s| then None
    else if s[from..from + |p|] == p then Some(from)
    else FindFrom(s, p, from + 1)
  }

  /** Substring test: JavaScript `includes`, Python `in` on strings. */
  predicate Contains(s: string, p: string) {
    FindFrom(s, p, 0).Some?
  }

  lemma ContainsIff(s: string, p: string)
    ensures Contains(s, p) <==> exists i :: OccursAt(s, p, i)
  {
    if !Contains(s, p) {
      forall i | OccursAt(s, p, i) ensures false {
      }
    }
  }

  /** Index of the first `c` in `s`, or `|s|` when there is none. */
  function FirstIndex(s: string, c: char): (r: nat)
    ensures r <= |s|
    ensures r < |s| ==> s[r] == c
  {
    if |s| == 0 then 0
    else if s[0] == c then 0
    else 1 + FirstIndex(s[1..], c)
  }

  /** No `c` comes before `FirstIndex(s, c)`. */
  lemma {:induction false} FirstIndexFirst(s: string, c: char)
    ensures forall j :: 0 <= j < FirstIndex(s, c) ==> s[j] != c
    ensures c !in s <==> FirstIndex(s, c) == |s|
    decreases |s|
  {
    if |s| > 0 && s[0] != c {
      FirstIndexFirst(s[1..], c);
      assert forall j :: 1 <= j < |s| ==> s[j] == s[1..][j - 1];
    }
  }

  /** The position before which no `c` occurs and at which one does (or
      the end) is the first one. */
  lemma FirstIndexIs(s: string, c: char, k: nat)
    requires k <= |s| && (k < |s| ==> s[k] == c)
    requires forall j :: 0 <= j < k ==> s[j] != c
    ensures FirstIndex(s, c) == k
  {
    FirstIndexFirst(s, c);
  }

  /** Python `s.split(c, 1)[0]`: the text before the first `c`. */
  function Before(s: string, c: char): (r: string)
    ensures |r| <= |s|
    ensures |r| < |s| ==> s[|r|] == c
  {
    s[..FirstIndex(s, c)]
  }

  /** `Before` is the longest prefix free of `c`. */
  lemma BeforeSpec(s: string, c: char)
    ensures forall i :: 0 <= i < |Before(s, c)| ==> Before(s, c)[i] == s[i] && s[i] != c
    ensures c !in s <==> Before(s, c) == s
  {
    FirstIndexFirst(s, c);
  }

  /** Python `s.split(c, 1)[1]`: the text after the first `c`. */
  function After(s: string, c: char): (r: string)
    requires c in s
    ensures |Before(s, c)| + 1 + |r| == |s|
  {
    FirstIndexFirst(s, c);
    s[FirstIndex(s, c) + 1..]
  }

  /** What `After` returns, character by character. */
  lemma AfterSpec(s: string, c: char)
    requires c in s
    ensures forall i :: 0 <= i < |After(s, c)| ==> After(s, c)[i] == s[|Before(s, c)| + 1 + i]
  {
  }

  /** `s.split(c)` with a single-character separator; the same in Python
      and JavaScript: always at least one part, none containing `c`. */
  function Split(s: string, c: char): (parts: seq<string>)
    ensures |parts| >= 1
    decreases |s|
  {
    var k := FirstIndex(s, c);
    if k == |s| then [s] else [s[..k]] + Split(s[k + 1..], c)
  }

  /** A separator between two texts splits them apart: the parts of the
      whole are the parts of the first followed by the parts of the second. */
  lemma {:induction false} SplitConcat(p: string, q: string, c: char)
    ensures Split(p + [c] + q, c) == Split(p, c) + Split(q, c)
    decreases |p|
  {
    var k := FirstIndex(p, c);
    if k == |p| {
      SplitConcatWhole(p, q, c);
    } else {
      SplitConcat(p[k + 1..], q, c);
      SplitConcatStep(p, q, c, k);
    }
  }

  lemma SplitConcatWhole(p: string, q: string, c: char)
    requires FirstIndex(p, c) == |p|
    ensures Split(p + [c] + q, c) == Split(p, c) + Split(q, c)
  {
    var s := p + [c] + q;
    FirstIndexFirst(p, c);
    FirstIndexIs(s, c, |p|);
    SplitAt(s, c, |p|);
    assert s[..|p|] == p && s[|p| + 1..] == q;
  }

  lemma SplitConcatStep(p: string, q: string, c: char, k: nat)
    requires FirstIndex(p, c) == k < |p|
    requires Split(p[k + 1..] + [c] + q, c) == Split(p[k + 1..], c) + Split(q, c)
    ensures Split(p + [c] + q, c) == Split(p, c) + Split(q, c)
  {
    SplitExtend(p, q, c, k);
    SplitAt(p, c, k);
    ConsAssoc(p[..k], Split(p[k + 1..], c), Split(q, c));
  }

  lemma ConsAssoc<T>(x: T, a: seq<T>, b: seq<T>)
    ensures [x] + (a + b) == ([x] + a) + b
  {
  }

  /** A separator and text added after the first `c` stay in the later
      parts. */
  lemma SplitExtend(p: string, q: string, c: char, k: nat)
    requires FirstIndex(p, c) == k < |p|
    ensures Split(p + [c] + q, c) == [p[..k]] + Split(p[k + 1..] + [c] + q, c)
  {
    var r := [c] + q;
    FirstIndexExtend(p, r, c, k);
    assert p + r == p + [c] + q;
    SplitAt(p + r, c, k);
    assert (p + r)[..k] == p[..k];
    assert (p + r)[k + 1..] == p[k + 1..] + [c] + q;
  }

  /** Text added after the first `c` does not move it. */
  lemma FirstIndexExtend(p: string, r: string, c: char, k: nat)
    requires FirstIndex(p, c) == k < |p|
    ensures FirstIndex(p + r, c) == k
  {
    FirstIndexFirst(p, c);
    FirstIndexIs(p + r, c, k);
  }

  /** The first part ends at the first separator. */
  lemma SplitAt(s: string, c: char, k: nat)
    requires FirstIndex(s, c) == k < |s|
    ensures Split(s, c) == [s[..k]] + Split(s[k + 1..], c)
  {
  }

  /** A text without the separator is one part. */
  lemma SplitNone(s: string, c: char)
    requires c !in s
    ensures Split(s, c) == [s]
  {
    FirstIndexFirst(s, c);
  }

  /** The parts joined with `c` between consecutive ones. */
  function Join(parts: seq<string>, c: char): string
    requires |parts| >= 1
  {
    if |parts| == 1 then parts[0] else parts[0] + [c] + Join(parts[1..], c)
  }

  /** Splitting loses nothing: the parts joined back give the original. */
  lemma {:induction false} JoinSplit(s: string, c: char)
    ensures Join(Split(s, c), c) == s
    decreases |s|
  {
    var k := FirstIndex(s, c);
    if k < |s| {
      JoinSplit(s[k + 1..], c);
      JoinSplitStep(s, c, k);
    }
  }

  lemma JoinSplitStep(s: string, c: char, k: nat)
    requires FirstIndex(s, c) == k < |s|
    requires Join(Split(s[k + 1..], c), c) == s[k + 1..]
    ensures Join(Split(s, c), c) == s
  {
    var rest := s[k + 1..];
    SplitAt(s, c, k);
    JoinCons(s[..k], Split(rest, c), c);
    assert s == s[..k] + [c] + rest;
  }

  lemma JoinCons(head: string, tail: seq<string>, c: char)
    requires |tail| >= 1
    ensures Join([head] + tail, c) == head + [c] + Join(tail, c)
  {
    assert ([head] + tail)[1..] == tail;
  }

  /** JavaScript `s.replace(pat, rep)` with a string pattern: only the first
      occurrence is replaced. */
  function ReplaceFirst(s: string, pat: string, rep: string): (r: string)
    ensures FindFrom(s, pat, 0).None? ==> r == s
    ensures FindFrom(s, pat, 0).Some? ==>
      var i := FindFrom(s, pat, 0).value;
      r == s[..i] + rep + s[i + |pat|..]
  {
    match FindFrom(s, pat, 0)
    case None => s
    case Some(i) => s[..i] + rep + s[i + |pat|..]
  }

  // ---------------------------------------------------------------------
  // Whitespace and trimming. Python's `strip` and the regular-expression
  // classes `\s` / `\S` share one set (`str.isspace`); JavaScript's `trim`
  // uses the ECMAScript WhiteSpace and LineTerminator sets. The two differ
  // on U+001C..U+001F, U+0085 and U+FEFF.

  datatype Flavor = Python | JavaScript

  predicate IsSpace(f: Flavor, c: char) {
    var n := c as int;
    (0x09 <= n <= 0x0D) || n == 0x20 || n == 0xA0 || n == 0x1680
    || (0x2000 <= n <= 0x200A) || n == 0x2028 || n == 0x2029
    || n == 0x202F || n == 0x205F || n == 0x3000
    || (f == Python && ((0x1C <= n <= 0x1F) || n == 0x85))
    || (f == JavaScript && n == 0xFEFF)
  }

  /** Number of leading whitespace characters. */
  function LeadingCount(s: string, f: Flavor): (n: nat)
    ensures n <= |s|
    ensures n < |s| ==> !IsSpace(f, s[n])
  {
    if |s| > 0 && IsSpace(f, s[0]) then 1 + LeadingCount(s[1..], f) else 0
  }

  /** Everything `LeadingCount` counts is whitespace. */
  lemma {:induction false} LeadingSpaces(s: string, f: Flavor)
    ensures forall i :: 0 <= i < LeadingCount(s, f) ==> IsSpace(f, s[i])
    decreases |s|
  {
    if |s| > 0 && IsSpace(f, s[0]) {
      LeadingSpaces(s[1..], f);
      assert forall i :: 1 <= i < |s| ==> s[i] == s[1..][i - 1];
    }
  }

  /** Leading whitespace removed: Python `lstrip`. */
  function LStrip(s: string, f: Flavor): (r: string)
    ensures |r| == |s| - LeadingCount(s, f)
    ensures r == [] || !IsSpace(f, r[0])
    decreases |s|
  {
    if |s| > 0 && IsSpace(f, s[0]) then LStrip(s[1..], f) else s
  }

  /** Trailing whitespace removed: Python `rstrip`. */
  function RStrip(s: string, f: Flavor): (r: string)
    ensures |r| <= |s|
    ensures r == [] || !IsSpace(f, r[|r| - 1])
    decreases |s|
  {
    if |s| > 0 && IsSpace(f, s[|s| - 1]) then RStrip(s[..|s| - 1], f) else s
  }

  /** `RStrip` keeps a prefix. */
  lemma {:induction false} RStripPrefix(s: string, f: Flavor)
    ensures RStrip(s, f) == s[..|RStrip(s, f)|]
    decreases |s|
  {
    if |s| > 0 && IsSpace(f, s[|s| - 1]) {
      RStripPrefix(s[..|s| - 1], f);
    }
  }

  /** Whitespace removed at both ends: Python `strip`, JavaScript `trim`. */
  function Strip(s: string, f: Flavor): (r: string)
    ensures |r| <= |LStrip(s, f)| <= |s|
    ensures r == [] || (!IsSpace(f, r[0]) && !IsSpace(f, r[|r| - 1]))
  {
    RStripPrefix(LStrip(s, f), f);
    RStrip(LStrip(s, f), f)
  }

  /** `LStrip` drops exactly the leading whitespace `LeadingCount` counts. */
  lemma {:induction false} LStripDrop(s: string, f: Flavor)
    ensures LStrip(s, f) == s[LeadingCount(s, f)..]
    decreases |s|
  {
    if |s| > 0 && IsSpace(f, s[0]) {
      LStripDrop(s[1..], f);
      assert s[1..][LeadingCount(s[1..], f)..] == s[1 + LeadingCount(s[1..], f)..];
    }
  }

  /** Leading whitespace of a whitespace prefix followed by more text. */
  lemma LeadingCountAfter(w: string, t: string, f: Flavor)
    requires forall i :: 0 <= i < |w| ==> IsSpace(f, w[i])
    requires |t| > 0 && !IsSpace(f, t[0])
    ensures LeadingCount(w + t, f) == |w|
  {
    LeadingSpaces(w + t, f);
    assert forall i :: 0 <= i < |w| ==> (w + t)[i] == w[i];
    assert (w + t)[|w|] == t[0];
  }

  /** The first two characters of a stripped string, read off the original. */
  lemma StripHead(s: string, f: Flavor)
    requires |Strip(s, f)| >= 1
    ensures s[LeadingCount(s, f)] == Strip(s, f)[0]
    ensures |Strip(s, f)| >= 2 ==> s[LeadingCount(s, f) + 1] == Strip(s, f)[1]
  {
    LStripDrop(s, f);
    RStripPrefix(LStrip(s, f), f);
  }

  /** Stripping adds no character. */
  lemma StripKeepsOut(s: string, f: Flavor, c: char)
    requires c !in s
    ensures c !in Strip(s, f)
  {
    LStripDrop(s, f);
    RStripPrefix(LStrip(s, f), f);
    var l := LStrip(s, f);
    assert forall i :: 0 <= i < |l| ==> l[i] == s[LeadingCount(s, f) + i];
    var r := Strip(s, f);
    assert forall i :: 0 <= i < |r| ==> r[i] == l[i];
  }

  /** A string with no whitespace at either end is its own strip. */
  lemma StripNoop(s: string, f: Flavor)
    requires s == [] || (!IsSpace(f, s[0]) && !IsSpace(f, s[|s| - 1]))
    ensures Strip(s, f) == s
  {
  }

  // ---------------------------------------------------------------------
  // Case folding.

  /** Lower case of an ASCII letter; other characters are unchanged. */
  function LowerChar(c: char): char {
    if 'A' <= c <= 'Z' then (c as int + 32) as char else c
  }

  /** `toLowerCase` / `lower`, restricted to ASCII letters. */
  function Lower(s: string): (r: string)
    ensures |r| == |s|
    ensures forall i :: 0 <= i < |s| ==> r[i] == LowerChar(s[i])
  {
    seq(|s|, i requires 0 <= i < |s| => LowerChar(s[i]))
  }

  // ---------------------------------------------------------------------
  // Decimal numerals.

  function DigitChar(d: nat): char
    requires d < 10
  {
    ('0' as int + d) as char
  }

  /** Decimal numeral of `n`, without leading zeros. */
  function NatToString(n: nat): (r: string)
    ensures |r| >= 1
    ensures forall i :: 0 <= i < |r| ==> '0' <= r[i] <= '9'
    ensures n >= 10 ==> |r| >= 2
    decreases n
  {
    if n < 10 then [DigitChar(n)] else NatToString(n / 10) + [DigitChar(n % 10)]
  }

  /** Different numbers have different numerals. */
  lemma {:induction false} NatToStringInjective(a: nat, b: nat)
    requires NatToString(a) == NatToString(b)
    ensures a == b
    decreases a
  {
    var sa, sb := NatToString(a), NatToString(b);
    if a >= 10 && b >= 10 {
      assert sa[..|sa| - 1] == NatToString(a / 10);
      assert sb[..|sb| - 1] == NatToString(b / 10);
      NatToStringInjective(a / 10, b / 10);
      assert sa[|sa| - 1] == sb[|sb| - 1];
    }
  }
}

=== FILE: theme.dfy ===
/** The light/dark theme switch, in its four copies: `js/theme.js` (with a
    "follow the system" button that disables the theme button while it is
    on), `technical/js/theme.js` and the `initTheme` of
    `src/js/ui-effects.js` and `technical/js/ui-effects.js` (the theme
    button is never disabled, and there is no working system button), and
    the older handler in `script.js`. `localStorage` and the `data-theme`
    attribute are fields of the state; the operating system's colour scheme
    is a parameter. */
module Theme {
  import opened Maybe

  /** The stored preference `localStorage.theme` (`None` when absent), the
      `data-theme` attribute of the page (`None` when absent), and the two
      buttons: whether the theme button is disabled and whether the system
      button is lit. */
  datatype State = State(stored: Option<string>, attr: Option<string>, toggleDisabled: bool, systemActive: bool)

  /** `!localStorage.getItem('theme')`: nothing stored, or an empty string. */
  predicate IsSystem(stored: Option<string>) {
    stored.None? || stored.value == ""
  }

  /** The theme the operating system asks for. */
  function OsTheme(dark: bool): string {
    if dark then "dark" else "light"
  }

  /** `getThemeState().currentTheme`: the attribute when it is set and not
      empty, else the operating system's theme. */
  function Current(s: State, osDark: bool): (t: string)
    ensures t != ""
  {
    if s.attr.Some? && s.attr.value != "" then s.attr.value else OsTheme(osDark)
  }

  /** The toggle's rule: `dark` becomes `light`, anything else `dark`. */
  function Flip(theme: string): (t: string)
    ensures t != theme && t in {"dark", "light"}
  {
    if theme == "dark" then "light" else "dark"
  }

  lemma FlipTwice(theme: string)
    requires theme in {"dark", "light"}
    ensures Flip(Flip(theme)) == theme
  {
  }

  /** Which copy: `Switchable` is `js/theme.js`; `AlwaysOn` the other three
      with `initTheme`. */
  datatype Variant = Switchable | AlwaysOn

  datatype Event = Toggle | SystemToggle | OsChange(dark: bool)

  /** `updateUIState`: the system button lit in system mode; the theme
      button disabled with it only in `js/theme.js`. */
  function Buttons(s: State, isSystem: bool, v: Variant): (r: State)
    ensures r.stored == s.stored && r.attr == s.attr && r.systemActive == isSystem
    ensures r.toggleDisabled <==> v == Switchable && isSystem
  {
    s.(systemActive := isSystem, toggleDisabled := v == Switchable && isSystem)
  }

  /** The buttons agree with the stored preference, and the attribute holds
      a theme. */
  predicate Inv(s: State, v: Variant) {
    s.systemActive == IsSystem(s.stored)
    && (s.toggleDisabled <==> v == Switchable && IsSystem(s.stored))
    && s.attr.Some? && s.attr.value != ""
  }

  /** Page load: the attribute already on the page, else the system theme,
      is written back to the attribute, and the buttons are set from the
      stored preference. */
  function Init(stored: Option<string>, attr: Option<string>, osDark: bool, v: Variant): (s: State)
    ensures Inv(s, v) && s.stored == stored
    ensures s.attr == Some(if attr.Some? && attr.value != "" then attr.value else OsTheme(osDark))
  {
    var s0 := State(stored, attr, false, false);
    Buttons(s0.(attr := Some(Current(s0, osDark))), IsSystem(stored), v)
  }

  /** The three handlers. The theme button does nothing while disabled and
      otherwise flips the current theme and stores it, leaving system mode;
      the system button (only in `js/theme.js`) either stores the theme on
      show or forgets the preference and shows the system theme; a change of
      the system scheme is followed only in system mode. */
  function Step(s: State, e: Event, osDark: bool, v: Variant): (r: State)
    ensures Inv(s, v) ==> Inv(r, v)
    ensures e.OsChange? && !IsSystem(s.stored) ==> r == s
    ensures e.OsChange? && IsSystem(s.stored) ==> r == s.(attr := Some(OsTheme(e.dark)))
    ensures e.Toggle? && !s.toggleDisabled ==>
      r.attr == Some(Flip(Current(s, osDark))) && r.stored == r.attr && !IsSystem(r.stored)
    ensures e.Toggle? && s.toggleDisabled ==> r == s
    ensures e.SystemToggle? && v == AlwaysOn ==> r == s
    ensures e.SystemToggle? && v == Switchable && IsSystem(s.stored) ==>
      r.stored == Some(Current(s, osDark)) && r.attr == s.attr && !r.systemActive && !r.toggleDisabled
    ensures e.SystemToggle? && v == Switchable && !IsSystem(s.stored) ==>
      r.stored.None? && r.attr == Some(OsTheme(osDark)) && r.systemActive && r.toggleDisabled
  {
    match e
    case Toggle =>
      if s.toggleDisabled then s
      else
        var t := Flip(Current(s, osDark));
        Buttons(s.(stored := Some(t), attr := Some(t)), false, v)
    case SystemToggle =>
      if v == AlwaysOn then s
      else if IsSystem(s.stored) then Buttons(s.(stored := Some(Current(s, osDark))), false, v)
      else Buttons(s.(stored := None, attr := Some(OsTheme(osDark))), true, v)
    case OsChange(dark) =>
      if IsSystem(s.stored) then s.(attr := Some(OsTheme(dark))) else s
  }

  /** In `js/theme.js` the theme button works exactly when a preference is
      stored; in the other copies it always works. */
  lemma ToggleEnabledIff(s: State, v: Variant)
    requires Inv(s, v)
    ensures !s.toggleDisabled <==> v == AlwaysOn || !IsSystem(s.stored)
  {
  }

  /** The system button in `js/theme.js`: from system mode it keeps the
      theme on show and stores it; pressed again it forgets the preference
      and shows the system theme. */
  lemma SystemToggleRoundTrip(s: State, osDark: bool)
    requires Inv(s, Switchable) && IsSystem(s.stored)
    ensures var r := Step(s, SystemToggle, osDark, Switchable);
      r.attr == s.attr && r.stored == s.attr && !IsSystem(r.stored) && !r.toggleDisabled
    ensures var r := Step(Step(s, SystemToggle, osDark, Switchable), SystemToggle, osDark, Switchable);
      r.stored.None? && r.attr == Some(OsTheme(osDark)) && r.toggleDisabled && r.systemActive
  {
  }

  /** Two presses of an enabled theme button show and store the theme that
      was on show, when it was `dark` or `light`. */
  lemma ToggleTwice(s: State, osDark: bool, v: Variant)
    requires Inv(s, v) && !s.toggleDisabled && s.attr.value in {"dark", "light"}
    ensures var r := Step(Step(s, Toggle, osDark, v), Toggle, osDark, v);
      r.attr == s.attr && r.stored == s.attr
  {
    var r1 := Step(s, Toggle, osDark, v);
    FlipTwice(s.attr.value);
    assert !r1.toggleDisabled;
  }

  // ---------------------------------------------------------------------
  // `script.js`

  /** `getPreferredTheme`: the stored preference, else the system theme. */
  function Preferred(stored: Option<string>, osDark: bool): (t: string)
    ensures t != ""
    ensures !IsSystem(stored) ==> t == stored.value
    ensures IsSystem(stored) ==> t == OsTheme(osDark)
  {
    if !IsSystem(stored) then stored.value else OsTheme(osDark)
  }

  /** Page load: the preferred theme is applied, without being stored. */
  function ScriptInit(stored: Option<string>, osDark: bool): (s: State)
    ensures s.stored == stored && s.attr.Some?
    ensures !IsSystem(stored) ==> s.attr == stored
    ensures IsSystem(stored) ==> s.attr == Some(OsTheme(osDark))
  {
    State(stored, Some(Preferred(stored, osDark)), false, false)
  }

  /** The toggle reads the attribute itself (an absent one is not `dark`),
      flips it and persists it. */
  function ScriptToggle(s: State): (r: State)
    ensures r.attr == r.stored && !IsSystem(r.stored)
    ensures r.attr == Some(if s.attr == Some("dark") then "light" else "dark")
  {
    var t := if s.attr == Some("dark") then "light" else "dark";
    s.(stored := Some(t), attr := Some(t))
  }

  /** `systemThemeHandler`: with nothing stored the system theme is applied;
      applying never writes the stored preference. */
  function ScriptOsChange(s: State, dark: bool): (r: State)
    ensures r.stored == s.stored
    ensures !IsSystem(s.stored) ==> r == s
    ensures IsSystem(s.stored) ==> r.attr == Some(OsTheme(dark))
  {
    if IsSystem(s.stored) then s.(attr := Some(OsTheme(dark))) else s
  }

  /** Once the toggle has been pressed, the theme on show is the stored one
      and no change of the system scheme moves it. */
  lemma ScriptToggleSticks(s: State, dark: bool)
    ensures var r := ScriptToggle(s);
      ScriptOsChange(r, dark) == r && r.attr == Some(Preferred(r.stored, dark))
  {
  }
}

=== FILE: toggles.dfy ===
/** The small disclosure widgets of `src/js/main.js`: task-list items that
    check off on a click or key press (`initTaskListToggle`), and the date
    buttons that show or hide a card's badge list (`initCardDateBadgeToggle`)
    or a post's secondary metadata (`initSubpageMetaToggle`). */
module Toggles {
  import opened Maybe
  import opened Text
  import opened Scan

  // ---------------------------------------------------------------------
  // Task-list items

  /** A `li.task-list-item`: whether it carries `is-checked`, and its
      checkbox's `checked` when it has a checkbox. */
  datatype TaskItem = TaskItem(checked: bool, checkbox: Option<bool>)

  /** The class and the checkbox say the same thing (or there is no
      checkbox). */
  predicate Agree(t: TaskItem) {
    t.checkbox.None? || t.checkbox.value == t.checked
  }

  /** Where a click lands: on the item itself, or inside a link, button or
      form field within it. */
  datatype Target = Plain | Interactive

  datatype TaskEvent = Click(target: Target) | Key(key: string)

  /** The events that toggle an item: a click that is not on an
      interactive element inside it, and the Enter or Space key. */
  predicate Triggers(e: TaskEvent) {
    match e
    case Click(target) => target == Plain
    case Key(k) => k == "Enter" || k == " "
  }

  /** Set-up: a checked checkbox adds `is-checked`; nothing else changes. */
  function InitTask(t: TaskItem): (r: TaskItem)
    ensures r.checkbox == t.checkbox
    ensures r.checked <==> t.checked || t.checkbox == Some(true)
  {
    t.(checked := t.checked || t.checkbox == Some(true))
  }

  /** `toggleItem`: the class flips and the checkbox takes its new value. */
  function ToggleTask(t: TaskItem): (r: TaskItem)
    ensures r.checked != t.checked && Agree(r)
    ensures r.checkbox.Some? == t.checkbox.Some?
  {
    var next := !t.checked;
    TaskItem(next, if t.checkbox.Some? then Some(next) else None)
  }

  /** The item's listeners: a triggering event toggles it, any other leaves
      it as it was. */
  function OnTask(t: TaskItem, e: TaskEvent): (r: TaskItem)
    ensures Triggers(e) ==> r == ToggleTask(t)
    ensures !Triggers(e) ==> r == t
  {
    if Triggers(e) then ToggleTask(t) else t
  }

  function TaskRun(t: TaskItem, es: seq<TaskEvent>): TaskItem
    decreases |es|
  {
    if |es| == 0 then t else TaskRun(OnTask(t, es[0]), es[1..])
  }

  /** After a run of events the class has flipped once per triggering event,
      the item has kept or lacked its checkbox, and after any toggle at all
      the checkbox agrees with the class. */
  lemma {:induction false} TaskRunParity(t: TaskItem, es: seq<TaskEvent>)
    ensures var r := TaskRun(t, es);
      (r.checked <==> (t.checked <==> CountWhere(Triggers, es) % 2 == 0))
      && r.checkbox.Some? == t.checkbox.Some?
      && (CountWhere(Triggers, es) > 0 || Agree(t) ==> Agree(r))
    decreases |es|
  {
    if |es| > 0 {
      TaskRunParity(OnTask(t, es[0]), es[1..]);
    }
  }

  /** `initTaskListToggle`: on an individual post page (`.subpage-ind-page`)
      the items are left alone; elsewhere they are set up and then follow
      their events. */
  function TaskPage(onIndPage: bool, t: TaskItem, es: seq<TaskEvent>): (r: TaskItem)
    ensures onIndPage ==> r == t
    ensures !onIndPage ==> r == TaskRun(InitTask(t), es)
  {
    if onIndPage then t else TaskRun(InitTask(t), es)
  }

  // ---------------------------------------------------------------------
  // Date badges and secondary metadata

  /** The two disclosure widgets: the id prefix each generates. */
  datatype Kind = Badges | Meta

  function IdPrefix(k: Kind): string {
    match k
    case Badges => "card-date-badges-"
    case Meta => "subpage-meta-secondary-"
  }

  /** What set-up finds in one wrap: whether the date element and the
      hidden list are there, whether the list has a `.date-badge-item`, the
      list's current id (empty when it has none) and whether it is shown. */
  datatype Wrap = Wrap(hasDate: bool, hasList: bool, hasItem: bool, id: string, visible: bool)

  /** A wired widget: the list's id (also the date's `aria-controls`),
      whether the list carries `is-visible`, and the date's
      `aria-expanded`. */
  datatype Disclosure = Disclosure(id: string, visible: bool, expanded: string)

  function BoolString(b: bool): string {
    if b then "true" else "false"
  }

  /** The list's id: the one it has, else the prefix and the one-based
      position of the wrap. */
  function ListId(k: Kind, existing: string, index: nat): (id: string)
    ensures id != ""
    ensures existing != "" ==> id == existing
    ensures existing == "" ==> StartsWith(id, IdPrefix(k))
  {
    if existing != "" then existing else IdPrefix(k) + NatToString(index + 1)
  }

  /** Two wraps without ids of their own get different ids. */
  lemma GeneratedIdsDiffer(k: Kind, i: nat, j: nat)
    requires i != j
    ensures ListId(k, "", i) != ListId(k, "", j)
  {
    var p := IdPrefix(k);
    if ListId(k, "", i) == ListId(k, "", j) {
      assert NatToString(i + 1) == ListId(k, "", i)[|p|..];
      assert NatToString(j + 1) == ListId(k, "", j)[|p|..];
      NatToStringInjective(i + 1, j + 1);
    }
  }

  /** Set-up of the wrap at `index`: skipped (`None`) when the date or the
      list is missing, or, for badges, when the list holds no badge; else
      the list keeps or gets its id, and `aria-expanded` starts `false`. */
  function SetUp(k: Kind, w: Wrap, index: nat): (r: Option<Disclosure>)
    ensures r.None? <==> !w.hasDate || !w.hasList || (k == Badges && !w.hasItem)
    ensures r.Some? ==> r.value.expanded == "false" && r.value.visible == w.visible
    ensures r.Some? ==> r.value.id == ListId(k, w.id, index)
  {
    if !w.hasDate || !w.hasList then None
    else if k == Badges && !w.hasItem then None
    else Some(Disclosure(ListId(k, w.id, index), w.visible, "false"))
  }

  /** `toggleBadges` / `toggleSecondary`: `is-visible` flips and
      `aria-expanded` reports its new value. */
  function ToggleList(d: Disclosure): (r: Disclosure)
    ensures r.visible != d.visible
    ensures r.expanded == BoolString(r.visible)
    ensures r.id == d.id
  {
    var shown := !d.visible;
    Disclosure(d.id, shown, BoolString(shown))
  }

  /** A click on the date, or Enter or Space on it. */
  datatype DateEvent = DateClick | DateKey(key: string)

  function OnDate(d: Disclosure, e: DateEvent): (r: Disclosure)
    ensures e.DateClick? || e.key == "Enter" || e.key == " " ==> r == ToggleList(d)
    ensures e.DateKey? && e.key != "Enter" && e.key != " " ==> r == d
  {
    match e
    case DateClick => ToggleList(d)
    case DateKey(key) => if key == "Enter" || key == " " then ToggleList(d) else d
  }

  function DateRun(d: Disclosure, es: seq<DateEvent>): Disclosure
    decreases |es|
  {
    if |es| == 0 then d else DateRun(OnDate(d, es[0]), es[1..])
  }

  /** A list that starts hidden: after set-up and any events, `aria-expanded`
      says exactly whether it is shown, and the id never changes. */
  lemma {:induction false} ExpandedMirrors(d: Disclosure, es: seq<DateEvent>)
    requires d.expanded == BoolString(d.visible)
    ensures DateRun(d, es).expanded == BoolString(DateRun(d, es).visible)
    ensures DateRun(d, es).id == d.id
    decreases |es|
  {
    if |es| > 0 {
      ExpandedMirrors(OnDate(d, es[0]), es[1..]);
    }
  }

  /** The wraps of a page, set up in order. */
  function SetUpAll(k: Kind, ws: seq<Wrap>): (r: seq<Option<Disclosure>>)
    ensures |r| == |ws|
    ensures forall i :: 0 <= i < |ws| ==> r[i] == SetUp(k, ws[i], i)
  {
    seq(|ws|, i requires 0 <= i < |ws| => SetUp(k, ws[i], i))
  }

  /** Two wired widgets whose lists had no id of their own control
      different lists. */
  lemma SetUpAllIdsDiffer(k: Kind, ws: seq<Wrap>, i: nat, j: nat)
    requires i < |ws| && j < |ws| && i != j
    requires ws[i].id == "" && ws[j].id == ""
    requires SetUpAll(k, ws)[i].Some? && SetUpAll(k, ws)[j].Some?
    ensures SetUpAll(k, ws)[i].value.id != SetUpAll(k, ws)[j].value.id
  {
    GeneratedIdsDiffer(k, i, j);
  }
}
